=== FILE: README.md ===
# SistemaV2 command relay, modelled in Dafny

SistemaV2 ("Registra Perú") is a web front end to a Telegram bot. A browser
page lists the commands of a catalog (`comandos.json`) and builds a command
from a form. It sends the command to a FastAPI server (`/consulta`). The server's
handler `enviar_comando` then does the following:

- it checks the syntax of `/nm` commands;
- it notes the newest message id of the bot chat (the watermark);
- it sends the command;
- it polls the chat for up to 90 seconds and keeps every new message until
  five are held;
- it sorts them by id and merges them into one response document;
- it writes that document to `respuestas.json`.

The page then reads `respuestas.json` through the static mount `/temp_files`
until it sees a document worth showing. It renders that document as HTML,
with download buttons served by `/descargar`. The server's own `/respuesta`
endpoint reads the same file, but the page never calls it.

This project models that pipeline as pure functions over immutable data.
Everything the outside world decides is an input:

- what each poll of the chat returned and how long it took;
- whether a download was saved, and the time it was stamped with;
- which paths exist on disk and what `respuestas.json` holds;
- what the server answered each browser request.

The modules follow the program's structure:

| module | models |
|---|---|
| `Wrappers`, `Strings`, `Decimal` | Option/Result, Python's and JavaScript's `strip`, `split`/`join`, case mapping, decimal digits |
| `Messages`, `CommandFormat` | chat messages; the `/nm` format check of `enviar_comando` |
| `Polling`, `Ordering` | the watermark, the capture loop with its dedup and cap, the sort by id |
| `Aggregation` | the merged response (`texto`, `archivos`, `archivo`, `tipo_respuesta`), file naming, the document as JSON |
| `Dispatch` | `enviar_comando` end to end, with its exception mapping and FloodWait restarts |
| `Janitor` | `limpiar_temp_files` |
| `Catalog` | `_validar_estructura`, `cargar_comandos`, `secciones`, `listar_comandos`, `buscar_comando`, `tipo_respuesta_de` |
| `Api` | `ntpath.basename`/`ntpath.join`, `_safe_temp_path`, and the status decisions of the endpoints of `Backend/main.py` |
| `FrontendText`, `FrontendLines` | `escapeHtml`, `mdBoldToStrong`, `inlineCodeToCode`, `limpiarBloques`, `parsearPares` |
| `FrontendMarkup`, `FrontendRender` | the HTML fragments `renderResultado` builds, and a corrected formatter |
| `FrontendQuery` | command building in `ejecutarConsulta` and the poller `esperarYMostrarResultado` |
| `Flow` | the browser and the endpoints together |

Three behaviours of the code that a reader might not expect, all modelled
as written:

- **Connection failures.** `conectar()` is called inside the `try` of
  `enviar_comando`, so a connection failure becomes an error document rather
  than a fatal error.
- **The capture cap.** The cap of five is checked only after a whole batch,
  so nothing truncates a batch that crosses it.
- **The `/nm` check.** It counts the pieces of `split("|")`; it does not ask
  for three non-empty fields.
- **No code in the other lines.** The block of other lines is escaped
  before `inlineCodeToCode` runs, and `escapeHtml` turns every backtick
  into `&#96;`, so that block never holds a `code` element.

Paths follow Python 3.12's `ntpath`, because every default directory of the
program is a Windows path (`C:\Proyectos\SistemaV2\...`).

## Model

| member | source | states |
|---|---|---|
| CommandFormat.Validate | Backend/bot_handler.py:104-110 | the format error is returned exactly when the command starts with `/nm` and does not hold exactly two bars, and its text is the fixed format message |
| CommandFormat.NmCheckIsBarCount | Backend/bot_handler.py:104-106 | splitting at the bar character gives three pieces exactly when the command holds two bars, so the check accepts exactly the commands not starting with `/nm` plus those with two bars |
| CommandFormat.ThreeFieldsPass | Backend/bot_handler.py:104-106 | three bar-free fields joined by bars always pass the check |
| CommandFormat.EmptyFieldsPass | Backend/bot_handler.py:104-106 | `/nm` followed by a space and two bars, whose three fields are all empty, passes, because only pieces are counted |
| CommandFormat.NmxChecked | Backend/bot_handler.py:104-106 | `/nmx` followed by one bar-separated pair falls under the check and is rejected |
| CommandFormat.BareNmRejected | Backend/bot_handler.py:104-110 | a bare `/nm` is rejected |
| Polling.Watermark | Backend/bot_handler.py:117-121 | the watermark is the id of the newest message, or 0 when the history is empty or the fetch raised |
| Polling.AcceptInv | Backend/bot_handler.py:145-149 | taking one message keeps the capture invariant: ids are distinct, all above the watermark, and `seen_ids` equals the set of captured ids; the captured ids grow exactly by the message's id when it is non-zero and above the watermark |
| Polling.Step | Backend/bot_handler.py:145-149 | a batch only appends messages, each from that batch, and at most as many as it held |
| Polling.StepInv | Backend/bot_handler.py:145-149 | a whole batch keeps the invariant, and the captured ids grow by exactly the batch's new ids above the watermark |
| Polling.StepAllNew | Backend/bot_handler.py:145-149 | a batch of distinct, unseen messages above the watermark is appended whole, in fetch order |
| Polling.CollectInv | Backend/bot_handler.py:137-149 | however the poll windows overlap, after `n` rounds the captured ids are exactly the ids above the watermark fetched so far, with no duplicates |
| Polling.Collect | Backend/bot_handler.py:137-149 | every message captured after `n` rounds was fetched in one of those rounds |
| Polling.CollectExtends | Backend/bot_handler.py:145-149 | a round only appends: the messages captured before it are a prefix of those captured after it |
| Polling.RoundsFrom | Backend/bot_handler.py:137-154 | the loop never runs more than 18 rounds, because each round sleeps 5 s inside a 90 s budget |
| Polling.RoundsStartInTime | Backend/bot_handler.py:137 | every round that runs starts before 90 s have elapsed |
| Polling.RoundsBelowCap | Backend/bot_handler.py:153-154 | the cap is only checked after a whole batch: every round before the last held fewer than five messages |
| Polling.RoundsStop | Backend/bot_handler.py:137-154 | the loop stops only at the deadline, or after a round that brought the total to five or more |
| Polling.PollCaptures | Backend/bot_handler.py:132-154 | the captured messages have pairwise distinct ids, all above the watermark, and they are exactly the new ids of the rounds that ran |
| Polling.Poll | Backend/bot_handler.py:132-154 | the captured messages have pairwise distinct ids, all above the watermark, and each was fetched in a round that ran |
| Polling.PollBound | Backend/bot_handler.py:140-154 | with fetches of at most 20 messages, fewer than 25 messages are ever captured |
| Polling.CapDoesNotTruncate | Backend/bot_handler.py:145-154 | one batch of six new messages is captured whole, so the count ends above the cap of five |
| Ordering.SortById | Backend/bot_handler.py:160 | the sorted list is a permutation of the captured list, with ids non-decreasing |
| Ordering.SortStrict | Backend/bot_handler.py:156-160 | captured messages have distinct ids, so after sorting the ids strictly ascend |
| Ordering.DistinctIdsPermutation | Backend/bot_handler.py:160 | sorting keeps ids pairwise distinct |
| Aggregation.Extension | Backend/bot_handler.py:169 | the extension is the reported one when non-empty, and `.bin` otherwise |
| Aggregation.ParseFileNameRoundTrip | Backend/bot_handler.py:170 | a saved file's name `respuesta_{ts}_{idx}{ext}` can be parsed back into its timestamp, index and extension |
| Aggregation.FileNamesDiffer | Backend/bot_handler.py:164-170 | two attachments with different indices never share a file name, whatever their timestamps |
| Aggregation.Fragments | Backend/bot_handler.py:164-166 | the collected texts are stripped, and there are none exactly when no message has text |
| Aggregation.FragmentOf | Backend/bot_handler.py:164-166 | the stripped text of every text-bearing message is among the fragments |
| Aggregation.FragmentsAppend | Backend/bot_handler.py:164-166 | collecting texts distributes over concatenation, so the fragments keep message order |
| Aggregation.FragmentsOne | Backend/bot_handler.py:165-166 | one message contributes its stripped text when its text is non-empty, and nothing otherwise |
| Aggregation.FinalTextSpec | Backend/bot_handler.py:164-180 | `texto` is the command itself when no message had text; otherwise it is the stripped texts of the text-bearing messages, in order, joined by a blank line and then stripped, and it contains every message's stripped text |
| Aggregation.FinalText | Backend/bot_handler.py:180 | `texto` is the command when no message had text, and stripped otherwise |
| Aggregation.SavedIndices | Backend/bot_handler.py:164-175 | the saved positions are exactly the positions whose media was downloaded, in increasing order |
| Aggregation.SavedFiles | Backend/bot_handler.py:164-175 | one name per saved position, in the same order: the `i`-th name is `respuesta_{ts}_{idx}{ext}` of the `i`-th position whose media was downloaded |
| Aggregation.SavedFilesDistinct | Backend/bot_handler.py:164-175 | the saved files of one dispatch have pairwise distinct names |
| Aggregation.FailedDownloadOmitsOnlyIt | Backend/bot_handler.py:172-178 | a failed download removes that position from the saved ones and changes nothing else |
| Aggregation.FailedDownloadNames | Backend/bot_handler.py:172-178 | a failed download removes its own name from the saved files and keeps every other name, in order; a position that was not saved anyway changes nothing |
| Aggregation.Aggregate | Backend/bot_handler.py:160-191 | the success document has `texto` as the command when no message had text and otherwise the blank-line join of the stripped texts, stripped; `archivos` names the saved positions in order; `archivo` is the first of them or None, and `tipo_respuesta` is `archivo` exactly when a file was saved |
| Aggregation.Document | Backend/bot_handler.py:184-191 | the dictionary always carries `status` (`ok` or `error`, by the reply) and the reply's `texto` |
| Aggregation.DocumentRoundTrip | Backend/bot_handler.py:184-191 | reading a written document back gives the reply it was written from |
| Dispatch.Dispatch | Backend/bot_handler.py:104-110 | a command failing the format check yields the format error, whatever the world does |
| Dispatch.OnFailure | Backend/bot_handler.py:203-214 | a FloodWait retries, an RPC error yields `Error RPC: ` plus its text, and any other error yields its text |
| Dispatch.PublishedIffOk | Backend/bot_handler.py:184-198 | a document is published exactly when the call succeeds; it is the returned document, and it is consistent |
| Dispatch.ValidationBeforeIO | Backend/bot_handler.py:104-112 | a malformed `/nm` command is answered before any I/O: the outcome depends neither on the configuration nor on the world |
| Dispatch.FloodWaitRetries | Backend/bot_handler.py:203-206 | a FloodWait while connecting or sending restarts the call with the next attempt |
| Dispatch.FailureMessages | Backend/bot_handler.py:112-214 | a failure while connecting, or while sending once connected with a configured bot, ends the call with its mapped text (`Error RPC: ` plus the text for an RPC error); a missing `BOT_USERNAME` ends it with the configuration error |
| Dispatch.CapturedReply | Backend/bot_handler.py:124-198 | once sent, with a non-empty capture, the call returns and publishes the aggregate of the captured messages sorted by id; if writing `respuestas.json` raises, it returns that error's text and publishes nothing |
| Dispatch.SilentBotTimesOut | Backend/bot_handler.py:156-157 | when no fetched message is newer than the watermark, the call ends with the no-reply error |
| Dispatch.PollRepeatedWindow | Backend/bot_handler.py:137-149 | polling the same window again and again captures its new messages only once |
| Dispatch.StepNothingNew | Backend/bot_handler.py:145-149 | a batch whose new ids were all seen changes nothing |
| Dispatch.AggregateOneText | Backend/bot_handler.py:164-191 | one stripped text message gives that text as a text response with no files |
| Dispatch.ScenarioTextReply | Backend/bot_handler.py:117-198 | a bot answering `Resultado` next to older history makes the call return and publish that text |
| Dispatch.ScenarioFileReply | Backend/bot_handler.py:117-198 | a text plus a PDF, fetched newest first, give the text, one saved file under index 1, and the kind `archivo` |
| Janitor.Sweep | Backend/bot_handler.py:52-64 | the sweep keeps every entry that is not a stale regular file, and invents none |
| Janitor.SweepIsKeep | Backend/bot_handler.py:56-61 | when removals succeed, exactly the directories and the files modified less than a day ago remain, in listing order |
| Janitor.SweepStopsAtFailure | Backend/bot_handler.py:53-64 | the first stale file that cannot be removed ends the sweep: it and every later entry stay |
| Janitor.SweepIdempotent | Backend/bot_handler.py:52-64 | sweeping twice at the same moment deletes nothing more |
| Janitor.SweepMonotone | Backend/bot_handler.py:54-61 | a later sweep keeps no entry that an earlier one deleted |
| Catalog.CheckCommand | Backend/utils.py:44-49 | one element is accepted exactly when it is an object with string `nombre` and `descripcion`; otherwise the error names the section and the first missing field |
| Catalog.CheckCommands | Backend/utils.py:44-49 | a list is accepted exactly when every element is; otherwise the error is that of the first bad element |
| Catalog.CheckSection | Backend/utils.py:41-49 | a section fails with the not-a-list error exactly when its value is not a list |
| Catalog.Validate | Backend/utils.py:39-50 | validation succeeds exactly on well-formed data and returns it unchanged; otherwise it reports the first bad section in file order |
| Catalog.ValidateRaw | Backend/utils.py:39-50 | every well-formed catalog validates to itself |
| Catalog.ValidateOk | Backend/utils.py:39-50 | every command of a validated catalog has string `nombre` and `descripcion` |
| Catalog.DictOf | Backend/utils.py:58 | the object `json.load` builds has distinct keys, the same keys as the text, and for each key the value of its last occurrence |
| Catalog.DictOfOrder | Backend/utils.py:58 | keys keep the order of their first occurrence |
| Catalog.DictOfDistinct | Backend/utils.py:58 | an object without duplicate keys is read as written |
| Catalog.Store | Backend/utils.py:58 | storing a key overwrites its value in place, or appends it when new, and leaves other entries alone |
| Catalog.ReadCatalog | Backend/utils.py:53-59 | a missing file gives FileNotFound, text that is not JSON gives the decode error, and a top level that is not an object gives the attribute error of `data.items()`; otherwise reading succeeds exactly when the object, with duplicate keys merged as a Python dict merges them, is well formed, and returns that object |
| Catalog.Load | Backend/utils.py:62-71 | without a reason to reload the cache is returned unchanged; a successful reload takes the file's modification time and its object, duplicate keys merged |
| Catalog.LoadMissingFile | Backend/utils.py:62-71 | a missing file is reported whatever was cached |
| Catalog.LoadStable | Backend/utils.py:62-71 | a second load without force of the same file returns the same cache |
| Catalog.LoadSeesChange | Backend/utils.py:66-69 | a changed modification time forces a re-read: the load succeeds exactly when the new content is readable, and then holds the new object |
| Catalog.Secciones | Backend/utils.py:82-85 | the section keys are listed in catalog order |
| Catalog.SeccionesLookup | Backend/utils.py:82-93 | a key is listed by `secciones` exactly when looking it up succeeds |
| Catalog.Lookup | Backend/utils.py:93 | a key is found exactly when some section has it, and the result is that section's list |
| Catalog.Tag | Backend/utils.py:97 | the tagged command has every key of the command with its value, plus `seccion`, which is the section unless the command had its own |
| Catalog.FlattenAt | Backend/utils.py:94-98 | the flat list is as long as all sections together, and command `j` of section `i` sits at the section's offset plus `j`, tagged |
| Catalog.FlattenAppend | Backend/utils.py:94-98 | flattening distributes over concatenation of catalogs, so order is preserved |
| Catalog.Flatten | Backend/utils.py:94-98 | the flat list is as long as all sections together, and every entry carries `seccion` |
| Catalog.ListarComandosSpec | Backend/utils.py:88-98 | a non-empty argument selects the section under the stripped, upper-cased key, or nothing; otherwise the whole flat list is returned |
| Catalog.ListarComandos | Backend/utils.py:88-98 | no argument or an empty one gives the whole flat list, each entry with `seccion`; a non-empty result for a name is the list of the section under the stripped, upper-cased key |
| Strings.UpperSharpS | Backend/utils.py:92 | Python's upper-casing of a section name can lengthen it: `straße` becomes `STRASSE` |
| Catalog.Find | Backend/utils.py:107-110 | the position found is the first match in catalog order; no match means no command matches |
| Catalog.BuscarComando | Backend/utils.py:101-111 | a blank name finds nothing; otherwise the result is the first (section, command) in catalog order whose lower-cased `nombre` equals the stripped, lower-cased query, and none means no command has that name |
| Catalog.TipoRespuestaDe | Backend/utils.py:114-117 | the result is none when no command is found; otherwise it is the command's `tipo_respuesta` if present and not null |
| Api.BasenameIdempotentIff | Backend/main.py:71 | taking the basename twice is the same as once exactly when the basename does not start with a drive |
| Api.SafeTempPathAsWritten | Backend/main.py:69-71 | a basename without a drive resolves to the child of TEMP_DIR of that name; one on another drive is returned as it is, outside TEMP_DIR |
| Api.TraversalStripped | Backend/main.py:69-71 | `../../x` resolves to `x` inside TEMP_DIR |
| Api.TrailingSepIsDir | Backend/main.py:69-71 | a name ending in a separator resolves to TEMP_DIR itself |
| Api.DriveEscape | Backend/main.py:69-71 | `a\D:x` has the basename `D:x`, and the helper resolves it to `D:x`, outside TEMP_DIR |
| Api.ParentEscape | Backend/main.py:69-71 | `..` is its own basename, so the helper resolves it to TEMP_DIR's parent |
| Api.ConfinedPath | Backend/main.py:69-71 | the corrected helper accepts a name exactly when its basename is non-empty, not `.` or `..`, and has no colon |
| Api.ConfinedPathInside | Backend/main.py:69-71 | corrected: every accepted name resolves to a direct child of TEMP_DIR, named by a separator-free basename that is its own basename |
| Api.ConfinedPathPlain | Backend/main.py:69-71 | corrected: a plain file name, like every name the handler saves, resolves to that file inside TEMP_DIR |
| Api.BasenameOfChild | Backend/main.py:149 | the basename of a file in TEMP_DIR is its own name |
| Api.Basename | Backend/main.py:71 | the basename holds no separator and is a suffix of the path |
| Api.Join2 | Backend/main.py:71 | the joined path ends with the second path after its drive and root |
| Api.SafeTempPath | Backend/main.py:69-71 | with an absolute TEMP_DIR, a basename without a drive resolves to the child of TEMP_DIR of that name |
| Api.GetComandos | Backend/main.py:93-98 | 404 exactly when the list is empty; otherwise `total` equals the number of listed commands |
| Api.GetComandosLists | Backend/main.py:93-98 | the listed commands are the catalog's, in order |
| Api.Consulta | Backend/main.py:100-111 | an error document becomes a 500 carrying its text; anything else is a 200 |
| Api.ConsultaCarriesReply | Backend/main.py:108-111 | a successful answer carries the whole reply, unchanged |
| Api.EmptyAnswer | Backend/main.py:118-123 | the body sent before anything is published has an empty `texto` and no `archivos` |
| Api.GetRespuesta | Backend/main.py:116-133 | 204 with the empty answer exactly when the file is absent, 500 exactly when it cannot be read, and otherwise the stored document with 200 |
| Api.StaticRespuesta | Backend/main.py:166 | the static mount over `TEMP_DIR`, where line 30 puts `respuestas.json`, answers 404 exactly when the file is missing; otherwise it sends the file as `application/json` with 200, whatever its content |
| Api.MediaType | Backend/main.py:144-148 | the guessed type is used when there is one, and `application/octet-stream` otherwise |
| Api.Descargar | Backend/main.py:138-151 | 404 exactly when the resolved path is missing; otherwise the file at that path is sent under its basename |
| Api.Existe | Backend/main.py:154-159 | 404 exactly when the resolved path is missing, and 204 otherwise |
| Api.ExisteAgreesWithDescargar | Backend/main.py:138-159 | `/exists` answers 204 exactly when `/descargar` sends the file |
| Api.DescargarSavedFile | Backend/main.py:138-151 | a saved file downloads from TEMP_DIR under its own name |
| FrontendText.EscapeHtml | Frontend/static/app.js:253-260 | the output is never shorter than the input, and the empty string stays empty |
| FrontendText.EscapeHtmlChars | Frontend/static/app.js:253-260 | the output holds no `<`, `>`, `"`, `'` or backtick |
| FrontendText.AmpersandsBeginEntities | Frontend/static/app.js:253-260 | every `&` in the output begins one of the six entities |
| FrontendText.EscapeRoundTrip | Frontend/static/app.js:253-260 | decoding the six entities gives the input back, so every other character is kept, in order |
| FrontendText.EscapePlain | Frontend/static/app.js:253-260 | text without special characters is unchanged |
| FrontendText.BoldUnchanged | Frontend/static/app.js:262-265 | text with no `**…**` pair is unchanged |
| FrontendText.BoldFirstPair | Frontend/static/app.js:262-265 | the first pair becomes a `<strong>` of its escaped content, and the text before it is kept |
| FrontendText.BoldCloseFirst | Frontend/static/app.js:264 | the lazy group ends at the first closing `**` with no line terminator before it |
| FrontendText.MdBoldToStrong | Frontend/static/app.js:262-265 | text without `*` is unchanged |
| FrontendText.CodeUnchanged | Frontend/static/app.js:267-270 | text with no backtick pair is unchanged |
| FrontendText.CodePairExists | Frontend/static/app.js:269 | a backtick followed by a non-backtick starts a match exactly when another backtick follows later |
| FrontendText.InlineCodeToCode | Frontend/static/app.js:267-270 | text without a backtick is unchanged |
| FrontendLines.SplitLines | Frontend/static/app.js:276 | splitting gives one more line than there are line feeds, and no line holds a line feed |
| FrontendLines.Keep | Frontend/static/app.js:277-284 | the kept lines are exactly the input lines that are not empty or decorative |
| FrontendLines.LimpiarBloquesLines | Frontend/static/app.js:273-286 | the output's lines are the trimmed input lines that are non-empty and not decorative, in order; the output never holds an empty line |
| FrontendLines.LimpiarBloquesIdempotent | Frontend/static/app.js:273-286 | cleaning twice is the same as cleaning once |
| FrontendLines.LimpiarBloques | Frontend/static/app.js:273-286 | the output is empty exactly when no line is kept |
| FrontendLines.Match | Frontend/static/app.js:295-302 | a matched row has a trimmed label and a trimmed value |
| FrontendLines.ParsearParesSpec | Frontend/static/app.js:289-309 | rows plus other lines are as many as the input lines, rows are trimmed, and every other line matches neither pattern |
| FrontendLines.ParesAppend | Frontend/static/app.js:293-307 | the partition respects order: the rows and other lines of two concatenated parts are those of the first followed by those of the second |
| FrontendLines.ParsearPares | Frontend/static/app.js:289-309 | rows plus other lines are as many as the input lines, and no other line holds a line feed |
| FrontendLines.TypicalRow | Frontend/static/app.js:295-302 | in `**A:** 1` the colon is inside the stars, so the first pattern fails and the second makes the row `A:` / `1` |
| FrontendMarkup.Title | Frontend/static/app.js:322 | the title can carry no markup at all |
| FrontendMarkup.LabelCell | Frontend/static/app.js:331 | a label cell can carry only `strong` and `code` tags |
| FrontendMarkup.OthersBlock | Frontend/static/app.js:340-347 | every `<` in the block of other lines begins a `strong` or `code` tag |
| FrontendMarkup.OthersBlockNoCode | Frontend/static/app.js:343 | the block of other lines holds no backtick, because `escapeHtml` (lines 254-264) runs first; it equals the bold rewrite of the escaped text, so `inlineCodeToCode` never adds a `code` element there |
| FrontendMarkup.ValueCellRaw | Frontend/static/app.js:332 | a value without `*` or backticks goes into the page unescaped |
| FrontendMarkup.ValueCellInjects | Frontend/static/app.js:332 | a value `<i>` becomes an `<i>` element |
| FrontendMarkup.ValueCell | Frontend/static/app.js:332 | a value without `*` or backticks is put into the cell unchanged, unescaped |
| FrontendMarkup.OthersDoubleEscape | Frontend/static/app.js:344 | inside the other lines an `&` in `**…**` is escaped twice and shows as `&amp;` |
| FrontendMarkup.SafeMarkupTagsOnly | Frontend/static/app.js:332 | corrected: the one-pass formatter emits no element but `strong` and `code`, whatever the text |
| FrontendMarkup.SafeMarkupPlain | Frontend/static/app.js:344 | corrected: text with no group is escaped exactly once and decodes back to itself |
| FrontendMarkup.SafeBoldOnce | Frontend/static/app.js:344 | corrected: a bold group's `&` is escaped once |
| FrontendMarkup.SafeMarkupEscapes | Frontend/static/app.js:332 | corrected: a value `<i>` is shown as text |
| FrontendRender.LastComponentPlain | Frontend/static/app.js:353 | a name with no `/` is shown as it is |
| FrontendRender.LastComponentSuffix | Frontend/static/app.js:353 | the shown name is a `/`-free suffix of the stored path |
| FrontendRender.ButtonNames | Frontend/static/app.js:350-361 | a non-empty `archivos` gives one button per entry, and no button name holds a `/` |
| FrontendRender.ButtonNamesPlain | Frontend/static/app.js:350-355 | saved file names are shown unchanged, one button per file, in order |
| FrontendRender.Build | Frontend/static/app.js:312-361 | the view has the escaped title, one cell per parsed row in order, an others block exactly when other lines remain, and the buttons |
| FrontendRender.RenderResultado | Frontend/static/app.js:312-361 | the view has the escaped title, one value cell per parsed row through the two rewrites, an others block exactly when other lines remain, and the buttons of the stored names |
| FrontendRender.RenderResultadoSafeExceptValues | Frontend/static/app.js:312-347 | as written, the title, the labels and the other lines can carry only `strong` and `code`; each value cell is the value through the two rewrites, unescaped |
| FrontendRender.RenderSafeIsSafe | Frontend/static/app.js:312-347 | corrected: with the one-pass formatter every fragment of the view is safe |
| FrontendQuery.NmCommand | Frontend/static/app.js:195-203 | the name command is refused exactly when a trimmed field is empty, with the names warning; otherwise it is the command word, a space, and the three fields joined by bars |
| FrontendQuery.GenericCommand | Frontend/static/app.js:204-211 | a generic command is refused exactly when the trimmed datum is empty, with the datum warning; otherwise it is the command word, a space, and the datum |
| FrontendQuery.BuildCommand | Frontend/static/app.js:192-211 | the form is refused exactly when a trimmed field it needs is empty, with that branch's warning; a built command is the command word, a space, and then the three trimmed fields joined by bars for `/nm`, or the trimmed datum otherwise |
| FrontendQuery.NmBuilt | Frontend/static/app.js:203 | a built name command is the command word, a space, and the three trimmed fields joined by bars |
| FrontendQuery.NmCommandPieces | Frontend/static/app.js:195-203 | with no bar character in any input, the backend cuts a built name command into the word with the name and the two surnames, and accepts it |
| FrontendQuery.NmAcceptedIff | Frontend/static/app.js:195-203 | the backend accepts a built name command exactly when the command word does not start with `/nm` as written, or no input holds a bar character |
| FrontendQuery.GenericPasses | Frontend/static/app.js:204-211 | a built generic command always passes the backend's check |
| FrontendQuery.GenericBuilt | Frontend/static/app.js:210 | a built generic command is the command word, a space and the trimmed datum |
| FrontendQuery.EsperarSpec | Frontend/static/app.js:227-250 | the document shown is the first of the 90 reads that is a 2xx JSON document passing the test of line 238 and whose rendering, title included, does not throw; the notice is shown exactly when no read is such a document |
| FrontendQuery.WaitIgnoresLater | Frontend/static/app.js:232-244 | reads after the first one that passes the test and renders without throwing are never looked at |
| FrontendQuery.Esperar | Frontend/static/app.js:227-250 | a document shown comes from a read before the 90th that passes the test and renders, title included, without throwing |
| FrontendQuery.TitleArg | Frontend/static/app.js:219 | the title is `titulo` when that is truthy and `nombre` otherwise, and `escapeHtml` can take it exactly when `titulo` is absent, falsy or a string |
| FrontendQuery.BadTitleNeverShown | Frontend/static/app.js:232-250 | with a title `escapeHtml` cannot take, every rendering throws, so the poller ends on the notice whatever is published |
| FrontendQuery.NumericTitleTimesOut | Frontend/static/app.js:219-255 | a command whose `titulo` is the number 7 never shows a response |
| FrontendQuery.DocumentRenders | Frontend/static/app.js:238-239 | a response document passes the test exactly when its text is non-empty or it lists a saved file, and rendering it never throws |
| FrontendQuery.NumericTextSkipped | Frontend/static/app.js:238-244 | a document whose `texto` is the number 5 passes the test, but `trim` throws while rendering it, so it is not shown and polling goes on |
| FrontendQuery.EjecutarConsulta | Frontend/static/app.js:188-224 | a command is sent exactly when the form yields one, and it is the built command; a failed fetch shows the query error with its message, a status outside 200..299 shows it with `HTTP` and the status, and a 2xx status polls under the command's `titulo` when truthy, else its `nombre` |
| FrontendQuery.FormErrorSendsNothing | Frontend/static/app.js:199-209 | an incomplete form sends nothing and shows its warning, whatever the server would answer |
| FrontendQuery.PollsOnlyAfterOk | Frontend/static/app.js:213-219 | polling starts exactly when a command was sent and `/consulta` answered 2xx |
| FrontendQuery.ScenarioNmQuery | Frontend/static/app.js:195-203 | padded fields ` Ana `, `Paz`, `Soto` give `/nm Ana`, `Paz` and `Soto` joined by bars |
| Flow.PollOf | Frontend/static/app.js:235-236 | a non-2xx answer is not ok; only a 2xx JSON body that parses is a document |
| Flow.StaticRead | Frontend/static/app.js:234-236 | one read of `RESPUESTA_URL` (line 7), the static file served by Backend/main.py:166: a network error or an unparsable file is a failed read, a missing file is not ok, and a file holding a document is that document |
| Flow.StaticReadIsNotRespuesta | Frontend/static/app.js:234 | the page's read and the `/respuesta` endpoint disagree: a missing file is not ok for the page but the empty answer at the endpoint; an unparsable file is a parse failure for the page but a 500 at the endpoint |
| Flow.HandlerErrorShowsStatus | Frontend/static/app.js:213-223 | a handler error reaches the page as `HTTP 500`; the handler's text is not shown |
| Flow.HandlerOkPolls | Frontend/static/app.js:213-219 | a successful handler reply starts the polling, under the command's `titulo` when truthy, else its `nombre` |
| Flow.NothingPublishedNotShown | Frontend/static/app.js:234-242 | a read of a missing or unparsable `respuestas.json` through `RESPUESTA_URL` (line 7) and the static mount of Backend/main.py:166 is never shown |
| Flow.PublishedShownIff | Frontend/static/app.js:234-242 | read through the static mount (line 7; Backend/main.py:166), a published document is shown exactly when the title can be escaped and its text is non-empty or it lists a saved file |
| Flow.ShownWhenPublished | Frontend/static/app.js:227-246 | reading the static file (line 7; Backend/main.py:166): if the file is missing or unparsable until read `k < 90` and then holds a showable document, the page shows that document at read `k`, provided that read reaches the server and the title can be escaped |

## Left out

- **Telethon.** Connecting, session regeneration (`conectar`), `send_message`, `get_messages` and `download_media` are network code. Their outcomes are inputs: a failure per attempt, the fetched batches, whether each download was saved.
- **Time.** Clocks and sleeps are not modelled. Elapsed time is the given per-round latency plus the 5 s sleep, in integer milliseconds. File modification times and "now" are given integers of seconds. The `timestamp` field of the document is left out.
- **FloodWait.** The FloodWait restart is unbounded recursion. It consumes one given attempt per restart, and running out of attempts gives None.
- **Publishing.** The atomic write of `respuestas.json` (temporary file, `json.dump`, `os.replace`) is modelled as "the whole document is published, or the write raised with a text". JSON parsing is an input: a parsed value, or the error text.
- **Environment, logging, locking.** `dotenv`, `validar_env`, `log`/`print` and the `RLock` in Backend/utils.py are not modelled.
- **Other endpoints.** FastAPI routing, CORS, the logging middleware, the static mounts other than the read of `respuestas.json` under `/temp_files`, `/health`, `/secciones`, `serve_index`, cache headers and the ETag are not modelled. `guess_type` and `os.path.exists` are inputs.
- **Browser plumbing.** The DOM, `toast`, `fetch`, `setTimeout` and inline styles are not modelled. The page is modelled as the text fragments it builds and the screen it ends on.
- **Command objects in the browser.** A command's `nombre` is taken to be a string, since the catalog check of Backend/utils.py:47-49 demands it; its `titulo` is any JSON value, or absent.
- **Files not in this model.** The catalog page of Frontend/static/app.js (section list, command cards, form rendering) is not part of this model. Neither is the download click handler.
- Strings.Lower, Strings.Upper, Strings.PyUpper: Python's and JavaScript's case mappings are modelled for ASCII and Latin-1 only (including sharp s to `SS`, the micro sign to U+039C and y with diaeresis to U+0178); characters beyond Latin-1 are left unchanged. The program's command names and section keys are ASCII.
- Polling.RoundsFrom: the loop is bounded by its 18 possible rounds (each sleeps 5 s inside the 90 s budget) rather than by a clock.
- Dispatch.Dispatch: its own contract covers only the format check. The other paths are stated by CapturedReply (the published aggregate and a failed write), FailureMessages (connect and send failures), FloodWaitRetries, SilentBotTimesOut and PublishedIffOk.
- Polling.Collect, Polling.Poll: their own contracts state only where each captured message came from, plus distinctness and the watermark for Poll. That the captured ids are exactly the new ids fetched is stated by CollectInv and PollCaptures.
- Aggregation.FinalText: its own contract states only the fallback and that the text is stripped. The blank-line join in message order is stated by FinalTextSpec.
- Catalog.Flatten: its own contract states only the length and the `seccion` key. Positions and tagging are stated by FlattenAt and FlattenAppend.
- Catalog.ListarComandos: its own contract does not state the empty result for an unknown section. ListarComandosSpec states both cases.
- Api.Basename, Api.Join2: their own contracts state only the separator-free suffix and the kept tail. Python's `ntpath` results are stated on the inputs that matter by BasenameIdempotentIff, SafeTempPathAsWritten, TraversalStripped, DriveEscape and ParentEscape.
- Api.SafeTempPath: its own contract covers only names without a drive. The drive case is stated by SafeTempPathAsWritten and DriveEscape.
- FrontendText.MdBoldToStrong, FrontendText.InlineCodeToCode: their own contracts state only that text without the marker is unchanged. The rewrite is stated by BoldUnchanged, BoldFirstPair, BoldCloseFirst, CodeUnchanged and CodePairExists.
- FrontendLines.LimpiarBloques: its own contract states only when the output is empty. The kept lines are stated by LimpiarBloquesLines and LimpiarBloquesIdempotent.
- FrontendLines.ParsearPares: its own contract states only the line count. Trimming, the patterns and order are stated by ParsearParesSpec, ParesAppend and TypicalRow.
- FrontendMarkup.ValueCell: its own contract covers only values without markers. The injection and the double escape are stated by ValueCellInjects and OthersDoubleEscape.
- FrontendQuery.Esperar: its own contract does not state that the document shown is the first acceptable one. EsperarSpec does.

## Findings

| source | as written | input that shows it | evidently intended | confidence | as-written member | corrected member |
|---|---|---|---|---|---|---|
| Frontend/static/app.js:332 | a row's value goes through `mdBoldToStrong` and `inlineCodeToCode` without being escaped, so markup in a bot answer becomes page markup | a line `**A:** <img src=x onerror=alert(1)>`, or a value `<i>` | escape the value and render only the bold and code groups | high; not executed | FrontendMarkup.ValueCellInjects | FrontendMarkup.SafeMarkupTagsOnly |
| Frontend/static/app.js:344 | the other lines are escaped, and then the bold and code rewrites escape their group again | an other line `**a&b**` shows the text `a&amp;b` | escape each character once | high; not executed | FrontendMarkup.OthersDoubleEscape | FrontendMarkup.SafeBoldOnce |
| Backend/main.py:69-71 | with Windows paths, `basename` keeps a drive that follows a backslash, and `join` then switches to that drive | `/descargar/a%5CD:x` resolves to `D:x`, a drive-relative path outside TEMP_DIR; `/descargar/..` resolves to TEMP_DIR's parent | refuse names that `join` does not put inside TEMP_DIR | medium (needs a Windows host); not executed | Api.DriveEscape | Api.ConfinedPathInside |

=== FILE: aggregation.dfy ===
/** The aggregation half of `enviar_comando` (Backend/bot_handler.py): the
    captured messages, already in id order, become one response document with
    the joined text, the saved attachments, the primary attachment and the
    response kind. Whether `download_media` saved a file, and the Unix time
    read while naming it, are inputs indexed by the message's position. */
module Aggregation {
  import opened Wrappers
  import opened Strings
  import opened Decimal
  import opened Messages
  import opened Catalog

  const NamePrefix: string := "respuesta_"
  /** Extension used when Telethon reports none. */
  const DefaultExt: string := ".bin"

  /** The response kind: `"texto"` or `"archivo"`. */
  datatype Kind = Texto | Archivo

  /** The document `enviar_comando` returns: an error carries only its text;
      a success carries the text, the saved file names, the primary file and
      the kind (the formatted timestamp is not modelled). */
  datatype Reply =
    | ErrorReply(texto: string)
    | OkReply(texto: string, archivos: seq<string>, archivo: Option<string>, tipo: Kind)

  /** The consistency the published document keeps: `archivo` is the first
      saved file or None, and the kind is `archivo` exactly when a file was
      saved (equivalently, exactly when `archivo` is set). */
  predicate Consistent(r: Reply) {
    r.OkReply? ==>
      && r.archivo == (if |r.archivos| > 0 then Some(r.archivos[0]) else None)
      && (r.tipo == Archivo <==> |r.archivos| > 0)
      && (r.archivo.Some? <==> r.tipo == Archivo)
  }

  /** The extension of a saved attachment. */
  function Extension(md: Media): (e: string)
    ensures e != []
    ensures md.ext != [] ==> e == md.ext
    ensures md.ext == [] ==> e == DefaultExt
  {
    if md.ext != [] then md.ext else DefaultExt
  }

  /** An extension Telethon can report: empty, or not starting with a digit
      (in practice it starts with a dot). */
  predicate ExtWellFormed(ext: string) {
    ext == [] || !IsDigit(ext[0])
  }

  /** `f"respuesta_{timestamp}_{idx}{extension}"`. */
  function FileName(stamp: nat, idx: nat, ext: string): string {
    NamePrefix + NatToString(stamp) + "_" + NatToString(idx) + ext
  }

  /** Reads the timestamp, the index and the extension back out of a saved
      file's name. */
  function ParseFileName(name: string): Option<(nat, nat, string)> {
    if StartsWith(name, NamePrefix) then ParseStampIndex(name[|NamePrefix|..]) else None
  }

  /** Parses `{timestamp}_{idx}{extension}`. */
  function ParseStampIndex(t: string): Option<(nat, nat, string)> {
    var k := DigitRun(t);
    if k == 0 || k == |t| || t[k] != '_' then None
    else
      var u := t[k + 1..];
      var j := DigitRun(u);
      if j == 0 then None
      else Some((ParseDigits(t[..k]), ParseDigits(u[..j]), u[j..]))
  }

  lemma ParseStampIndexParts(a: string, b: string, ext: string)
    requires |a| >= 1 && AllDigits(a) && |b| >= 1 && AllDigits(b)
    requires ExtWellFormed(ext)
    ensures ParseStampIndex(a + (['_'] + (b + ext))) == Some((ParseDigits(a), ParseDigits(b), ext))
  {
    StampSplit(a, b + ext);
    IndexSplit(b, ext);
  }

  /** The digit run of the timestamp ends at the underscore. */
  lemma StampSplit(a: string, u: string)
    requires AllDigits(a)
    ensures var t := a + (['_'] + u);
            DigitRun(t) == |a| < |t| && t[|a|] == '_' && t[..|a|] == a && t[|a| + 1..] == u
  {
    var t := a + (['_'] + u);
    DigitRunOfConcat(a, ['_'] + u);
    assert t[..|a|] == a;
    assert t[|a| + 1..] == u;
  }

  /** The digit run of the index ends where the extension begins. */
  lemma IndexSplit(b: string, ext: string)
    requires AllDigits(b) && ExtWellFormed(ext)
    ensures DigitRun(b + ext) == |b| && (b + ext)[..|b|] == b && (b + ext)[|b|..] == ext
  {
    DigitRunOfConcat(b, ext);
    assert (b + ext)[..|b|] == b;
  }

  /** A saved file's name determines its timestamp, index and extension. */
  lemma ParseFileNameRoundTrip(stamp: nat, idx: nat, ext: string)
    requires ExtWellFormed(ext)
    ensures ParseFileName(FileName(stamp, idx, ext)) == Some((stamp, idx, ext))
  {
    var t := NatToString(stamp) + (['_'] + (NatToString(idx) + ext));
    var name := FileName(stamp, idx, ext);
    assert name == NamePrefix + t;
    assert name[..|NamePrefix|] == NamePrefix;
    assert name[|NamePrefix|..] == t;
    ParseStampIndexParts(NatToString(stamp), NatToString(idx), ext);
  }

  /** Two attachments of one dispatch never share a file name, whatever
      timestamps they were saved under. */
  lemma FileNamesDiffer(s1: nat, i1: nat, e1: string, s2: nat, i2: nat, e2: string)
    requires ExtWellFormed(e1) && ExtWellFormed(e2)
    requires i1 != i2
    ensures FileName(s1, i1, e1) != FileName(s2, i2, e2)
  {
    ParseFileNameRoundTrip(s1, i1, e1);
    ParseFileNameRoundTrip(s2, i2, e2);
  }

  /** The stripped texts of the text-bearing messages, in order. */
  function Fragments(ms: seq<Message>): (r: seq<string>)
    ensures |r| <= |ms|
    ensures forall i :: 0 <= i < |r| ==> IsStripped(Python, r[i])
    ensures |r| == 0 <==> forall i :: 0 <= i < |ms| ==> ms[i].text == []
  {
    if |ms| == 0 then []
    else
      var rest := Fragments(ms[1..]);
      assert forall i :: 1 <= i < |ms| ==> ms[i] == ms[1..][i - 1];
      if ms[0].text != [] then [Strip(Python, ms[0].text)] + rest else rest
  }

  /** Fragments distribute over concatenation, so they keep the order of
      the messages. */
  lemma {:induction false} FragmentsAppend(a: seq<Message>, b: seq<Message>)
    ensures Fragments(a + b) == Fragments(a) + Fragments(b)
  {
    if |a| > 0 {
      assert (a + b)[0] == a[0] && (a + b)[1..] == a[1..] + b;
      FragmentsAppend(a[1..], b);
    } else {
      assert a + b == b;
    }
  }

  /** One message contributes its stripped text when it has text, and
      nothing otherwise. */
  lemma FragmentsOne(m: Message)
    ensures Fragments([m]) == if m.text != [] then [Strip(Python, m.text)] else []
  {
    assert [m][1..] == [];
  }

  /** The stripped text of message `i` is one of the fragments. */
  lemma {:induction false} FragmentOf(ms: seq<Message>, i: nat)
    requires i < |ms| && ms[i].text != []
    ensures Strip(Python, ms[i].text) in Fragments(ms)
  {
    if i > 0 {
      assert ms[1..][i - 1] == ms[i];
      FragmentOf(ms[1..], i - 1);
    }
  }

  /** `texto`: the fragments joined by a blank line and stripped, or the
      command itself when no message had text. */
  function FinalText(comando: string, ms: seq<Message>): (r: string)
    ensures (forall i :: 0 <= i < |ms| ==> ms[i].text == []) ==> r == comando
    ensures (exists i :: 0 <= i < |ms| && ms[i].text != []) ==> IsStripped(Python, r)
  {
    var textos := Fragments(ms);
    if |textos| > 0 then Strip(Python, Join(textos, "\n\n")) else comando
  }

  /** `texto` falls back to the command exactly when no message had text;
      otherwise it is the fragments, in message order (FragmentsAppend,
      FragmentsOne), joined by a blank line and stripped, and no message's
      text is lost from it. */
  lemma FinalTextSpec(comando: string, ms: seq<Message>)
    ensures (forall i :: 0 <= i < |ms| ==> ms[i].text == []) ==> FinalText(comando, ms) == comando
    ensures (exists i :: 0 <= i < |ms| && ms[i].text != []) ==>
              FinalText(comando, ms) == Strip(Python, Join(Fragments(ms), "\n\n"))
    ensures (exists i :: 0 <= i < |ms| && ms[i].text != []) ==> IsStripped(Python, FinalText(comando, ms))
    ensures forall i :: 0 <= i < |ms| && Strip(Python, ms[i].text) != [] ==>
              Contains(FinalText(comando, ms), Strip(Python, ms[i].text))
  {
    var textos := Fragments(ms);
    forall i | 0 <= i < |ms| && Strip(Python, ms[i].text) != []
      ensures Contains(FinalText(comando, ms), Strip(Python, ms[i].text))
    {
      var p := Strip(Python, ms[i].text);
      assert ms[i].text != [];
      FragmentOf(ms, i);
      var k :| 0 <= k < |textos| && textos[k] == p;
      StripKeepsPart(textos, "\n\n", k, Python);
    }
  }

  /** The positions, from `k` on, whose message has media that was saved:
      exactly those, in increasing order. */
  function SavedIndices(ms: seq<Message>, saved: nat -> bool, k: nat): (r: seq<nat>)
    requires k <= |ms|
    ensures forall i :: 0 <= i < |r| ==> k <= r[i] < |ms| && ms[r[i]].media.Some? && saved(r[i])
    ensures forall i, j :: 0 <= i < j < |r| ==> r[i] < r[j]
    ensures forall x :: k <= x < |ms| && ms[x].media.Some? && saved(x) ==> x in r
    decreases |ms| - k
  {
    if k == |ms| then []
    else (if ms[k].media.Some? && saved(k) then [k] else []) + SavedIndices(ms, saved, k + 1)
  }

  /** The name the attachment of message `x` is saved under. */
  function NameAt(ms: seq<Message>, stamp: nat -> nat, x: nat): string
    requires x < |ms| && ms[x].media.Some?
  {
    FileName(stamp(x), x, Extension(ms[x].media.value))
  }

  /** `archivos_guardados`. */
  function SavedFiles(ms: seq<Message>, saved: nat -> bool, stamp: nat -> nat): (r: seq<string>)
    ensures |r| <= |ms|
    ensures |r| == |SavedIndices(ms, saved, 0)|
    ensures forall i :: 0 <= i < |r| ==>
              exists x :: 0 <= x < |ms| && ms[x].media.Some? && saved(x)
                          && r[i] == FileName(stamp(x), x, Extension(ms[x].media.value))
    ensures forall i :: 0 <= i < |r| ==> r[i] == NameAt(ms, stamp, SavedIndices(ms, saved, 0)[i])
  {
    var ix := SavedIndices(ms, saved, 0);
    AscendingBelow(ix, |ms|);
    var r := seq(|ix|, i requires 0 <= i < |ix| => NameAt(ms, stamp, ix[i]));
    assert forall i :: 0 <= i < |r| ==> r[i] == NameAt(ms, stamp, ix[i]) && ix[i] < |ms|;
    r
  }

  /** Strictly ascending positions below `n` are at most `n` many. */
  lemma AscendingBelow(ix: seq<nat>, n: nat)
    requires forall a, b :: 0 <= a < b < |ix| ==> ix[a] < ix[b]
    requires forall i :: 0 <= i < |ix| ==> ix[i] < n
    ensures |ix| <= n
  {
    if |ix| > 0 {
      AscendingFromZero(ix, |ix| - 1);
    }
  }

  lemma {:induction false} AscendingFromZero(ix: seq<nat>, i: nat)
    requires forall a, b :: 0 <= a < b < |ix| ==> ix[a] < ix[b]
    requires i < |ix|
    ensures ix[i] >= i
  {
    if i > 0 {
      AscendingFromZero(ix, i - 1);
    }
  }

  /** With well-formed extensions, the saved files of one dispatch have
      pairwise distinct names. */
  lemma SavedFilesDistinct(ms: seq<Message>, saved: nat -> bool, stamp: nat -> nat)
    requires forall i :: 0 <= i < |ms| && ms[i].media.Some? ==> ExtWellFormed(ms[i].media.value.ext)
    ensures var r := SavedFiles(ms, saved, stamp);
            forall i, j :: 0 <= i < j < |r| ==> r[i] != r[j]
  {
    var ix := SavedIndices(ms, saved, 0);
    var r := SavedFiles(ms, saved, stamp);
    forall i, j | 0 <= i < j < |r| ensures r[i] != r[j] {
      var x, y := ix[i], ix[j];
      FileNamesDiffer(stamp(x), x, Extension(ms[x].media.value), stamp(y), y, Extension(ms[y].media.value));
    }
  }

  /** `saved` with the download at `k` failed. */
  function Failed(saved: nat -> bool, k: nat): nat -> bool {
    (x: nat) => x != k && saved(x)
  }

  /** A failed download omits that file only: with `saved` switched off at
      position `k`, the saved positions are the old ones minus `k`. */
  lemma FailedDownloadOmitsOnlyIt(ms: seq<Message>, saved: nat -> bool, k: nat)
    ensures var failed := Failed(saved, k);
            forall x :: x in SavedIndices(ms, failed, 0) <==> x in SavedIndices(ms, saved, 0) && x != k
  {
  }

  /** `ix` without the position `k`. */
  function Without(ix: seq<nat>, k: nat): (r: seq<nat>)
    ensures |r| <= |ix|
  {
    if |ix| == 0 then [] else (if ix[0] == k then [] else [ix[0]]) + Without(ix[1..], k)
  }

  /** Positions in strictly ascending order. */
  predicate Ascending(ix: seq<nat>) {
    forall a, b :: 0 <= a < b < |ix| ==> ix[a] < ix[b]
  }

  /** Switching off `saved` at `k` removes exactly `k` from the saved
      positions and keeps the order of the others. */
  lemma SavedIndicesFailed(ms: seq<Message>, saved: nat -> bool, k: nat)
    ensures SavedIndices(ms, Failed(saved, k), 0) == Without(SavedIndices(ms, saved, 0), k)
  {
    var ix := SavedIndices(ms, saved, 0);
    var w := Without(ix, k);
    var r := SavedIndices(ms, Failed(saved, k), 0);
    FailedDownloadOmitsOnlyIt(ms, saved, k);
    WithoutMembers(ix, k);
    WithoutAscending(ix, k);
    assert forall x :: x in r <==> x in w;
    AscendingUnique(r, w);
  }

  /** Ascending sequences with the same elements are equal. */
  lemma {:induction false} AscendingUnique(a: seq<nat>, b: seq<nat>)
    requires Ascending(a) && Ascending(b)
    requires forall x :: x in a <==> x in b
    ensures a == b
    decreases |a|
  {
    if |a| == 0 {
      HeadIn(b);
    } else {
      assert a[0] in b;
      assert b[0] in a;
      AscendingTail(a);
      AscendingTail(b);
      assert a[0] == b[0];
      AscendingUnique(a[1..], b[1..]);
      assert a == [a[0]] + a[1..] && b == [b[0]] + b[1..];
    }
  }

  lemma HeadIn(b: seq<nat>)
    ensures |b| > 0 ==> b[0] in b
  {
  }

  /** The head of an ascending sequence is its least element, and the tail
      holds everything else. */
  lemma AscendingTail(a: seq<nat>)
    requires Ascending(a) && |a| > 0
    ensures Ascending(a[1..])
    ensures forall x :: x in a ==> a[0] <= x
    ensures forall x :: x in a[1..] <==> x in a && x != a[0]
  {
    forall x | x in a ensures a[0] <= x {
      var i :| 0 <= i < |a| && a[i] == x;
    }
    forall x | x in a && x != a[0] ensures x in a[1..] {
      var i :| 0 <= i < |a| && a[i] == x;
      assert a[1..][i - 1] == x;
    }
    forall x | x in a[1..] ensures x in a && x != a[0] {
      var i :| 0 <= i < |a| - 1 && a[1..][i] == x;
      assert a[i + 1] == x;
    }
  }

  lemma {:induction false} WithoutMembers(ix: seq<nat>, k: nat)
    ensures forall x :: x in Without(ix, k) <==> x in ix && x != k
    decreases |ix|
  {
    if |ix| > 0 {
      WithoutMembers(ix[1..], k);
      assert ix == [ix[0]] + ix[1..];
      WithoutCons(ix[0], ix[1..], k);
    }
  }

  lemma {:induction false} WithoutAscending(ix: seq<nat>, k: nat)
    requires Ascending(ix)
    ensures Ascending(Without(ix, k))
    decreases |ix|
  {
    if |ix| > 0 {
      var t := ix[1..];
      AscendingTail(ix);
      WithoutAscending(t, k);
      WithoutMembers(t, k);
      var w := Without(t, k);
      assert ix == [ix[0]] + t;
      WithoutCons(ix[0], t, k);
      if ix[0] != k {
        var h := [ix[0]] + w;
        forall a, b | 0 <= a < b < |h| ensures h[a] < h[b] {
          assert h[b] == w[b - 1] && w[b - 1] in t;
          if a > 0 {
            assert h[a] == w[a - 1];
          }
        }
      } else {
        assert [] + w == w;
      }
    }
  }

  lemma WithoutCons(x: nat, tail: seq<nat>, k: nat)
    ensures Without([x] + tail, k) == (if x == k then [] else [x]) + Without(tail, k)
  {
    assert ([x] + tail)[0] == x && ([x] + tail)[1..] == tail;
  }

  lemma {:induction false} WithoutAbsent(ix: seq<nat>, k: nat)
    requires k !in ix
    ensures Without(ix, k) == ix
  {
    if |ix| > 0 {
      assert k !in ix[1..];
      WithoutAbsent(ix[1..], k);
      assert [ix[0]] + ix[1..] == ix;
    }
  }

  /** In strictly ascending positions, removing the one at `j` is cutting
      it out. */
  lemma {:induction false} WithoutAt(ix: seq<nat>, k: nat, j: nat)
    requires forall a, b :: 0 <= a < b < |ix| ==> ix[a] < ix[b]
    requires j < |ix| && ix[j] == k
    ensures Without(ix, k) == ix[..j] + ix[j + 1..]
    decreases j
  {
    var t := ix[1..];
    if j == 0 {
      assert k !in t;
      WithoutAbsent(t, k);
      WithoutCut(ix, k, t);
    } else {
      assert ix[0] < k;
      assert t[j - 1] == k;
      assert forall a, b :: 0 <= a < b < |t| ==> t[a] < t[b] by {
        forall a, b | 0 <= a < b < |t| ensures t[a] < t[b] {
          assert t[a] == ix[a + 1] && t[b] == ix[b + 1];
        }
      }
      WithoutAt(t, k, j - 1);
      WithoutKeep(ix, k, j, t);
    }
  }

  /** The head of `ix` is `k` and the tail has none. */
  lemma WithoutCut(ix: seq<nat>, k: nat, t: seq<nat>)
    requires |ix| > 0 && ix[0] == k && t == ix[1..] && Without(t, k) == t
    ensures Without(ix, k) == ix[..0] + ix[1..]
  {
    assert Without(ix, k) == [] + Without(t, k);
  }

  /** The head of `ix` is kept and `k` is cut from the tail. */
  lemma WithoutKeep(ix: seq<nat>, k: nat, j: nat, t: seq<nat>)
    requires 0 < j < |ix| && ix[0] != k && t == ix[1..]
    requires Without(t, k) == t[..j - 1] + t[j..]
    ensures Without(ix, k) == ix[..j] + ix[j + 1..]
  {
    assert ix == [ix[0]] + t;
    WithoutCons(ix[0], t, k);
    HeadSlices(ix, t, j);
    assert [ix[0]] + (t[..j - 1] + t[j..]) == ([ix[0]] + t[..j - 1]) + t[j..];
  }

  /** Cutting at `j` in `ix` is cutting at `j - 1` in its tail. */
  lemma HeadSlices(ix: seq<nat>, t: seq<nat>, j: nat)
    requires 0 < j < |ix| && t == ix[1..]
    ensures ix[..j] == [ix[0]] + t[..j - 1] && ix[j + 1..] == t[j..]
  {
    var h := [ix[0]] + t[..j - 1];
    forall i | 0 <= i < j
      ensures ix[..j][i] == h[i]
    {
      if i > 0 {
        assert h[i] == t[i - 1] == ix[i];
      }
    }
    assert ix[..j] == h;
  }

  /** A failed download removes its own name from the saved files and
      keeps the others, in order. */
  lemma FailedDownloadNames(ms: seq<Message>, saved: nat -> bool, stamp: nat -> nat, k: nat)
    ensures var failed := Failed(saved, k);
            var ix := SavedIndices(ms, saved, 0);
            var r := SavedFiles(ms, saved, stamp);
            && (k !in ix ==> SavedFiles(ms, failed, stamp) == r)
            && (forall j :: 0 <= j < |ix| && ix[j] == k ==> SavedFiles(ms, failed, stamp) == r[..j] + r[j + 1..])
  {
    var failed := Failed(saved, k);
    var ix := SavedIndices(ms, saved, 0);
    var r := SavedFiles(ms, saved, stamp);
    var r' := SavedFiles(ms, failed, stamp);
    SavedIndicesFailed(ms, saved, k);
    if k !in ix {
      WithoutAbsent(ix, k);
    }
    forall j | 0 <= j < |ix| && ix[j] == k
      ensures r' == r[..j] + r[j + 1..]
    {
      WithoutAt(ix, k, j);
      CutNames(ms, stamp, ix, r, r', j);
    }
  }

  /** Names listed along positions, with the position at `j` cut out. */
  lemma CutNames(ms: seq<Message>, stamp: nat -> nat, ix: seq<nat>, r: seq<string>, r': seq<string>, j: nat)
    requires j < |ix| == |r|
    requires forall i :: 0 <= i < |ix| ==> ix[i] < |ms| && ms[ix[i]].media.Some?
    requires forall i :: 0 <= i < |r| ==> r[i] == NameAt(ms, stamp, ix[i])
    requires |r'| == |ix| - 1
    requires forall i :: 0 <= i < |r'| ==> (ix[..j] + ix[j + 1..])[i] < |ms| && ms[(ix[..j] + ix[j + 1..])[i]].media.Some?
                                           && r'[i] == NameAt(ms, stamp, (ix[..j] + ix[j + 1..])[i])
    ensures r' == r[..j] + r[j + 1..]
  {
    forall i | 0 <= i < |r'| ensures r'[i] == (r[..j] + r[j + 1..])[i] {
      if i < j {
        assert (ix[..j] + ix[j + 1..])[i] == ix[i];
      } else {
        assert (ix[..j] + ix[j + 1..])[i] == ix[i + 1];
      }
    }
  }

  /** `data` on the success path. */
  function Aggregate(comando: string, ms: seq<Message>, saved: nat -> bool, stamp: nat -> nat): (r: Reply)
    ensures r.OkReply? && Consistent(r)
    ensures |r.archivos| <= |ms|
    ensures (forall i :: 0 <= i < |ms| ==> ms[i].text == []) ==> r.texto == comando
    ensures (exists i :: 0 <= i < |ms| && ms[i].text != []) ==>
              r.texto == Strip(Python, Join(Fragments(ms), "\n\n"))
    ensures |r.archivos| == |SavedIndices(ms, saved, 0)|
    ensures forall i :: 0 <= i < |r.archivos| ==> r.archivos[i] == NameAt(ms, stamp, SavedIndices(ms, saved, 0)[i])
  {
    FinalTextSpec(comando, ms);
    var archivos := SavedFiles(ms, saved, stamp);
    OkReply(FinalText(comando, ms), archivos,
            if |archivos| > 0 then Some(archivos[0]) else None,
            if |archivos| > 0 then Archivo else Texto)
  }

  // ---------------------------------------------------------------------
  // The document as a JSON value

  function KindName(k: Kind): (t: string)
    ensures t == "texto" || t == "archivo"
  {
    match k
    case Texto => "texto"
    case Archivo => "archivo"
  }

  function StrList(ss: seq<string>): (r: seq<Value>)
    ensures |r| == |ss|
    ensures forall i :: 0 <= i < |ss| ==> r[i] == Str(ss[i])
  {
    if |ss| == 0 then [] else [Str(ss[0])] + StrList(ss[1..])
  }

  /** The dictionary `enviar_comando` returns, and on success also writes
      to `respuestas.json` (the formatted timestamp left out). */
  function Document(r: Reply): (v: Value)
    ensures v.Obj? && "status" in v.fields && "texto" in v.fields
    ensures v.fields["status"] == Str(if r.ErrorReply? then "error" else "ok")
    ensures v.fields["texto"] == Str(r.texto)
  {
    if r.ErrorReply? then Obj(map["status" := Str("error"), "texto" := Str(r.texto)])
    else
      Obj(map["status" := Str("ok"),
              "texto" := Str(r.texto),
              "archivos" := Arr(StrList(r.archivos)),
              "archivo" := (if r.archivo.Some? then Str(r.archivo.value) else Null),
              "tipo_respuesta" := Str(KindName(r.tipo))])
  }

  /** The strings of a list of JSON strings; None if any item is not one. */
  function Strs(items: seq<Value>): (r: Option<seq<string>>)
    ensures r.Some? ==> |r.value| == |items| && forall i :: 0 <= i < |items| ==> items[i] == Str(r.value[i])
  {
    if |items| == 0 then Some([])
    else if !items[0].Str? then None
    else
      var rest := Strs(items[1..]);
      if rest.None? then None else Some([items[0].s] + rest.value)
  }

  /** Reads a document back: the fields a reader of `respuestas.json` or of
      the `/consulta` answer relies on. */
  function ReadDocument(v: Value): Option<Reply> {
    if !v.Obj? || "status" !in v.fields || "texto" !in v.fields || !v.fields["texto"].Str? then None
    else if v.fields["status"] == Str("error") then Some(ErrorReply(v.fields["texto"].s))
    else if v.fields["status"] != Str("ok") then None
    else if "archivos" !in v.fields || "archivo" !in v.fields || "tipo_respuesta" !in v.fields then None
    else
      var a := v.fields["archivos"];
      var one := v.fields["archivo"];
      var k := v.fields["tipo_respuesta"];
      var files := if a.Arr? then Strs(a.items) else None;
      if files.None? || !(one.Null? || one.Str?) || !(k == Str("texto") || k == Str("archivo")) then None
      else Some(OkReply(v.fields["texto"].s, files.value,
                        if one.Str? then Some(one.s) else None,
                        if k == Str("texto") then Texto else Archivo))
  }

  lemma {:induction false} StrsStrList(ss: seq<string>)
    ensures Strs(StrList(ss)) == Some(ss)
  {
    if |ss| > 0 {
      var t := StrList(ss[1..]);
      assert StrList(ss) == [Str(ss[0])] + t;
      StrsStrList(ss[1..]);
      StrsCons(ss[0], t);
      assert ss == [ss[0]] + ss[1..];
    }
  }

  lemma StrsCons(s: string, rest: seq<Value>)
    ensures Strs([Str(s)] + rest) == if Strs(rest).None? then None else Some([s] + Strs(rest).value)
  {
    assert ([Str(s)] + rest)[1..] == rest;
  }

  /** Every document reads back as the reply it was written from. */
  lemma DocumentRoundTrip(r: Reply)
    ensures ReadDocument(Document(r)) == Some(r)
  {
    if r.OkReply? {
      StrsStrList(r.archivos);
    }
  }
}

=== FILE: api.dfy ===
/** The web API of Backend/main.py: the path helper `_safe_temp_path` and the
    status decisions of the `/comandos`, `/consulta`, `/respuesta`,
    `/descargar` and `/exists` endpoints, and what the static mount
    `/temp_files` sends for `respuestas.json`. The file system is an input: which
    paths exist, what `respuestas.json` holds, and what `guess_type` says.

    Paths follow Python's `ntpath` (Python 3.12): the data and temporary
    directories the program defaults to are Windows paths. */
module Api {
  import opened Wrappers
  import opened Strings
  import opened Catalog
  import opened Aggregation

  // ---------------------------------------------------------------------
  // Windows paths

  /** The separator `ntpath.join` inserts. */
  const Sep: char := '\\'

  /** Both separators `ntpath` accepts. */
  predicate IsSep(c: char) {
    c == '\\' || c == '/'
  }

  predicate NoSep(s: string) {
    forall k :: 0 <= k < |s| ==> !IsSep(s[k])
  }

  /** The first separator at or after `start`, as `str.find` finds it. */
  function FindSep(p: string, start: nat): (r: Option<nat>)
    ensures r.Some? ==> start <= r.value < |p| && IsSep(p[r.value])
    ensures r.None? ==> forall k :: start <= k < |p| ==> !IsSep(p[k])
    decreases |p| - start
  {
    if start >= |p| then None
    else if IsSep(p[start]) then Some(start)
    else FindSep(p, start + 1)
  }

  /** The extended UNC prefix `\\?\UNC\`, either separator, any case. */
  predicate UncPrefix(p: string) {
    && |p| >= 8
    && IsSep(p[0]) && IsSep(p[1]) && p[2] == '?' && IsSep(p[3])
    && PyUpper(p[4]) == 'U' && PyUpper(p[5]) == 'N' && PyUpper(p[6]) == 'C' && IsSep(p[7])
  }

  /** A path cut into drive, root and the rest. */
  datatype Parts = Parts(drive: string, root: string, rest: string)

  /** `ntpath.splitroot`: a UNC or device drive, a drive letter, or none;
      then the root separator if any. */
  function SplitRoot(p: string): (r: Parts)
    ensures r.drive + r.root + r.rest == p
    ensures |r.root| <= 1 && (r.root != [] ==> IsSep(r.root[0]))
  {
    if |p| >= 1 && IsSep(p[0]) then
      if |p| >= 2 && IsSep(p[1]) then
        var start := if UncPrefix(p) then 8 else 2;
        var i := FindSep(p, start);
        if i.None? then Parts(p, [], [])
        else
          var j := FindSep(p, i.value + 1);
          if j.None? then Parts(p, [], [])
          else
            assert p == p[..j.value] + p[j.value..j.value + 1] + p[j.value + 1..];
            Parts(p[..j.value], p[j.value..j.value + 1], p[j.value + 1..])
      else
        assert p == p[..1] + p[1..];
        Parts([], p[..1], p[1..])
    else if |p| >= 2 && p[1] == ':' then
      if |p| >= 3 && IsSep(p[2]) then
        assert p == p[..2] + p[2..3] + p[3..];
        Parts(p[..2], p[2..3], p[3..])
      else
        assert p == p[..2] + p[2..];
        Parts(p[..2], [], p[2..])
    else Parts([], [], p)
  }

  /** Where the last component of `q` starts: just after its last
      separator, or 0. */
  function LastSepEnd(q: string): (i: nat)
    ensures i <= |q|
    ensures forall k :: i <= k < |q| ==> !IsSep(q[k])
    ensures i > 0 ==> IsSep(q[i - 1])
  {
    if |q| == 0 then 0
    else if IsSep(q[|q| - 1]) then |q|
    else LastSepEnd(q[..|q| - 1])
  }

  /** `ntpath.basename`: what follows the drive and the last separator. */
  function Basename(p: string): (b: string)
    ensures NoSep(b)
    ensures EndsWith(p, b)
  {
    var q := SplitRoot(p).rest;
    RestTail(p, q[LastSepEnd(q)..]);
    q[LastSepEnd(q)..]
  }

  /** A tail of the rest after the drive and root is a tail of the path. */
  lemma RestTail(p: string, t: string)
    requires EndsWith(SplitRoot(p).rest, t)
    ensures EndsWith(p, t)
  {
    var r := SplitRoot(p);
    assert EndsWith(p, r.rest) by {
      assert p == (r.drive + r.root) + r.rest;
    }
    SuffixOfSuffix(p, r.rest, t);
  }

  /** A name `ntpath` reads as drive-relative: a drive letter and a colon. */
  predicate HasDrive(b: string) {
    |b| >= 2 && !IsSep(b[0]) && b[1] == ':'
  }

  /** The basename of a name without separators: the name, less its drive
      if it has one. */
  lemma BasenameOfName(b: string)
    requires NoSep(b)
    ensures Basename(b) == if HasDrive(b) then b[2..] else b
  {
    if |b| >= 1 {
      assert !IsSep(b[0]);
    }
    if HasDrive(b) && |b| >= 3 {
      assert !IsSep(b[2]);
    }
  }

  /** The basename of a basename is itself exactly when it does not look
      drive-relative. */
  lemma BasenameIdempotentIff(p: string)
    ensures Basename(Basename(p)) == Basename(p) <==> !HasDrive(Basename(p))
  {
    var b := Basename(p);
    BasenameOfName(b);
    if HasDrive(b) {
      assert |b[2..]| < |b|;
    }
  }

  /** The parts `ntpath.join` keeps when `rb` is joined to `ra`: an
      absolute second path wins (keeping the first drive if it has none), a
      second path on another drive replaces the first, and otherwise the
      second path is appended, after a separator when one is missing. */
  function JoinParts(ra: Parts, rb: Parts): Parts {
    if rb.root != [] then
      Parts(if rb.drive != [] || ra.drive == [] then rb.drive else ra.drive, rb.root, rb.rest)
    else if rb.drive != [] && rb.drive != ra.drive && Lower(rb.drive) != Lower(ra.drive) then
      rb
    else
      Parts(if rb.drive != [] then rb.drive else ra.drive, ra.root, WithSep(ra.rest) + rb.rest)
  }

  /** A path rest ready for a component to be appended. */
  function WithSep(rest: string): (r: string)
    ensures rest != [] && !IsSep(rest[|rest| - 1]) ==> r == rest + [Sep]
    ensures rest == [] || IsSep(rest[|rest| - 1]) ==> r == rest
  {
    if rest != [] && !IsSep(rest[|rest| - 1]) then rest + [Sep] else rest
  }

  /** The parts put back together; a separator goes between a UNC drive
      and a relative rest. */
  function Assemble(res: Parts): string {
    var d := res.drive;
    if res.rest != [] && res.root == [] && d != [] && d[|d| - 1] != ':' && !IsSep(d[|d| - 1]) then
      d + [Sep] + res.rest
    else d + res.root + res.rest
  }

  /** `ntpath.join(a, b)`. */
  function Join2(a: string, b: string): (r: string)
    ensures EndsWith(r, SplitRoot(b).rest)
  {
    JoinRest(SplitRoot(a), SplitRoot(b));
    Assemble(JoinParts(SplitRoot(a), SplitRoot(b)))
  }

  /** The joined path ends with the second path's rest. */
  lemma JoinRest(ra: Parts, rb: Parts)
    ensures EndsWith(Assemble(JoinParts(ra, rb)), rb.rest)
  {
    var res := JoinParts(ra, rb);
    JoinPartsRest(ra, rb);
    AssembleRest(res);
    SuffixOfSuffix(Assemble(res), res.rest, rb.rest);
  }

  /** A suffix of a suffix is a suffix. */
  lemma SuffixOfSuffix(s: string, m: string, x: string)
    requires EndsWith(s, m) && EndsWith(m, x)
    ensures EndsWith(s, x)
  {
    var t := s[|s| - |x|..];
    forall i | 0 <= i < |x| ensures t[i] == x[i] {
      assert t[i] == s[|s| - |m|..][|m| - |x| + i];
    }
  }

  /** The joined parts end with the second path's rest. */
  lemma JoinPartsRest(ra: Parts, rb: Parts)
    ensures EndsWith(JoinParts(ra, rb).rest, rb.rest)
  {
    if rb.root == [] && !(rb.drive != [] && rb.drive != ra.drive && Lower(rb.drive) != Lower(ra.drive)) {
      var w := WithSep(ra.rest);
      assert (w + rb.rest)[|w|..] == rb.rest;
    }
  }

  /** Assembled parts end with their rest. */
  lemma AssembleRest(res: Parts)
    ensures EndsWith(Assemble(res), res.rest)
  {
    var d := res.drive;
    if res.rest != [] && res.root == [] && d != [] && d[|d| - 1] != ':' && !IsSep(d[|d| - 1]) {
      assert (d + [Sep] + res.rest)[|d| + 1..] == res.rest;
    } else {
      assert (d + res.root + res.rest)[|d + res.root|..] == res.rest;
    }
  }

  /** `_safe_temp_path`. */
  function SafeTempPath(temp: string, nombre: string): (r: string)
    ensures AbsoluteDir(temp) && !HasDrive(Basename(nombre)) ==> r == Child(temp, Basename(nombre))
  {
    JoinPlainNameIf(temp, Basename(nombre));
    Join2(temp, Basename(nombre))
  }

  lemma JoinPlainNameIf(t: string, b: string)
    requires NoSep(b)
    ensures AbsoluteDir(t) && !HasDrive(b) ==> Join2(t, b) == Child(t, b)
  {
    if AbsoluteDir(t) && !HasDrive(b) {
      JoinPlainName(t, b);
    }
  }

  /** An absolute drive-letter directory such as `C:\T` or `C:\T\`. */
  predicate AbsoluteDir(t: string) {
    |t| >= 3 && !IsSep(t[0]) && t[1] == ':' && IsSep(t[2])
  }

  /** `t` with `b` as a child: a separator is put between them unless `t`
      already ends in one. */
  function Child(t: string, b: string): (r: string)
    requires |t| > 0
    ensures |r| >= |t| + |b| && StartsWith(r, t) && r[|r| - |b|..] == b
  {
    if IsSep(t[|t| - 1]) then t + b else t + [Sep] + b
  }

  lemma AbsoluteDirParts(t: string)
    requires AbsoluteDir(t)
    ensures SplitRoot(t) == Parts(t[..2], t[2..3], t[3..])
  {
  }

  /** A relative path without a drive is all rest. */
  lemma RelativeParts(p: string)
    requires |p| >= 1 && !IsSep(p[0]) && !HasDrive(p)
    ensures SplitRoot(p) == Parts([], [], p)
  {
  }

  /** A drive-relative name splits after its drive. */
  lemma DriveRelativeParts(b: string)
    requires NoSep(b) && HasDrive(b)
    ensures SplitRoot(b) == Parts(b[..2], [], b[2..])
  {
    if |b| >= 3 {
      assert !IsSep(b[2]);
    }
  }

  /** A child of an absolute directory, cut as `ntpath` cuts it. */
  lemma ChildParts(t: string, x: string)
    requires AbsoluteDir(t)
    ensures Child(t, x) == t[..2] + t[2..3] + (WithSep(t[3..]) + x)
  {
    var tr := t[3..];
    assert t == t[..2] + t[2..3] + tr;
    if tr != [] {
      assert tr[|tr| - 1] == t[|t| - 1];
    }
    if IsSep(t[|t| - 1]) {
      assert WithSep(tr) == tr;
      assert Child(t, x) == t + x;
    } else {
      assert WithSep(tr) == tr + [Sep];
      assert Child(t, x) == t + [Sep] + x;
    }
  }

  /** Appending a rest on the directory's drive (in some case) to an
      absolute directory. */
  lemma AppendToDir(t: string, d: string, rest: string)
    requires AbsoluteDir(t) && |d| == 2 && d[1] == ':' && Lower(d) == Lower(t[..2])
    ensures Assemble(JoinParts(Parts(t[..2], t[2..3], t[3..]), Parts(d, [], rest)))
              == d + (t[2..3] + (WithSep(t[3..]) + rest))
  {
    var res := JoinParts(Parts(t[..2], t[2..3], t[3..]), Parts(d, [], rest));
    assert res == Parts(d, t[2..3], WithSep(t[3..]) + rest);
  }

  /** Joining a name without separators or drive to an absolute directory
      gives the child of that name. */
  lemma JoinPlainName(t: string, b: string)
    requires AbsoluteDir(t) && NoSep(b) && !HasDrive(b)
    ensures Join2(t, b) == Child(t, b)
  {
    AbsoluteDirParts(t);
    if |b| >= 1 {
      assert !IsSep(b[0]);
      RelativeParts(b);
    } else {
      assert SplitRoot(b) == Parts([], [], b);
    }
    var res := JoinParts(Parts(t[..2], t[2..3], t[3..]), Parts([], [], b));
    assert res == Parts(t[..2], t[2..3], WithSep(t[3..]) + b);
    ChildParts(t, b);
  }

  /** Joining a drive-relative name to an absolute directory. A name on
      the directory's drive (in any case) lands inside it, under the name's
      spelling of the drive; a name on another drive replaces the directory
      altogether. */
  lemma JoinDriveName(t: string, b: string)
    requires AbsoluteDir(t) && NoSep(b) && HasDrive(b)
    ensures Lower(b[..2]) == Lower(t[..2]) ==> Join2(t, b) == b[..2] + Child(t, b[2..])[2..]
    ensures Lower(b[..2]) != Lower(t[..2]) ==> Join2(t, b) == b
  {
    if Lower(b[..2]) == Lower(t[..2]) {
      JoinSameDrive(t, b);
    } else {
      JoinOtherDrive(t, b);
    }
  }

  lemma JoinSameDrive(t: string, b: string)
    requires AbsoluteDir(t) && NoSep(b) && HasDrive(b) && Lower(b[..2]) == Lower(t[..2])
    ensures Join2(t, b) == b[..2] + Child(t, b[2..])[2..]
  {
    AbsoluteDirParts(t);
    DriveRelativeParts(b);
    AppendToDir(t, b[..2], b[2..]);
    ChildParts(t, b[2..]);
    DropTwo(t[..2], t[2..3], WithSep(t[3..]) + b[2..]);
  }

  lemma DropTwo(p: string, q: string, r: string)
    requires |p| == 2
    ensures (p + q + r)[2..] == q + r
  {
    assert forall i :: 0 <= i < |q + r| ==> (p + q + r)[2..][i] == (q + r)[i];
  }

  lemma JoinOtherDrive(t: string, b: string)
    requires AbsoluteDir(t) && NoSep(b) && HasDrive(b) && Lower(b[..2]) != Lower(t[..2])
    ensures Join2(t, b) == b
  {
    AbsoluteDirParts(t);
    DriveRelativeParts(b);
    assert b[..2] + [] + b[2..] == b;
  }

  /** Joining a separator-free name to an absolute directory. */
  lemma JoinName(t: string, b: string)
    requires AbsoluteDir(t) && NoSep(b)
    ensures !HasDrive(b) ==> Join2(t, b) == Child(t, b)
    ensures HasDrive(b) && Lower(b[..2]) == Lower(t[..2]) ==> Join2(t, b) == b[..2] + Child(t, b[2..])[2..]
    ensures HasDrive(b) && Lower(b[..2]) != Lower(t[..2]) ==> Join2(t, b) == b
  {
    if HasDrive(b) {
      JoinDriveName(t, b);
    } else {
      JoinPlainName(t, b);
    }
  }

  /** As written: the path stays inside the directory, as the child named
      by the basename, exactly when the basename has no drive of its own;
      one with another drive is returned as it is, outside the directory. */
  lemma SafeTempPathAsWritten(t: string, nombre: string)
    requires AbsoluteDir(t)
    ensures var b := Basename(nombre);
            && (!HasDrive(b) ==> SafeTempPath(t, nombre) == Child(t, b))
            && (HasDrive(b) && Lower(b[..2]) != Lower(t[..2]) ==> SafeTempPath(t, nombre) == b)
  {
    JoinName(t, Basename(nombre));
  }

  /** Finding: a backslash hides a drive from `basename`, and `join` then
      leaves the temporary directory for the other drive. */
  lemma DriveEscape()
    ensures Basename("a\\D:x") == "D:x"
    ensures SafeTempPath("C:\\T\\", "a\\D:x") == "D:x"
    ensures !StartsWith(SafeTempPath("C:\\T\\", "a\\D:x"), "C:\\T\\")
  {
    HiddenDrive();
    OtherDrive();
    JoinName("C:\\T\\", "D:x");
  }

  lemma HiddenDrive()
    ensures Basename("a\\D:x") == "D:x"
  {
    HiddenDriveAt("a\\D:x");
  }

  lemma HiddenDriveAt(p: string)
    requires p == "a\\D:x"
    ensures Basename(p) == "D:x"
  {
    HiddenDriveSeps(p);
    RelativeParts(p);
    LastSepEndAt(p, 1);
  }

  lemma HiddenDriveSeps(p: string)
    requires p == "a\\D:x"
    ensures |p| == 5 && !IsSep(p[0]) && !HasDrive(p) && IsSep(p[1])
    ensures forall k :: 1 < k < |p| ==> !IsSep(p[k])
    ensures p[2..] == "D:x"
  {
    assert !IsSep(p[2]) && !IsSep(p[3]) && !IsSep(p[4]);
  }

  lemma OtherDrive()
    ensures Lower("D:x"[..2]) != Lower("C:\\T\\"[..2])
  {
    assert Lower("D:x"[..2])[0] == 'd';
    assert Lower("C:\\T\\"[..2])[0] == 'c';
  }

  /** Finding: `..` is its own basename, so it names the directory's
      parent. */
  lemma ParentEscape()
    ensures SafeTempPath("C:\\T\\", "..") == "C:\\T\\.."
  {
    var n := "..";
    assert NoSep(n) && !HasDrive(n);
    BasenameOfName(n);
    JoinName("C:\\T\\", n);
    assert Child("C:\\T\\", n) == "C:\\T\\" + n;
  }

  /** A relative climb is cut down to its last component: `../../x`
      resolves to `x` inside the directory. */
  lemma TraversalStripped(t: string)
    requires AbsoluteDir(t)
    ensures SafeTempPath(t, "../../x") == Child(t, "x")
  {
    TraversalBasename("../../x");
    JoinPlainName(t, "x");
  }

  lemma TraversalBasename(p: string)
    requires p == "../../x"
    ensures Basename(p) == "x"
  {
    TraversalSeps(p);
    RelativeParts(p);
    LastSepEndAt(p, 5);
  }

  lemma TraversalSeps(p: string)
    requires p == "../../x"
    ensures |p| == 7 && !IsSep(p[0]) && !HasDrive(p) && IsSep(p[5]) && !IsSep(p[6])
    ensures p[6..] == "x"
  {
  }

  /** A path ending in a separator has an empty basename. */
  lemma BasenameAtSep(p: string)
    requires |p| > 0 && IsSep(p[|p| - 1])
    ensures Basename(p) == []
  {
    var r := SplitRoot(p);
    if |r.rest| > 0 {
      assert p == r.drive + r.root + r.rest;
      assert r.rest[|r.rest| - 1] == p[|p| - 1];
    }
  }

  /** A name ending in a separator resolves to the directory itself. */
  lemma TrailingSepIsDir(t: string, nombre: string)
    requires AbsoluteDir(t) && |nombre| > 0 && IsSep(nombre[|nombre| - 1])
    ensures SafeTempPath(t, nombre) == Child(t, [])
    ensures IsSep(t[|t| - 1]) ==> SafeTempPath(t, nombre) == t
  {
    BasenameAtSep(nombre);
    JoinPlainName(t, []);
  }

  /** A name the corrected helper accepts: non-empty, not `.` or `..`, and
      without a colon (no drive, no alternate data stream). */
  predicate SafeName(b: string) {
    b != [] && b != "." && b != ".." && ':' !in b
  }

  /** `_safe_temp_path` with the basename checked; None where the endpoint
      answers 404. */
  function ConfinedPath(temp: string, nombre: string): (r: Option<string>)
    ensures r.Some? <==> SafeName(Basename(nombre))
  {
    var b := Basename(nombre);
    if SafeName(b) then Some(Join2(temp, b)) else None
  }

  lemma ColonFreeNoDrive(b: string)
    ensures ':' !in b ==> !HasDrive(b)
  {
    if |b| >= 2 {
      assert b[1] in b;
    }
  }

  /** Corrected: every accepted name resolves to a direct child of the
      directory, named by the basename, which is its own basename. */
  lemma ConfinedPathInside(t: string, nombre: string)
    requires AbsoluteDir(t) && ConfinedPath(t, nombre).Some?
    ensures var b := Basename(nombre);
            && ConfinedPath(t, nombre).value == Child(t, b)
            && b != [] && NoSep(b) && b != "." && b != ".."
            && Basename(b) == b
  {
    var b := Basename(nombre);
    ColonFreeNoDrive(b);
    JoinName(t, b);
    BasenameOfName(b);
  }

  /** Corrected: a plain file name (like every name `enviar_comando`
      saves) is accepted and resolves to that file in the directory. */
  lemma ConfinedPathPlain(t: string, name: string)
    requires AbsoluteDir(t) && NoSep(name) && SafeName(name)
    ensures ConfinedPath(t, name) == Some(Child(t, name))
  {
    ColonFreeNoDrive(name);
    BasenameOfName(name);
    JoinName(t, name);
  }

  /** The last separator is at `j`. */
  lemma {:induction false} LastSepEndAt(q: string, j: nat)
    requires j < |q| && IsSep(q[j])
    requires forall k :: j < k < |q| ==> !IsSep(q[k])
    ensures LastSepEnd(q) == j + 1
  {
    if j + 1 < |q| {
      var q' := q[..|q| - 1];
      assert q'[j] == q[j];
      LastSepEndAt(q', j);
    }
  }

  lemma {:induction false} LastSepEndNone(q: string)
    requires NoSep(q)
    ensures LastSepEnd(q) == 0
  {
    if |q| > 0 {
      var q' := q[..|q| - 1];
      assert NoSep(q') by {
        forall k | 0 <= k < |q'| ensures !IsSep(q'[k]) {
          assert q'[k] == q[k];
        }
      }
      LastSepEndNone(q');
    }
  }

  /** The basename of a child is the name it was made from. */
  lemma BasenameOfChild(t: string, b: string)
    requires AbsoluteDir(t) && NoSep(b)
    ensures Basename(Child(t, b)) == b
  {
    var c := Child(t, b);
    AbsoluteDirParts(c);
    ChildLastSep(t, b);
    assert c[3..][|c| - 3 - |b|..] == b;
  }

  /** In a child of an absolute directory, the last separator comes just
      before the name. */
  lemma ChildLastSep(t: string, b: string)
    requires AbsoluteDir(t) && NoSep(b)
    ensures |Child(t, b)| >= 3 + |b|
    ensures LastSepEnd(Child(t, b)[3..]) == |Child(t, b)| - 3 - |b|
  {
    var c := Child(t, b);
    var q := c[3..];
    var m := |c| - |b| - 1;
    assert IsSep(c[m]);
    if m >= 3 {
      assert q[m - 3] == c[m];
      forall k | m - 3 < k < |q|
        ensures !IsSep(q[k])
      {
        assert q[k] == b[k - m + 2];
      }
      LastSepEndAt(q, m - 3);
    } else {
      assert q == b;
      LastSepEndNone(q);
    }
  }

  // ---------------------------------------------------------------------
  // Endpoints

  const NoCommands: string := "No se encontraron comandos."
  const UnreadablePrefix: string := "No se pudo leer la respuesta: "
  const FileMissing: string := "El archivo no se encontr\U{F3} en el servidor."
  const NotThere: string := "No existe"
  const OctetStream: string := "application/octet-stream"
  const NotFound: string := "Not Found"
  const RespuestaName: string := "respuestas.json"
  const JsonType: string := "application/json"

  /** What an endpoint sends: a JSON body with a status, an
      `HTTPException` with its detail, a file, or an empty 204. */
  datatype Response =
    | Json(status: nat, body: Value)
    | HttpError(status: nat, detail: string)
    | FileSent(path: string, mediaType: string, filename: string)
    | NoContent

  function Status(r: Response): nat {
    match r
    case Json(s, _) => s
    case HttpError(s, _) => s
    case FileSent(_, _, _) => 200
    case NoContent => 204
  }

  /** `GET /comandos`. */
  function GetComandos(c: Catalog, seccion: Option<string>): (r: Response)
    ensures r.HttpError? <==> ListarComandos(c, seccion) == []
    ensures r.HttpError? ==> r == HttpError(404, NoCommands)
    ensures r.Json? ==> && r.status == 200 && r.body.Obj?
                        && "total" in r.body.fields && "comandos" in r.body.fields
                        && r.body.fields["comandos"].Arr?
                        && r.body.fields["total"] == Num(|r.body.fields["comandos"].items|)
  {
    var data := ListarComandos(c, seccion);
    if |data| == 0 then HttpError(404, NoCommands)
    else Json(200, Obj(map["total" := Num(|data|), "comandos" := Arr(Objects(data))]))
  }

  /** The listed commands are the catalog's, in order. */
  lemma GetComandosLists(c: Catalog, seccion: Option<string>)
    requires GetComandos(c, seccion).Json?
    ensures var items := GetComandos(c, seccion).body.fields["comandos"].items;
            var data := ListarComandos(c, seccion);
            |items| == |data| && forall i :: 0 <= i < |data| ==> items[i] == Obj(data[i])
  {
  }

  /** `GET /consulta`: the handler's document, or a 500 carrying its
      text. */
  function Consulta(r: Reply): (resp: Response)
    ensures resp.HttpError? <==> r.ErrorReply?
    ensures resp.HttpError? ==> resp == HttpError(500, r.texto)
    ensures resp.Json? ==> resp.status == 200
  {
    if r.ErrorReply? then HttpError(500, r.texto) else Json(200, Document(r))
  }

  /** A successful answer carries the whole reply. */
  lemma ConsultaCarriesReply(r: Reply)
    requires r.OkReply?
    ensures ReadDocument(Consulta(r).body) == Some(r)
  {
    DocumentRoundTrip(r);
  }

  /** What `respuestas.json` holds when it is read: nothing, bytes that do
      not parse as JSON (`error` says why), or a JSON document. */
  datatype Stored = Absent | Unreadable(error: string) | Present(data: Value)

  /** The body sent while no answer has been published. */
  function EmptyAnswer(): (v: Value)
    ensures v.Obj? && "texto" in v.fields && v.fields["texto"] == Str([]) && "archivos" !in v.fields
  {
    Obj(map["texto" := Str([]), "archivo" := Null])
  }

  /** `GET /respuesta` (the ETag and cache headers left out). */
  function GetRespuesta(f: Stored): (r: Response)
    ensures f.Absent? <==> r == Json(204, EmptyAnswer())
    ensures f.Unreadable? <==> r.HttpError?
    ensures f.Unreadable? ==> r == HttpError(500, UnreadablePrefix + f.error)
    ensures f.Present? ==> r == Json(200, f.data)
  {
    match f
    case Absent => Json(204, EmptyAnswer())
    case Unreadable(e) => HttpError(500, UnreadablePrefix + e)
    case Present(d) => Json(200, d)
  }

  /** `GET /temp_files/respuestas.json`, served by the `StaticFiles` mount
      over `TEMP_DIR`: Starlette's 404 when the file is missing, and
      otherwise the file itself, with 200, whatever its bytes are. Nothing
      here parses the file. */
  function StaticRespuesta(temp: string, f: Stored): (r: Response)
    ensures f.Absent? <==> r.HttpError?
    ensures f.Absent? ==> r == HttpError(404, NotFound)
    ensures !f.Absent? ==> Status(r) == 200 && r.FileSent? && r.filename == RespuestaName
    ensures !f.Absent? ==> r.path == Join2(temp, RespuestaName) && r.mediaType == JsonType
  {
    if f.Absent? then HttpError(404, NotFound)
    else FileSent(Join2(temp, RespuestaName), JsonType, RespuestaName)
  }

  /** The media type: the guess, unless it is missing or empty. */
  function MediaType(guess: Option<string>): (m: string)
    ensures m != []
    ensures guess.Some? && guess.value != [] ==> m == guess.value
  {
    if guess.Some? && guess.value != [] then guess.value else OctetStream
  }

  /** `GET /descargar/{nombre}`; `exists` and `guess` stand for
      `os.path.exists` and `mimetypes.guess_type`. */
  function Descargar(temp: string, nombre: string, onDisk: string -> bool, guess: string -> Option<string>): (r: Response)
    ensures r.HttpError? <==> !onDisk(SafeTempPath(temp, nombre))
    ensures r.HttpError? ==> r == HttpError(404, FileMissing)
    ensures r.FileSent? ==>
              && r.path == SafeTempPath(temp, nombre)
              && r.filename == Basename(r.path)
              && r.mediaType == MediaType(guess(r.path))
  {
    var path := SafeTempPath(temp, nombre);
    if !onDisk(path) then HttpError(404, FileMissing)
    else FileSent(path, MediaType(guess(path)), Basename(path))
  }

  /** `HEAD /exists/{nombre}`. */
  function Existe(temp: string, nombre: string, onDisk: string -> bool): (r: Response)
    ensures r.HttpError? <==> !onDisk(SafeTempPath(temp, nombre))
    ensures r.HttpError? ==> r == HttpError(404, NotThere)
    ensures !r.HttpError? ==> r == NoContent
  {
    if !onDisk(SafeTempPath(temp, nombre)) then HttpError(404, NotThere) else NoContent
  }

  /** The two file endpoints agree: `/exists` answers 204 exactly when
      `/descargar` sends the file. */
  lemma ExisteAgreesWithDescargar(temp: string, nombre: string, onDisk: string -> bool, guess: string -> Option<string>)
    ensures Existe(temp, nombre, onDisk) == NoContent <==> Descargar(temp, nombre, onDisk, guess).FileSent?
  {
  }

  /** A saved file downloads under its own name from the temporary
      directory. */
  lemma DescargarSavedFile(temp: string, name: string, onDisk: string -> bool, guess: string -> Option<string>)
    requires AbsoluteDir(temp) && NoSep(name) && SafeName(name)
    requires onDisk(Child(temp, name))
    ensures Descargar(temp, name, onDisk, guess) == FileSent(Child(temp, name), MediaType(guess(Child(temp, name))), name)
  {
    ConfinedPathPlain(temp, name);
    BasenameOfName(name);
    BasenameOfChild(temp, name);
  }
}

=== FILE: catalog.dfy ===
/** The command catalog of Backend/utils.py: `comandos.json` maps section
    names to lists of command objects. It is validated on load, cached
    against the file's modification time, and queried by section, flattened,
    or searched by name. */
module Catalog {
  import opened Wrappers
  import opened Strings

  /** A JSON value as `json.load` returns it (numbers are integers here). */
  datatype Value =
    | Null
    | Bool(b: bool)
    | Num(n: int)
    | Str(s: string)
    | Arr(items: seq<Value>)
    | Obj(fields: map<string, Value>)

  /** A command object. */
  type Command = map<string, Value>

  /** A section as loaded: its key and its list of commands. */
  datatype Section = Section(name: string, commands: seq<Command>)

  /** A validated catalog: the sections in file order. */
  type Catalog = seq<Section>

  /** The top-level object of the file, in file order. */
  type RawCatalog = seq<(string, Value)>

  /** The `ValueError` `_validar_estructura` raises, by the section it
      names. */
  datatype CatalogError =
    | NotAList(seccion: string)
    | NotADict(seccion: string)
    | MissingField(seccion: string, field: string)

  predicate HasStringField(cmd: Command, k: string) {
    k in cmd && cmd[k].Str?
  }

  /** A command object with string `nombre` and `descripcion`. */
  predicate CommandOk(v: Value) {
    v.Obj? && HasStringField(v.fields, "nombre") && HasStringField(v.fields, "descripcion")
  }

  /** A list of well-formed command objects. */
  predicate SectionOk(v: Value) {
    v.Arr? && forall i :: 0 <= i < |v.items| ==> CommandOk(v.items[i])
  }

  /** Every section holds a list of well-formed command objects. */
  predicate WellFormed(raw: RawCatalog) {
    forall i :: 0 <= i < |raw| ==> SectionOk(raw[i].1)
  }

  /** The error a single list element raises, if any: not an object first,
      then `nombre`, then `descripcion`. */
  function CheckCommand(sec: string, v: Value): (r: Option<CatalogError>)
    ensures r.None? <==> CommandOk(v)
    ensures r.Some? ==> r.value.seccion == sec && !r.value.NotAList?
    ensures r.Some? && r.value.NotADict? <==> !v.Obj?
    ensures r.Some? && r.value.MissingField? ==>
              && v.Obj? && !HasStringField(v.fields, r.value.field)
              && (r.value.field == "nombre" || (r.value.field == "descripcion" && HasStringField(v.fields, "nombre")))
  {
    if !v.Obj? then Some(NotADict(sec))
    else if !HasStringField(v.fields, "nombre") then Some(MissingField(sec, "nombre"))
    else if !HasStringField(v.fields, "descripcion") then Some(MissingField(sec, "descripcion"))
    else None
  }

  /** Validates one section's list, reporting its first bad element. */
  function CheckCommands(sec: string, items: seq<Value>): (r: Result<seq<Command>, CatalogError>)
    ensures r.Success? <==> forall i :: 0 <= i < |items| ==> CommandOk(items[i])
    ensures r.Success? ==> Objects(r.value) == items
    ensures r.Failure? ==> exists i :: 0 <= i < |items| && FirstBad(items, i)
                                       && Some(r.error) == CheckCommand(sec, items[i])
  {
    if |items| == 0 then Success([])
    else
      match CheckCommand(sec, items[0])
      case Some(e) =>
        assert FirstBad(items, 0);
        Failure(e)
      case None =>
        var rest := CheckCommands(sec, items[1..]);
        assert forall i :: 1 <= i < |items| ==> items[i] == items[1..][i - 1];
        if rest.Failure? then
          var i :| 0 <= i < |items[1..]| && FirstBad(items[1..], i)
                   && Some(rest.error) == CheckCommand(sec, items[1..][i]);
          assert FirstBad(items, i + 1);
          Failure(rest.error)
        else
          Success([items[0].fields] + rest.value)
  }

  /** Position `i` holds the first element that is not a command object. */
  predicate FirstBad(items: seq<Value>, i: nat)
    requires i < |items|
  {
    !CommandOk(items[i]) && forall j :: 0 <= j < i ==> CommandOk(items[j])
  }

  /** A list of commands as the JSON list it came from. */
  function Objects(cmds: seq<Command>): (r: seq<Value>)
    ensures |r| == |cmds|
    ensures forall i :: 0 <= i < |r| ==> r[i] == Obj(cmds[i])
  {
    if |cmds| == 0 then [] else [Obj(cmds[0])] + Objects(cmds[1..])
  }

  /** A catalog as the top-level object it came from. */
  function Raw(c: Catalog): (r: RawCatalog)
    ensures |r| == |c|
    ensures forall i :: 0 <= i < |c| ==> r[i] == (c[i].name, Arr(Objects(c[i].commands)))
  {
    if |c| == 0 then [] else [(c[0].name, Arr(Objects(c[0].commands)))] + Raw(c[1..])
  }

  /** The error a whole section raises, if any. */
  function CheckSection(sec: string, v: Value): (r: Result<seq<Command>, CatalogError>)
    ensures r.Success? <==> SectionOk(v)
    ensures r.Success? ==> v == Arr(Objects(r.value))
    ensures r.Failure? ==> r.error.seccion == sec
    ensures r.Failure? && r.error.NotAList? <==> !v.Arr?
  {
    if !v.Arr? then Failure(NotAList(sec))
    else
      CheckCommands(sec, v.items)
  }

  /** `_validar_estructura`: the catalog as loaded, or the error of the
      first malformed section in file order. */
  function Validate(raw: RawCatalog): (r: Result<Catalog, CatalogError>)
    ensures r.Success? <==> WellFormed(raw)
    ensures r.Success? ==> Raw(r.value) == raw
    ensures r.Failure? ==> exists i :: 0 <= i < |raw| && FirstBadSection(raw, i)
                                       && raw[i].0 == r.error.seccion
                                       && CheckSection(raw[i].0, raw[i].1) == Failure(r.error)
  {
    if |raw| == 0 then Success([])
    else
      var (sec, v) := raw[0];
      var head := CheckSection(sec, v);
      if head.Failure? then
        assert FirstBadSection(raw, 0);
        Failure(head.error)
      else
        var rest := Validate(raw[1..]);
        assert forall i :: 1 <= i < |raw| ==> raw[i] == raw[1..][i - 1];
        if rest.Failure? then
          var i :| 0 <= i < |raw[1..]| && FirstBadSection(raw[1..], i)
                   && raw[1..][i].0 == rest.error.seccion
                   && CheckSection(raw[1..][i].0, raw[1..][i].1) == Failure(rest.error);
          assert FirstBadSection(raw, i + 1);
          Failure(rest.error)
        else
          var c := [Section(sec, head.value)] + rest.value;
          assert c[1..] == rest.value;
          Success(c)
  }

  /** Position `i` holds the first malformed section. */
  predicate FirstBadSection(raw: RawCatalog, i: nat)
    requires i < |raw|
  {
    !SectionOk(raw[i].1) && forall j :: 0 <= j < i ==> SectionOk(raw[j].1)
  }

  /** Every command of the catalog has string `nombre` and `descripcion`. */
  predicate CatalogOk(c: Catalog) {
    forall i, j :: 0 <= i < |c| && 0 <= j < |c[i].commands| ==> CommandOk(Obj(c[i].commands[j]))
  }

  /** A validated catalog is well formed. */
  lemma ValidateOk(raw: RawCatalog)
    requires Validate(raw).Success?
    ensures CatalogOk(Validate(raw).value)
  {
    var c := Validate(raw).value;
    forall i, j | 0 <= i < |c| && 0 <= j < |c[i].commands| ensures CommandOk(Obj(c[i].commands[j])) {
      assert raw[i] == Raw(c)[i];
      assert Objects(c[i].commands)[j] == Obj(c[i].commands[j]);
    }
  }

  /** Validation round trip: a well-formed catalog is validated to itself. */
  lemma {:induction false} ValidateRaw(c: Catalog)
    requires CatalogOk(c)
    ensures Validate(Raw(c)) == Success(c)
  {
    var raw := Raw(c);
    assert WellFormed(raw) by {
      forall i | 0 <= i < |raw| ensures SectionOk(raw[i].1) {
        var items := raw[i].1.items;
        assert forall j :: 0 <= j < |items| ==> items[j] == Obj(c[i].commands[j]);
      }
    }
    var r := Validate(raw);
    RawInjective(r.value, c);
  }

  lemma {:induction false} RawInjective(a: Catalog, b: Catalog)
    requires Raw(a) == Raw(b)
    ensures a == b
  {
    assert |a| == |b|;
    forall i | 0 <= i < |a| ensures a[i] == b[i] {
      assert Raw(a)[i] == Raw(b)[i];
      ObjectsInjective(a[i].commands, b[i].commands);
    }
  }

  lemma ObjectsInjective(a: seq<Command>, b: seq<Command>)
    requires Objects(a) == Objects(b)
    ensures a == b
  {
    assert |a| == |b|;
    forall i | 0 <= i < |a| ensures a[i] == b[i] {
      assert Objects(a)[i] == Objects(b)[i];
    }
  }

  // ---------------------------------------------------------------------
  // Loading with a cache

  /** Why loading failed: the file is missing, `json.load` raises
      `JSONDecodeError`, the top level has no `items` (`AttributeError`),
      or `_validar_estructura` rejects it. */
  datatype LoadError = FileNotFound | JsonDecode | NotAnObject | Invalid(error: CatalogError)

  /** `_cache` and `_cache_mtime`. */
  datatype Cache = Cache(data: Catalog, mtime: Option<int>)

  const NoCache: Cache := Cache([], None)

  /** What `json.load` makes of the file's text: no JSON at all, a top
      level that is a list, string, number, boolean or null, or an object
      whose members are listed as they appear in the text, a key possibly
      repeated. */
  datatype Parsed = Unparsable | NotObject(top: Value) | Members(members: RawCatalog)

  /** The data file: its modification time and parsed content. */
  datatype DataFile = DataFile(mtime: int, content: Parsed)

  /** Some member has key `k`. */
  predicate HasKey(ms: RawCatalog, k: string) {
    exists i :: 0 <= i < |ms| && ms[i].0 == k
  }

  /** No key is listed twice. */
  predicate DistinctKeys(ms: RawCatalog) {
    forall i, j :: 0 <= i < j < |ms| ==> ms[i].0 != ms[j].0
  }

  /** Member `j` is the last one with its key. */
  predicate IsLast(ms: RawCatalog, j: nat)
    requires j < |ms|
  {
    forall l :: j < l < |ms| ==> ms[l].0 != ms[j].0
  }

  /** Both lists hold the same keys. */
  ghost predicate SameKeys(a: RawCatalog, b: RawCatalog) {
    forall k :: HasKey(a, k) <==> HasKey(b, k)
  }

  /** Every entry of `d` is the last member of `ms` with its key. */
  predicate LastValues(ms: RawCatalog, d: RawCatalog) {
    forall i :: 0 <= i < |d| ==> exists j :: 0 <= j < |ms| && ms[j] == d[i] && IsLast(ms, j)
  }

  /** The position of the first member with key `k`. */
  function KeyIndex(ms: RawCatalog, k: string): (r: nat)
    requires HasKey(ms, k)
    ensures r < |ms| && ms[r].0 == k
    ensures forall i :: 0 <= i < r ==> ms[i].0 != k
  {
    if ms[0].0 == k then 0
    else
      assert HasKey(ms[1..], k) by {
        var i :| 0 <= i < |ms| && ms[i].0 == k;
        assert ms[1..][i - 1].0 == k;
      }
      KeyIndex(ms[1..], k) + 1
  }

  /** `d[k] = v` on a dict: a present key keeps its place and takes the new
      value, an absent one is added last. */
  function Store(d: RawCatalog, k: string, v: Value): (r: RawCatalog)
    requires DistinctKeys(d)
    ensures DistinctKeys(r)
    ensures HasKey(d, k) ==> |r| == |d|
    ensures !HasKey(d, k) ==> r == d + [(k, v)]
    ensures forall i :: 0 <= i < |d| ==> r[i] == if d[i].0 == k then (k, v) else d[i]
  {
    if HasKey(d, k) then d[KeyIndex(d, k) := (k, v)] else d + [(k, v)]
  }

  /** The dict `json.load` builds from an object's members, in text
      order: every key once, in the place of its first occurrence, with the
      value of its last. */
  function DictOf(ms: RawCatalog): (r: RawCatalog)
    ensures DistinctKeys(r)
    ensures SameKeys(r, ms)
    ensures LastValues(ms, r)
    decreases |ms|
  {
    if |ms| == 0 then []
    else
      var init := ms[..|ms| - 1];
      var k := ms[|ms| - 1].0;
      var d := DictOf(init);
      var s := Store(d, k, ms[|ms| - 1].1);
      DictOfStep(ms, init, d, s);
      s
  }

  lemma DictOfStep(ms: RawCatalog, init: RawCatalog, d: RawCatalog, r: RawCatalog)
    requires |ms| > 0 && init == ms[..|ms| - 1] && DistinctKeys(d)
    requires SameKeys(d, init)
    requires LastValues(init, d)
    requires r == Store(d, ms[|ms| - 1].0, ms[|ms| - 1].1)
    ensures DistinctKeys(r)
    ensures SameKeys(r, ms)
    ensures LastValues(ms, r)
  {
    DictOfStepKeys(ms, init, d, r);
    DictOfStepValues(ms, init, d, r);
  }

  lemma DictOfStepKeys(ms: RawCatalog, init: RawCatalog, d: RawCatalog, r: RawCatalog)
    requires |ms| > 0 && init == ms[..|ms| - 1] && DistinctKeys(d)
    requires SameKeys(d, init)
    requires r == Store(d, ms[|ms| - 1].0, ms[|ms| - 1].1)
    ensures SameKeys(r, ms)
  {
    var n := |ms| - 1;
    var k := ms[n].0;
    forall x ensures HasKey(r, x) <==> HasKey(ms, x) {
      if HasKey(r, x) {
        var i :| 0 <= i < |r| && r[i].0 == x;
        if x != k {
          assert r[i] == d[i] && HasKey(d, x);
          var j :| 0 <= j < |init| && init[j].0 == x;
          assert ms[j] == init[j];
        }
      }
      if HasKey(ms, x) {
        var j :| 0 <= j < |ms| && ms[j].0 == x;
        if x == k {
          if HasKey(d, k) {
            var i := KeyIndex(d, k);
            assert r[i].0 == x;
          } else {
            assert r[|d|].0 == x;
          }
        } else {
          assert init[j].0 == x;
          assert HasKey(init, x);
          var i :| 0 <= i < |d| && d[i].0 == x;
          assert r[i].0 == x;
        }
      }
    }
  }

  lemma DictOfStepValues(ms: RawCatalog, init: RawCatalog, d: RawCatalog, r: RawCatalog)
    requires |ms| > 0 && init == ms[..|ms| - 1] && DistinctKeys(d)
    requires LastValues(init, d)
    requires r == Store(d, ms[|ms| - 1].0, ms[|ms| - 1].1)
    ensures LastValues(ms, r)
  {
    var n := |ms| - 1;
    var k := ms[n].0;
    forall i | 0 <= i < |r| ensures exists j :: 0 <= j < |ms| && ms[j] == r[i] && IsLast(ms, j) {
      if i < |d| && d[i].0 != k {
        var j :| 0 <= j < n && init[j] == d[i] && IsLast(init, j);
        assert ms[j] == init[j];
        assert IsLast(ms, j);
      } else {
        assert r[i] == ms[n];
        assert IsLast(ms, n);
      }
    }
  }

  /** The dict keeps the order of first occurrences: the key of an earlier
      entry occurs in the text before any occurrence of a later entry's key. */
  lemma {:induction false} DictOfOrder(ms: RawCatalog, i: nat, i': nat)
    requires i < i' < |DictOf(ms)|
    ensures exists j :: 0 <= j < |ms| && ms[j].0 == DictOf(ms)[i].0
                        && forall l :: 0 <= l <= j ==> ms[l].0 != DictOf(ms)[i'].0
    decreases |ms|
  {
    var init := ms[..|ms| - 1];
    var k := ms[|ms| - 1].0;
    var d := DictOf(init);
    var r := DictOf(ms);
    assert r == Store(d, k, ms[|ms| - 1].1);
    assert r[i].0 == d[i].0;
    if i' < |d| {
      assert r[i'].0 == d[i'].0;
      DictOfOrder(init, i, i');
      var j :| 0 <= j < |init| && init[j].0 == d[i].0
               && forall l :: 0 <= l <= j ==> init[l].0 != d[i'].0;
      assert ms[j] == init[j];
      assert forall l :: 0 <= l <= j ==> ms[l] == init[l];
    } else {
      assert !HasKey(d, k) && r[i'].0 == k;
      assert HasKey(init, d[i].0);
      var j :| 0 <= j < |init| && init[j].0 == d[i].0;
      assert ms[j] == init[j];
      forall l | 0 <= l <= j ensures ms[l].0 != k {
        assert ms[l] == init[l];
      }
    }
  }

  /** Without repeated keys the dict is the member list itself. */
  lemma {:induction false} DictOfDistinct(ms: RawCatalog)
    requires DistinctKeys(ms)
    ensures DictOf(ms) == ms
    decreases |ms|
  {
    if |ms| > 0 {
      var n := |ms| - 1;
      var init := ms[..n];
      DistinctInit(ms);
      DictOfDistinct(init);
      DictOfFresh(init, ms[n]);
      SnocParts(ms);
    }
  }

  /** A last member with a new key is appended to a dict that is already
      the member list before it. */
  lemma DictOfFresh(init: RawCatalog, m: (string, Value))
    requires DistinctKeys(init) && !HasKey(init, m.0)
    requires DictOf(init) == init
    ensures DictOf(init + [m]) == init + [m]
  {
    var ms := init + [m];
    assert ms[..|ms| - 1] == init && ms[|ms| - 1] == m;
    DictOfSnoc(ms);
    StoreFresh(init, m);
  }

  lemma SnocParts(ms: RawCatalog)
    requires |ms| > 0
    ensures ms[..|ms| - 1] + [ms[|ms| - 1]] == ms
  {
  }

  /** The members before the last one keep distinct keys and do not
      repeat the last one's. */
  lemma DistinctInit(ms: RawCatalog)
    requires |ms| > 0 && DistinctKeys(ms)
    ensures DistinctKeys(ms[..|ms| - 1]) && !HasKey(ms[..|ms| - 1], ms[|ms| - 1].0)
  {
    var init := ms[..|ms| - 1];
    assert forall i :: 0 <= i < |init| ==> init[i] == ms[i];
  }

  lemma StoreFresh(d: RawCatalog, m: (string, Value))
    requires DistinctKeys(d) && !HasKey(d, m.0)
    ensures Store(d, m.0, m.1) == d + [m]
  {
  }

  lemma DictOfSnoc(ms: RawCatalog)
    requires |ms| > 0
    ensures DictOf(ms) == Store(DictOf(ms[..|ms| - 1]), ms[|ms| - 1].0, ms[|ms| - 1].1)
  {
  }

  function DiskMtime(disk: Option<DataFile>): Option<int> {
    if disk.Some? then Some(disk.value.mtime) else None
  }

  /** The reload decision of `cargar_comandos`. */
  predicate ShouldReload(force: bool, cache: Cache, disk: Option<DataFile>) {
    force || cache.mtime.None? || DiskMtime(disk) != cache.mtime || |cache.data| == 0
  }

  /** The file parses to an object whose dict is a well-formed catalog. */
  predicate Readable(p: Parsed) {
    p.Members? && WellFormed(DictOf(p.members))
  }

  /** `_leer_json`: a missing file, JSON that does not parse, and a top
      level without `items` each fail before validation; an object is
      validated as the dict `json.load` builds. */
  function ReadCatalog(disk: Option<DataFile>): (r: Result<Catalog, LoadError>)
    ensures disk.None? <==> r == Failure(FileNotFound)
    ensures disk.Some? ==> (disk.value.content.Unparsable? <==> r == Failure(JsonDecode))
    ensures disk.Some? ==> (disk.value.content.NotObject? <==> r == Failure(NotAnObject))
    ensures disk.Some? ==> (r.Success? <==> Readable(disk.value.content))
    ensures r.Success? ==> disk.Some? && Raw(r.value) == DictOf(disk.value.content.members)
    ensures r.Failure? && r.error.Invalid? ==>
              disk.Some? && disk.value.content.Members?
              && Validate(DictOf(disk.value.content.members)) == Failure(r.error.error)
  {
    match disk
    case None => Failure(FileNotFound)
    case Some(f) =>
      match f.content
      case Unparsable => Failure(JsonDecode)
      case NotObject(_) => Failure(NotAnObject)
      case Members(ms) =>
        match Validate(DictOf(ms))
        case Success(c) => Success(c)
        case Failure(e) => Failure(Invalid(e))
  }

  /** `cargar_comandos(force)`: the new cache, whose data is the result.
      A failure leaves the old cache in place. */
  function Load(force: bool, cache: Cache, disk: Option<DataFile>): (r: Result<Cache, LoadError>)
    ensures !ShouldReload(force, cache, disk) ==> r == Success(cache)
    ensures ShouldReload(force, cache, disk) && r.Success? ==>
              && disk.Some? && r.value.mtime == Some(disk.value.mtime)
              && disk.value.content.Members? && Raw(r.value.data) == DictOf(disk.value.content.members)
  {
    if ShouldReload(force, cache, disk) then
      match ReadCatalog(disk)
      case Success(c) => Success(Cache(c, DiskMtime(disk)))
      case Failure(e) => Failure(e)
    else Success(cache)
  }

  /** A missing file is always reported, whatever was cached. */
  lemma LoadMissingFile(force: bool, cache: Cache)
    ensures Load(force, cache, None) == Failure(FileNotFound)
  {
  }

  /** A successful load is stable: loading again without force against the
      same file returns the same cache. */
  lemma LoadStable(force: bool, cache: Cache, disk: Option<DataFile>)
    requires Load(force, cache, disk).Success?
    ensures Load(false, Load(force, cache, disk).value, disk) == Load(force, cache, disk)
  {
    var c1 := Load(force, cache, disk).value;
    if ShouldReload(force, cache, disk) && ShouldReload(false, c1, disk) {
      var r := ReadCatalog(disk);
      RawInjective(r.value, c1.data);
    }
  }

  /** A changed modification time forces a re-read. */
  lemma LoadSeesChange(cache: Cache, f: DataFile)
    requires cache.mtime != Some(f.mtime)
    ensures Load(false, cache, Some(f)).Success? <==> Readable(f.content)
    ensures Load(false, cache, Some(f)).Success? ==> Raw(Load(false, cache, Some(f)).value.data) == DictOf(f.content.members)
  {
  }

  // ---------------------------------------------------------------------
  // Queries

  /** `secciones`: the section keys in catalog order. */
  function Secciones(c: Catalog): (r: seq<string>)
    ensures |r| == |c|
    ensures forall i :: 0 <= i < |c| ==> r[i] == c[i].name
  {
    if |c| == 0 then [] else [c[0].name] + Secciones(c[1..])
  }

  /** `data.get(key)`: the commands of the first section with that key. */
  function Lookup(c: Catalog, key: string): (r: Option<seq<Command>>)
    ensures r.Some? <==> exists i :: 0 <= i < |c| && c[i].name == key
    ensures r.Some? ==> exists i :: 0 <= i < |c| && c[i].name == key && r.value == c[i].commands
  {
    if |c| == 0 then None
    else if c[0].name == key then Some(c[0].commands)
    else
      var r := Lookup(c[1..], key);
      assert forall i :: 1 <= i < |c| ==> c[i] == c[1..][i - 1];
      r
  }

  /** A key is listed by `secciones` exactly when looking it up succeeds. */
  lemma SeccionesLookup(c: Catalog, key: string)
    ensures key in Secciones(c) <==> Lookup(c, key).Some?
  {
    if Lookup(c, key).Some? {
      var i :| 0 <= i < |c| && c[i].name == key;
      assert Secciones(c)[i] == key;
    }
  }

  /** `{"seccion": sec, **cmd}`: the command's own keys win. */
  function Tag(sec: string, cmd: Command): (r: Command)
    ensures "seccion" in r
    ensures "seccion" !in cmd ==> r["seccion"] == Str(sec)
    ensures forall k :: k in cmd ==> k in r && r[k] == cmd[k]
    ensures forall k :: k in r ==> k in cmd || k == "seccion"
  {
    map["seccion" := Str(sec)] + cmd
  }

  function TagAll(sec: string, cmds: seq<Command>): (r: seq<Command>)
    ensures |r| == |cmds|
    ensures forall j :: 0 <= j < |cmds| ==> r[j] == Tag(sec, cmds[j])
  {
    if |cmds| == 0 then [] else [Tag(sec, cmds[0])] + TagAll(sec, cmds[1..])
  }

  /** Every command of the catalog, tagged with its section, in order. */
  function Flatten(c: Catalog): (r: seq<Command>)
    ensures |r| == Size(c)
    ensures forall j :: 0 <= j < |r| ==> "seccion" in r[j]
  {
    if |c| == 0 then [] else TagAll(c[0].name, c[0].commands) + Flatten(c[1..])
  }

  /** The number of commands in the catalog. */
  function Size(c: Catalog): nat {
    if |c| == 0 then 0 else |c[0].commands| + Size(c[1..])
  }

  /** The position of section `i`'s first command in the flat list. */
  function Offset(c: Catalog, i: nat): nat
    requires i <= |c|
  {
    if i == 0 then 0 else Offset(c, i - 1) + |c[i - 1].commands|
  }

  /** Flattening lists every command once: the flat list is as long as all
      sections together, and command `j` of section `i` sits at the
      section's offset plus `j`, tagged with the section. */
  lemma {:induction false} FlattenAt(c: Catalog, i: nat, j: nat)
    requires i < |c| && j < |c[i].commands|
    ensures |Flatten(c)| == Size(c)
    ensures Offset(c, i) + j < |Flatten(c)|
    ensures Flatten(c)[Offset(c, i) + j] == Tag(c[i].name, c[i].commands[j])
  {
    FlattenSize(c);
    if i > 0 {
      FlattenAt(c[1..], i - 1, j);
      assert c[1..][i - 1] == c[i];
      OffsetTail(c, i);
    }
  }

  lemma {:induction false} FlattenSize(c: Catalog)
    ensures |Flatten(c)| == Size(c)
  {
    if |c| > 0 {
      FlattenSize(c[1..]);
    }
  }

  lemma {:induction false} OffsetTail(c: Catalog, i: nat)
    requires 0 < i <= |c|
    ensures Offset(c, i) == |c[0].commands| + Offset(c[1..], i - 1)
  {
    if i > 1 {
      OffsetTail(c, i - 1);
      assert c[1..][i - 2] == c[i - 1];
    }
  }

  /** Flattening distributes over concatenation of catalogs. */
  lemma {:induction false} FlattenAppend(a: Catalog, b: Catalog)
    ensures Flatten(a + b) == Flatten(a) + Flatten(b)
  {
    if |a| > 0 {
      assert (a + b)[1..] == a[1..] + b;
      FlattenAppend(a[1..], b);
    } else {
      assert a + b == b;
    }
  }

  /** `listar_comandos(seccion)`. */
  function ListarComandos(c: Catalog, seccion: Option<string>): (r: seq<Command>)
    ensures seccion.None? || seccion == Some([]) ==>
              |r| == Size(c) && forall j :: 0 <= j < |r| ==> "seccion" in r[j]
    ensures seccion.Some? && seccion.value != [] && r != [] ==>
              exists i :: 0 <= i < |c| && c[i].name == Upper(Strip(Python, seccion.value)) && r == c[i].commands
  {
    if seccion.Some? && seccion.value != [] then
      Lookup(c, Upper(Strip(Python, seccion.value))).GetOr([])
    else Flatten(c)
  }

  /** With a non-empty argument the list is the section under the stripped,
      upper-cased key, or empty when there is none; otherwise it is the
      whole flat list. */
  lemma ListarComandosSpec(c: Catalog, seccion: Option<string>)
    ensures seccion.None? || seccion == Some([]) ==> ListarComandos(c, seccion) == Flatten(c)
    ensures seccion.Some? && seccion.value != [] ==>
              var key := Upper(Strip(Python, seccion.value));
              && ((exists i :: 0 <= i < |c| && c[i].name == key && ListarComandos(c, seccion) == c[i].commands)
                  || ((forall i :: 0 <= i < |c| ==> c[i].name != key) && ListarComandos(c, seccion) == []))
  {
  }

  /** The name a command is searched by: its `nombre`, or "" when absent. */
  function NameOf(cmd: Command): string {
    if "nombre" in cmd && cmd["nombre"].Str? then cmd["nombre"].s else []
  }

  predicate Matches(cmd: Command, q: string) {
    Lower(NameOf(cmd)) == q
  }

  /** The first command of a list whose lower-cased name is `q`. */
  function FindIn(cmds: seq<Command>, q: string): (r: Option<nat>)
    ensures r.Some? ==> r.value < |cmds| && Matches(cmds[r.value], q)
    ensures r.Some? ==> forall j :: 0 <= j < r.value ==> !Matches(cmds[j], q)
    ensures r.None? ==> forall j :: 0 <= j < |cmds| ==> !Matches(cmds[j], q)
  {
    if |cmds| == 0 then None
    else if Matches(cmds[0], q) then Some(0)
    else
      var r := FindIn(cmds[1..], q);
      assert forall j :: 1 <= j < |cmds| ==> cmds[j] == cmds[1..][j - 1];
      if r.Some? then Some(r.value + 1) else None
  }

  /** No command of the catalog has lower-cased name `q`. */
  predicate NoMatch(c: Catalog, q: string) {
    forall i, j :: 0 <= i < |c| && 0 <= j < |c[i].commands| ==> !Matches(c[i].commands[j], q)
  }

  /** Command `j` of section `i` is the first, in iteration order over
      sections and then their lists, whose lower-cased name is `q`. */
  predicate FirstMatch(c: Catalog, q: string, i: nat, j: nat) {
    && i < |c| && j < |c[i].commands| && Matches(c[i].commands[j], q)
    && (forall i', j' :: 0 <= i' < i && 0 <= j' < |c[i'].commands| ==> !Matches(c[i'].commands[j'], q))
    && (forall j' :: 0 <= j' < j ==> !Matches(c[i].commands[j'], q))
  }

  /** The first (section, command) position, in catalog order, whose
      command's lower-cased name is `q`. */
  function Find(c: Catalog, q: string): (r: Option<(nat, nat)>)
    ensures r.Some? ==> FirstMatch(c, q, r.value.0, r.value.1)
    ensures r.None? ==> NoMatch(c, q)
  {
    if |c| == 0 then None
    else
      match FindIn(c[0].commands, q)
      case Some(j) => Some((0, j))
      case None =>
        var r := Find(c[1..], q);
        FindShift(c, q, r);
        if r.Some? then Some((r.value.0 + 1, r.value.1)) else None
  }

  /** A search that passes the first section without a match goes on in the
      rest, one section further along. */
  lemma FindShift(c: Catalog, q: string, r: Option<(nat, nat)>)
    requires |c| > 0
    requires forall j :: 0 <= j < |c[0].commands| ==> !Matches(c[0].commands[j], q)
    requires r.Some? ==> FirstMatch(c[1..], q, r.value.0, r.value.1)
    requires r.None? ==> NoMatch(c[1..], q)
    ensures r.Some? ==> FirstMatch(c, q, r.value.0 + 1, r.value.1)
    ensures r.None? ==> NoMatch(c, q)
  {
    assert forall i :: 1 <= i < |c| ==> c[i] == c[1..][i - 1];
  }

  /** `buscar_comando(nombre)`: None for a blank name; otherwise the first
      section and command whose lower-cased `nombre` equals the stripped,
      lower-cased query. */
  function BuscarComando(c: Catalog, nombre: string): (r: Option<(string, Command)>)
    ensures Strip(Python, nombre) == [] ==> r.None?
    ensures r.Some? ==> exists i: nat, j: nat :: FirstMatch(c, Lower(Strip(Python, nombre)), i, j)
                          && r.value == (c[i].name, c[i].commands[j])
    ensures r.None? && Strip(Python, nombre) != [] ==>
              forall i, j :: 0 <= i < |c| && 0 <= j < |c[i].commands| ==>
                Lower(NameOf(c[i].commands[j])) != Lower(Strip(Python, nombre))
  {
    var q := Lower(Strip(Python, nombre));
    if q == [] then None
    else
      match Find(c, q)
      case Some((i, j)) => Some((c[i].name, c[i].commands[j]))
      case None => None
  }

  /** `tipo_respuesta_de(nombre)`: the found command's `tipo_respuesta`, or
      None when there is no such command, or the key is absent or null. */
  function TipoRespuestaDe(c: Catalog, nombre: string): (r: Option<Value>)
    ensures BuscarComando(c, nombre).None? ==> r.None?
    ensures r.Some? ==> r.value != Null
    ensures BuscarComando(c, nombre).Some? ==>
              var cmd := BuscarComando(c, nombre).value.1;
              r == (if "tipo_respuesta" in cmd && cmd["tipo_respuesta"] != Null
                    then Some(cmd["tipo_respuesta"]) else None)
  {
    match BuscarComando(c, nombre)
    case None => None
    case Some((_, cmd)) =>
      if "tipo_respuesta" in cmd && cmd["tipo_respuesta"] != Null then Some(cmd["tipo_respuesta"]) else None
  }
}

=== FILE: command_format.dfy ===
/** The one syntactic check `enviar_comando` (Backend/bot_handler.py) makes
    before any network I/O: a command that starts with `/nm` must split into
    exactly three pieces on `|`. Only the pieces are counted: empty fields
    pass, and `/nmx...` is checked too. */
module CommandFormat {
  import opened Wrappers
  import opened Strings

  const NmPrefix: string := "/nm"

  const FormatError: string :=
    "\U{26A0}\U{FE0F} Formato inv\U{E1}lido. Usa: /nm nombre|apellidopaterno|apellidomaterno"

  /** The command passes the check. */
  predicate NmFormatOk(comando: string) {
    !StartsWith(comando, NmPrefix) || |Split(comando, '|')| == 3
  }

  /** The error text the check returns, if any. */
  function Validate(comando: string): (r: Option<string>)
    ensures r.Some? <==> StartsWith(comando, NmPrefix) && Count(comando, '|') != 2
    ensures r.Some? ==> r.value == FormatError
  {
    if NmFormatOk(comando) then None else Some(FormatError)
  }

  /** The check accepts exactly: commands not starting with `/nm`, and
      commands holding exactly two `|`. */
  lemma {:induction false} NmCheckIsBarCount(comando: string)
    ensures NmFormatOk(comando) <==> !StartsWith(comando, NmPrefix) || Count(comando, '|') == 2
  {
  }

  /** A command built from three fields with no `|` in any of them has
      exactly two bars, so it passes the check. */
  lemma {:induction false} ThreeFieldsPass(head: string, a: string, b: string)
    requires '|' !in head && '|' !in a && '|' !in b
    ensures Count(head + "|" + a + "|" + b, '|') == 2
    ensures NmFormatOk(head + "|" + a + "|" + b)
  {
    CountZero(head, '|');
    CountZero(a, '|');
    CountZero(b, '|');
    assert Count("|", '|') == 1;
    CountAppend(head, "|", '|');
    CountAppend(head + "|", a, '|');
    CountAppend(head + "|" + a, "|", '|');
    CountAppend(head + "|" + a + "|", b, '|');
    NmCheckIsBarCount(head + "|" + a + "|" + b);
  }

  /** Scenario: a bare `/nm` is rejected. */
  lemma BareNmRejected()
    ensures !NmFormatOk("/nm")
  {
    assert StartsWith("/nm", NmPrefix);
    CountZero("/nm", '|');
    NmCheckIsBarCount("/nm");
  }

  /** Scenario: `/nm ||`, three empty fields, passes, since only the pieces
      are counted. */
  lemma EmptyFieldsPass()
    ensures NmFormatOk("/nm ||")
  {
    assert "/nm ||" == "/nm " + "|" + "" + "|" + "";
    ThreeFieldsPass("/nm ", "", "");
  }

  /** Scenario: `/nmx a|b` falls under the check too, and is rejected. */
  lemma NmxChecked()
    ensures !NmFormatOk("/nmx a|b")
  {
    var c := "/nmx a|b";
    assert StartsWith(c, NmPrefix);
    assert c == "/nmx a" + "|" + "b";
    CountZero("/nmx a", '|');
    CountZero("b", '|');
    CountAppend("/nmx a", "|", '|');
    CountAppend("/nmx a|", "b", '|');
    assert Count("|", '|') == 1;
    NmCheckIsBarCount(c);
  }
}

=== FILE: decimal.dfy ===
/** Decimal rendering of natural numbers, as Python's f-string `{n}` prints an
    `int`, with the parser that inverts it. */
module Decimal {

  predicate IsDigit(c: char) {
    '0' <= c <= '9'
  }

  predicate AllDigits(s: string) {
    forall i :: 0 <= i < |s| ==> IsDigit(s[i])
  }

  function DigitChar(d: nat): (c: char)
    requires d < 10
    ensures IsDigit(c) && c as int - '0' as int == d
  {
    ('0' as int + d) as char
  }

  /** The value of a string of decimal digits. */
  function ParseDigits(s: string): nat
    requires AllDigits(s)
  {
    if |s| == 0 then 0
    else ParseDigits(s[..|s| - 1]) * 10 + (s[|s| - 1] as int - '0' as int)
  }

  /** `str(n)` for a non-negative `n`: at least one digit, and it parses
      back to `n`. */
  function NatToString(n: nat): (r: string)
    ensures |r| >= 1 && AllDigits(r)
    ensures ParseDigits(r) == n
    decreases n
  {
    if n < 10 then [DigitChar(n)]
    else
      var r := NatToString(n / 10) + [DigitChar(n % 10)];
      assert r[..|r| - 1] == NatToString(n / 10);
      r
  }

  /** Length of the longest all-digit prefix of `s`. */
  function DigitRun(s: string): (k: nat)
    ensures k <= |s| && AllDigits(s[..k])
    ensures k == |s| || !IsDigit(s[k])
    decreases |s|
  {
    if |s| > 0 && IsDigit(s[0]) then
      var k := 1 + DigitRun(s[1..]);
      assert s[..k] == [s[0]] + s[1..][..k - 1];
      k
    else 0
  }

  /** A digit string followed by text that does not start with a digit: the
      digit run stops exactly where the digits end. */
  lemma {:induction false} DigitRunOfConcat(d: string, rest: string)
    requires AllDigits(d)
    requires rest == [] || !IsDigit(rest[0])
    ensures DigitRun(d + rest) == |d|
    decreases |d|
  {
    if |d| > 0 {
      assert (d + rest)[1..] == d[1..] + rest;
      DigitRunOfConcat(d[1..], rest);
    } else {
      assert d + rest == rest;
    }
  }
}

=== FILE: dispatch.dfy ===
/** `enviar_comando` (Backend/bot_handler.py) from the format check to the
    published response document, with its exception mapping. Everything the
    outside world decides during one run of the `try` block is an `Attempt`;
    a FloodWait restarts the whole call, which consumes the next attempt. The
    temp-file sweep that opens every call is modelled in module Janitor. */
module Dispatch {
  import opened Wrappers
  import opened Strings
  import opened Messages
  import opened Polling
  import opened Ordering
  import opened Aggregation
  import opened CommandFormat

  const BotNotConfigured: string := "BOT_USERNAME no configurado en config.env."
  const NoReply: string := "\U{26A0}\U{FE0F} El bot no respondi\U{F3} dentro del tiempo esperado."
  const RpcPrefix: string := "Error RPC: "

  /** An exception escaping into the handlers at the end of `enviar_comando`.
      A FloodWait is an RPC error in Telethon, but its handler comes first. */
  datatype Failure =
    | FloodWait(seconds: nat)
    | RpcError(desc: string)
    | OtherError(desc: string)

  /** What the world does during one run of the `try` block: whether
      connecting raises (after any session regeneration), the watermark
      fetch (None when it raised), whether sending raises, the poll rounds,
      which attachments were saved and under which Unix time, and whether
      writing `respuestas.json` raises (with the exception's text). */
  datatype Attempt = Attempt(
    connect: Option<Failure>,
    latest: Option<seq<Message>>,
    send: Option<Failure>,
    fetch: nat -> Fetch,
    saved: nat -> bool,
    stamp: nat -> nat,
    publish: Option<string>)

  /** The returned document, and the one left in `respuestas.json` by this
      call (None when the call wrote nothing). */
  datatype Outcome = Outcome(reply: Reply, published: Option<Reply>)

  /** How one run of the `try` block ends. */
  datatype Ending = Finished(outcome: Outcome) | Retry

  function ErrorOutcome(texto: string): Outcome {
    Outcome(ErrorReply(texto), None)
  }

  /** The three `except` clauses. */
  function OnFailure(f: Failure): (e: Ending)
    ensures e.Retry? <==> f.FloodWait?
    ensures f.RpcError? ==> e == Finished(ErrorOutcome(RpcPrefix + f.desc))
    ensures f.OtherError? ==> e == Finished(ErrorOutcome(f.desc))
  {
    match f
    case FloodWait(_) => Retry
    case RpcError(d) => Finished(ErrorOutcome(RpcPrefix + d))
    case OtherError(d) => Finished(ErrorOutcome(d))
  }

  /** One run of the `try` block after the format check passed. */
  function RunAttempt(comando: string, botConfigured: bool, a: Attempt): Ending {
    if a.connect.Some? then OnFailure(a.connect.value)
    else if !botConfigured then Finished(ErrorOutcome(BotNotConfigured))
    else if a.send.Some? then OnFailure(a.send.value)
    else
      var captured := Poll(Watermark(a.latest), a.fetch);
      if |captured| == 0 then Finished(ErrorOutcome(NoReply))
      else
        var data := Aggregate(comando, SortById(captured), a.saved, a.stamp);
        if a.publish.Some? then Finished(ErrorOutcome(a.publish.value))
        else Finished(Outcome(data, Some(data)))
  }

  /** `enviar_comando(comando)`; None when every attempt ended in a
      FloodWait (the source would keep retrying). */
  function Dispatch(comando: string, botConfigured: bool, attempts: seq<Attempt>): (r: Option<Outcome>)
    ensures !NmFormatOk(comando) ==> r == Some(ErrorOutcome(FormatError))
    decreases |attempts|
  {
    if !NmFormatOk(comando) then Some(ErrorOutcome(FormatError))
    else if |attempts| == 0 then None
    else match RunAttempt(comando, botConfigured, attempts[0])
      case Finished(o) => Some(o)
      case Retry => Dispatch(comando, botConfigured, attempts[1..])
  }

  /** A document is published exactly when the call succeeds, and it is the
      returned document, which is consistent. */
  lemma {:induction false} PublishedIffOk(comando: string, botConfigured: bool, attempts: seq<Attempt>)
    ensures var r := Dispatch(comando, botConfigured, attempts);
            r.Some? ==>
              && (r.value.reply.OkReply? <==> r.value.published.Some?)
              && (r.value.published.Some? ==> r.value.published.value == r.value.reply)
              && Consistent(r.value.reply)
    decreases |attempts|
  {
    if NmFormatOk(comando) && |attempts| > 0 && RunAttempt(comando, botConfigured, attempts[0]).Retry? {
      PublishedIffOk(comando, botConfigured, attempts[1..]);
    }
  }

  /** A malformed `/nm` command is rejected before any I/O: the answer does
      not depend on the bot configuration or on anything the world does. */
  lemma ValidationBeforeIO(comando: string, b1: bool, b2: bool, a1: seq<Attempt>, a2: seq<Attempt>)
    requires StartsWith(comando, NmPrefix) && Count(comando, '|') != 2
    ensures Dispatch(comando, b1, a1) == Dispatch(comando, b2, a2) == Some(ErrorOutcome(FormatError))
  {
    NmCheckIsBarCount(comando);
  }

  /** A FloodWait on connecting or on sending restarts the call from
      scratch with the next attempt, whatever it waited for. */
  lemma FloodWaitRetries(comando: string, botConfigured: bool, attempts: seq<Attempt>, n: nat)
    requires NmFormatOk(comando) && |attempts| > 0
    requires attempts[0].connect == Some(FloodWait(n))
          || (attempts[0].connect.None? && botConfigured && attempts[0].send == Some(FloodWait(n)))
    ensures Dispatch(comando, botConfigured, attempts) == Dispatch(comando, botConfigured, attempts[1..])
  {
  }

  /** Any other failure ends the call with its error text and publishes
      nothing; an RPC error's text is prefixed. */
  lemma FailureMessages(comando: string, botConfigured: bool, attempts: seq<Attempt>, d: string)
    requires NmFormatOk(comando) && |attempts| > 0
    ensures attempts[0].connect == Some(RpcError(d)) ==>
              Dispatch(comando, botConfigured, attempts) == Some(ErrorOutcome(RpcPrefix + d))
    ensures attempts[0].connect == Some(OtherError(d)) ==>
              Dispatch(comando, botConfigured, attempts) == Some(ErrorOutcome(d))
    ensures attempts[0].connect.None? && !botConfigured ==>
              Dispatch(comando, botConfigured, attempts) == Some(ErrorOutcome(BotNotConfigured))
    ensures attempts[0].connect.None? && botConfigured && attempts[0].send == Some(RpcError(d)) ==>
              Dispatch(comando, botConfigured, attempts) == Some(ErrorOutcome(RpcPrefix + d))
    ensures attempts[0].connect.None? && botConfigured && attempts[0].send == Some(OtherError(d)) ==>
              Dispatch(comando, botConfigured, attempts) == Some(ErrorOutcome(d))
  {
  }

  /** Once the command is sent and the bot answered, the call returns the
      aggregate of the captured messages in id order, and publishes it;
      when writing `respuestas.json` raises, it returns that error's text
      and publishes nothing. */
  lemma CapturedReply(comando: string, a: Attempt, rest: seq<Attempt>)
    requires NmFormatOk(comando)
    requires a.connect.None? && a.send.None?
    requires |Poll(Watermark(a.latest), a.fetch)| > 0
    ensures var data := Aggregate(comando, SortById(Poll(Watermark(a.latest), a.fetch)), a.saved, a.stamp);
            a.publish.None? ==> Dispatch(comando, true, [a] + rest) == Some(Outcome(data, Some(data)))
    ensures a.publish.Some? ==> Dispatch(comando, true, [a] + rest) == Some(ErrorOutcome(a.publish.value))
  {
    assert ([a] + rest)[0] == a;
  }

  /** When no fetched message is newer than the watermark the call times
      out with the no-reply error, and publishes nothing. */
  lemma SilentBotTimesOut(comando: string, a: Attempt, rest: seq<Attempt>)
    requires NmFormatOk(comando)
    requires a.connect.None? && a.send.None?
    requires forall k :: NewIds(Received(a.fetch(k)), Watermark(a.latest)) == {}
    ensures Dispatch(comando, true, [a] + rest) == Some(ErrorOutcome(NoReply))
  {
    var lastId := Watermark(a.latest);
    NoNewIdsUpTo(lastId, a.fetch, Rounds(lastId, a.fetch));
    PollCaptures(lastId, a.fetch);
    IdsEmpty(Poll(lastId, a.fetch));
    assert ([a] + rest)[0] == a;
  }

  lemma {:induction false} NoNewIdsUpTo(lastId: int, fetch: nat -> Fetch, n: nat)
    requires forall k :: NewIds(Received(fetch(k)), lastId) == {}
    ensures NewIdsUpTo(lastId, fetch, n) == {}
  {
    if n > 0 {
      NoNewIdsUpTo(lastId, fetch, n - 1);
    }
  }

  /** Polling the same window over and over captures its new messages once:
      after the first round every later round adds nothing. */
  lemma {:induction false} RepeatedWindow(lastId: int, fetch: nat -> Fetch, batch: seq<Message>, n: nat)
    requires forall k :: Received(fetch(k)) == batch
    requires n >= 1
    ensures Collect(lastId, fetch, n) == Step(lastId, Empty, batch)
  {
    if n > 1 {
      RepeatedWindow(lastId, fetch, batch, n - 1);
      assert Inv(lastId, Empty);
      StepInv(lastId, Empty, batch);
      StepNothingNew(lastId, Step(lastId, Empty, batch), batch);
    }
  }

  /** The loop over a window that never changes captures the window's new
      messages once. */
  lemma PollRepeatedWindow(lastId: int, fetch: nat -> Fetch, batch: seq<Message>)
    requires forall k :: Received(fetch(k)) == batch
    ensures Poll(lastId, fetch) == Step(lastId, Empty, batch).captured
  {
    RepeatedWindow(lastId, fetch, batch, Rounds(lastId, fetch));
  }

  /** A batch whose new ids were all seen already changes nothing. */
  lemma {:induction false} StepNothingNew(lastId: int, st: PollState, batch: seq<Message>)
    requires NewIds(batch, lastId) <= st.seen
    ensures Step(lastId, st, batch) == st
    decreases |batch|
  {
    if |batch| > 0 {
      NewIdsCons(batch, lastId);
      var m := batch[0];
      assert !Eligible(m, lastId, st.seen) by {
        if m.id != 0 && m.id > lastId {
          assert m.id in NewIds([m], lastId);
        }
      }
      StepNothingNew(lastId, st, batch[1..]);
    }
  }

  /** The response built from a single text message is that text, as a
      text response. */
  lemma AggregateOneText(comando: string, m: Message, saved: nat -> bool, stamp: nat -> nat)
    requires m.media.None? && m.text != [] && IsStripped(Python, m.text)
    ensures Aggregate(comando, [m], saved, stamp) == OkReply(m.text, [], None, Texto)
  {
    StrippedFixpoint(Python, m.text);
    assert Fragments([m]) == [m.text];
    assert Join([m.text], "\n\n") == m.text;
    assert SavedIndices([m], saved, 0) == [];
  }

  /** Scenario: the bot answers a `/nm` query with one text message, which
      every poll window keeps returning beside the older history. The call
      returns that text as a text response and publishes it. */
  lemma ScenarioTextReply(saved: nat -> bool, stamp: nat -> nat)
    ensures var window := [Message(101, "Resultado", None), Message(100, "anterior", None)];
            var a := Attempt(None, Some([Message(100, "anterior", None)]), None,
                             (k: nat) => Fetch(0, Some(window)), saved, stamp, None);
            var ok := OkReply("Resultado", [], None, Texto);
            Dispatch("/nm A|B|C", true, [a]) == Some(Outcome(ok, Some(ok)))
  {
    var window := [Message(101, "Resultado", None), Message(100, "anterior", None)];
    var a := Attempt(None, Some([Message(100, "anterior", None)]), None,
                     (k: nat) => Fetch(0, Some(window)), saved, stamp, None);
    ScenarioWindowStep();
    PollRepeatedWindow(100, a.fetch, window);
    ScenarioCommandOk();
    ScenarioRun("/nm A|B|C", a);
  }

  lemma ScenarioRun(comando: string, a: Attempt)
    requires NmFormatOk(comando)
    requires a.connect.None? && a.send.None? && a.publish.None?
    requires Poll(Watermark(a.latest), a.fetch) == [Message(101, "Resultado", None)]
    ensures var ok := OkReply("Resultado", [], None, Texto);
            Dispatch(comando, true, [a]) == Some(Outcome(ok, Some(ok)))
  {
    var m := Message(101, "Resultado", None);
    assert SortById([m]) == [m];
    assert m.text[0] == 'R' && m.text[|m.text| - 1] == 'o';
    assert IsStripped(Python, m.text);
    AggregateOneText(comando, m, a.saved, a.stamp);
  }

  lemma ScenarioWindowStep()
    ensures Step(100, Empty, [Message(101, "Resultado", None), Message(100, "anterior", None)]).captured
         == [Message(101, "Resultado", None)]
  {
    var m := Message(101, "Resultado", None);
    var st := Accept(100, Empty, m);
    assert st.captured == [m];
    assert Accept(100, st, Message(100, "anterior", None)) == st;
  }

  lemma ScenarioCommandOk()
    ensures NmFormatOk("/nm A|B|C")
  {
    assert "/nm A|B|C" == "/nm A" + "|" + "B" + "|" + "C";
    ThreeFieldsPass("/nm A", "B", "C");
  }

  /** Scenario: the bot sends a text and then a document, and the poll
      windows return them newest first. The text still leads, the document
      is saved under index 1, and the response kind is `archivo`. */
  lemma ScenarioFileReply(saved: nat -> bool, stamp: nat -> nat)
    requires saved(1)
    ensures var window := [Message(102, "", Some(Media(".pdf"))), Message(101, "Datos", None),
                           Message(100, "anterior", None)];
            var a := Attempt(None, Some([Message(100, "anterior", None)]), None,
                             (k: nat) => Fetch(0, Some(window)), saved, stamp, None);
            var f := FileName(stamp(1), 1, ".pdf");
            var ok := OkReply("Datos", [f], Some(f), Archivo);
            Dispatch("/nm A|B|C", true, [a]) == Some(Outcome(ok, Some(ok)))
  {
    var window := [Message(102, "", Some(Media(".pdf"))), Message(101, "Datos", None),
                   Message(100, "anterior", None)];
    var a := Attempt(None, Some([Message(100, "anterior", None)]), None,
                     (k: nat) => Fetch(0, Some(window)), saved, stamp, None);
    ScenarioWindowPoll(a.fetch);
    ScenarioCommandOk();
    ScenarioFileRun("/nm A|B|C", a);
  }

  lemma ScenarioWindowPoll(fetch: nat -> Fetch)
    requires forall k :: Received(fetch(k)) == [Message(102, "", Some(Media(".pdf"))), Message(101, "Datos", None),
                                                Message(100, "anterior", None)]
    ensures Poll(100, fetch) == [Message(102, "", Some(Media(".pdf"))), Message(101, "Datos", None)]
  {
    ScenarioNewestFirstStep();
    PollRepeatedWindow(100, fetch, [Message(102, "", Some(Media(".pdf"))), Message(101, "Datos", None),
                                    Message(100, "anterior", None)]);
  }

  lemma ScenarioNewestFirstStep()
    ensures Step(100, Empty, [Message(102, "", Some(Media(".pdf"))), Message(101, "Datos", None),
                              Message(100, "anterior", None)]).captured
         == [Message(102, "", Some(Media(".pdf"))), Message(101, "Datos", None)]
  {
    var m2 := Message(102, "", Some(Media(".pdf")));
    var m1 := Message(101, "Datos", None);
    var m0 := Message(100, "anterior", None);
    var w := [m2, m1, m0];
    var st1 := Accept(100, Empty, m2);
    assert st1 == PollState([m2], {102});
    var st2 := Accept(100, st1, m1);
    assert st2 == PollState([m2, m1], {102, 101});
    assert Accept(100, st2, m0) == st2;
    StepCons(100, Empty, w);
    assert w[1..] == [m1, m0];
    StepCons(100, st1, [m1, m0]);
    assert [m1, m0][1..] == [m0];
    StepCons(100, st2, [m0]);
    assert [m0][1..] == [];
  }

  lemma ScenarioFileRun(comando: string, a: Attempt)
    requires NmFormatOk(comando)
    requires a.connect.None? && a.send.None? && a.publish.None? && a.saved(1)
    requires Poll(Watermark(a.latest), a.fetch)
          == [Message(102, "", Some(Media(".pdf"))), Message(101, "Datos", None)]
    ensures var f := FileName(a.stamp(1), 1, ".pdf");
            var ok := OkReply("Datos", [f], Some(f), Archivo);
            Dispatch(comando, true, [a]) == Some(Outcome(ok, Some(ok)))
  {
    ScenarioSortTwo();
    ScenarioAggregateTwo(comando, a.saved, a.stamp);
  }

  lemma ScenarioSortTwo()
    ensures SortById([Message(102, "", Some(Media(".pdf"))), Message(101, "Datos", None)])
         == [Message(101, "Datos", None), Message(102, "", Some(Media(".pdf")))]
  {
    var m2 := Message(102, "", Some(Media(".pdf")));
    assert [m2, Message(101, "Datos", None)][..1] == [m2];
    assert SortById([m2]) == [m2];
  }

  lemma ScenarioAggregateTwo(comando: string, saved: nat -> bool, stamp: nat -> nat)
    requires saved(1)
    ensures var f := FileName(stamp(1), 1, ".pdf");
            Aggregate(comando, [Message(101, "Datos", None), Message(102, "", Some(Media(".pdf")))], saved, stamp)
              == OkReply("Datos", [f], Some(f), Archivo)
  {
    ScenarioTextTwo(comando);
    ScenarioFilesTwo(saved, stamp);
  }

  lemma ScenarioTextTwo(comando: string)
    ensures FinalText(comando, [Message(101, "Datos", None), Message(102, "", Some(Media(".pdf")))]) == "Datos"
  {
    ScenarioFragmentsTwo();
    FinalTextOne(comando, [Message(101, "Datos", None), Message(102, "", Some(Media(".pdf")))], "Datos");
  }

  /** A single fragment is the whole text. */
  lemma FinalTextOne(comando: string, ms: seq<Message>, s: string)
    requires Fragments(ms) == [s]
    ensures FinalText(comando, ms) == s
  {
    assert IsStripped(Python, Fragments(ms)[0]);
    StrippedFixpoint(Python, s);
  }

  lemma ScenarioFilesTwo(saved: nat -> bool, stamp: nat -> nat)
    requires saved(1)
    ensures SavedFiles([Message(101, "Datos", None), Message(102, "", Some(Media(".pdf")))], saved, stamp)
         == [FileName(stamp(1), 1, ".pdf")]
  {
    var ms := [Message(101, "Datos", None), Message(102, "", Some(Media(".pdf")))];
    ScenarioSavedTwo(saved);
    assert Extension(Media(".pdf")) == ".pdf";
    assert NameAt(ms, stamp, 1) == FileName(stamp(1), 1, ".pdf");
  }

  lemma ScenarioSavedTwo(saved: nat -> bool)
    requires saved(1)
    ensures SavedIndices([Message(101, "Datos", None), Message(102, "", Some(Media(".pdf")))], saved, 0) == [1]
  {
    var ms := [Message(101, "Datos", None), Message(102, "", Some(Media(".pdf")))];
    assert SavedIndices(ms, saved, 2) == [];
    assert SavedIndices(ms, saved, 1) == [1];
  }

  lemma ScenarioFragmentsTwo()
    ensures Fragments([Message(101, "Datos", None), Message(102, "", Some(Media(".pdf")))]) == ["Datos"]
  {
    var m2 := Message(102, "", Some(Media(".pdf")));
    var m1 := Message(101, "Datos", None);
    assert m1.text[0] == 'D' && m1.text[|m1.text| - 1] == 's';
    assert IsStripped(Python, m1.text);
    StrippedFixpoint(Python, m1.text);
    assert [m1, m2][1..] == [m2];
    assert Fragments([m2]) == [];
  }
}

=== FILE: flow.dfy ===
/** The browser and the server together: what `ejecutarConsulta` makes of
    the `/consulta` answer, and what its poller makes of the static
    `/temp_files/respuestas.json` that Backend/main.py serves. */
module Flow {
  import opened Wrappers
  import opened Strings
  import opened Decimal
  import opened Catalog
  import opened Aggregation
  import opened FrontendQuery
  import opened Api

  /** What `fetch` reports for a `/consulta` answer: its status. */
  function SentOf(r: Response): (s: Sent)
    ensures s.Responded? && s.status == Status(r)
  {
    Responded(Status(r))
  }

  /** How `fetch` and `res.json()` see an answer: a status outside
      200..299 is not ok; a 2xx answer is a document only when its body
      parses, and `parsed` says whether it did (an empty 204 body does
      not). */
  function PollOf(r: Response, parsed: bool): (p: Poll)
    ensures p.Doc? ==> r.Json? && 200 <= r.status <= 299 && p.data == r.body
    ensures !(200 <= Status(r) <= 299) <==> p.NotOk?
  {
    if !(200 <= Status(r) <= 299) then NotOk
    else if r.Json? && parsed then Doc(r.body)
    else Failed
  }

  /** One read of the poller: `fetch` of the static
      `/temp_files/respuestas.json`, then `res.json()` on its body, which
      is the file itself. `reached` says whether the request reached the
      server; a network error is swallowed like a parse error. */
  function StaticRead(temp: string, f: Stored, reached: bool): (p: Poll)
    ensures !reached ==> p == Failed
    ensures reached ==> (p.NotOk? <==> f.Absent?)
    ensures reached ==> (p.Failed? <==> f.Unreadable?)
    ensures reached && f.Present? ==> p == Doc(f.data)
  {
    if !reached then Failed
    else
      var r := StaticRespuesta(temp, f);
      if !(200 <= Status(r) <= 299) then NotOk
      else if f.Present? then Doc(f.data)
      else Failed
  }

  /** The poller's reads of `respuestas.json`, one state of the file per
      attempt. */
  function Reads(temp: string, stored: nat -> Stored, reached: nat -> bool): nat -> Poll {
    (j: nat) => StaticRead(temp, stored(j), reached(j))
  }

  /** The static file and `/respuesta` answer a missing or unparsable file
      differently: the page's read of the file is not ok where the endpoint
      would send the empty answer, and fails to parse where the endpoint
      would send a 500. */
  lemma StaticReadIsNotRespuesta(temp: string, e: string)
    ensures StaticRead(temp, Absent, true) == NotOk
    ensures PollOf(GetRespuesta(Absent), true) == Doc(EmptyAnswer())
    ensures StaticRead(temp, Unreadable(e), true) == Failed
    ensures PollOf(GetRespuesta(Unreadable(e)), true) == NotOk
  {
  }

  lemma Status500()
    ensures NatToString(500) == "500"
  {
    assert NatToString(500) == NatToString(50) + [DigitChar(0)];
    assert NatToString(50) == NatToString(5) + [DigitChar(0)];
  }

  /** A failed command reaches the browser as `HTTP 500`: the handler's
      text is not shown. */
  lemma HandlerErrorShowsStatus(nombre: string, titulo: Option<Value>, f: Form, r: Reply, polls: nat -> Poll)
    requires BuildCommand(nombre, f).Success? && r.ErrorReply?
    ensures EjecutarConsulta(nombre, titulo, f, SentOf(Consulta(r)), polls).screen
              == QueryError(QueryErrorPrefix + "HTTP 500")
  {
    var a := SentOf(Consulta(r));
    assert a == Responded(500);
    HttpStatusText(QueryErrorPrefix);
  }

  lemma HttpStatusText(p: string)
    ensures p + "HTTP " + NatToString(500) == p + "HTTP 500"
  {
    Status500();
    assert "HTTP " + "500" == "HTTP 500";
  }

  /** A successful command starts the polling. */
  lemma HandlerOkPolls(nombre: string, titulo: Option<Value>, f: Form, r: Reply, polls: nat -> Poll)
    requires BuildCommand(nombre, f).Success? && r.OkReply?
    ensures EjecutarConsulta(nombre, titulo, f, SentOf(Consulta(r)), polls).screen
              == Polled(Esperar(TitleArg(titulo, nombre), polls))
  {
  }

  /** Neither a missing nor an unreadable `respuestas.json` is ever shown. */
  lemma NothingPublishedNotShown(temp: string, f: Stored, reached: bool, t: Value)
    requires !f.Present?
    ensures !Accepted(StaticRead(temp, f, reached), t)
  {
  }

  /** Under a title `escapeHtml` can take, a published document is shown
      exactly when its text is non-empty or it lists a saved file. */
  lemma PublishedShownIff(temp: string, r: Reply, t: Value)
    ensures var p := StaticRead(temp, Present(Document(r)), true);
            Accepted(p, t) <==> TitleRenders(t) && (r.texto != [] || (r.OkReply? && |r.archivos| > 0))
  {
    DocumentRenders(r);
  }

  /** If `respuestas.json` is missing or unreadable until attempt `k`, and
      then holds a document with a text or a file, the poller shows that
      document at attempt `k`, provided that read reaches the server, `k`
      is among the 90 attempts and the title is one `escapeHtml` can take. */
  lemma ShownWhenPublished(temp: string, t: Value, stored: nat -> Stored, reached: nat -> bool, r: Reply, k: nat)
    requires TitleRenders(t) && k < Intentos
    requires forall j :: 0 <= j < k ==> !stored(j).Present?
    requires stored(k) == Present(Document(r)) && reached(k)
    requires r.texto != [] || (r.OkReply? && |r.archivos| > 0)
    ensures Esperar(t, Reads(temp, stored, reached)) == Rendered(k, Document(r))
  {
    var polls := Reads(temp, stored, reached);
    forall j | 0 <= j < k ensures !Accepted(polls(j), t) {
      NothingPublishedNotShown(temp, stored(j), reached(j), t);
    }
    PublishedShownIff(temp, r, t);
    assert Accepted(polls(k), t);
    EsperarSpec(t, polls);
  }
}

=== FILE: frontend_lines.dfy ===
/** The line-oriented cleaners of Frontend/static/app.js: `limpiarBloques`,
    which drops decorative and advertising lines from the bot's text, and
    `parsearPares`, which splits the text into `**LABEL:** value` rows and
    the remaining lines. Both split with `/\r?\n/`. The regular expressions
    are modelled by what they accept. */
module FrontendLines {
  import opened Wrappers
  import opened Strings

  /** Drops one trailing carriage return. */
  function DropCR(s: string): (r: string)
    ensures r <= s
  {
    if |s| > 0 && s[|s| - 1] == '\r' then s[..|s| - 1] else s
  }

  /** `text.split(/\r?\n/)`: split at every line feed, a carriage return
      right before it belonging to the separator. */
  function SplitLines(t: string): (r: seq<string>)
    ensures |r| == Count(t, '\n') + 1
    ensures forall i :: 0 <= i < |r| ==> '\n' !in r[i]
  {
    var p := Split(t, '\n');
    seq(|p|, i requires 0 <= i < |p| => if i < |p| - 1 then DropCR(p[i]) else p[i])
  }

  /** A line feed absent from a string is absent from every slice of it. */
  lemma NoNewlineSlice(s: string, a: nat, b: nat)
    requires a <= b <= |s| && '\n' !in s
    ensures '\n' !in s[a..b]
  {
  }

  // ---------------------------------------------------------------------
  // `limpiarBloques`

  const Bullet: char := '\U{2022}'

  predicate IsRuleChar(c: char) {
    c == '-' || c == '*' || c == '_'
  }

  /** `]` occurs at or after `p` with no line terminator before it. */
  predicate CloseBracketFrom(l: string, p: nat)
    decreases |l| - p
  {
    p < |l| && (l[p] == ']' || (!IsLineTerminator(l[p]) && CloseBracketFrom(l, p + 1)))
  }

  /** `FenixBot` (any ASCII case) occurs at or after `p`, followed by a
      `]`, with no line terminator in between. */
  predicate FenixFrom(l: string, p: nat)
    decreases |l| - p
  {
    p < |l| &&
    ((StartsWith(AsciiLowerString(l[p..]), "fenixbot") && CloseBracketFrom(l, p + 8))
     || (!IsLineTerminator(l[p]) && FenixFrom(l, p + 1)))
  }

  /** `/\[.*FenixBot.*\]/i` matches at or after `p`. */
  predicate BracketFenixFrom(l: string, p: nat)
    decreases |l| - p
  {
    p < |l| && ((l[p] == '[' && FenixFrom(l, p + 1)) || BracketFenixFrom(l, p + 1))
  }

  /** `/^•+|^[-*_]{3,}|^\[.*#FenixBot.*\]|\[.*FenixBot.*\]/i`; the third
      alternative is covered by the fourth. */
  predicate Decorative(l: string) {
    || (|l| > 0 && l[0] == Bullet)
    || (|l| >= 3 && IsRuleChar(l[0]) && IsRuleChar(l[1]) && IsRuleChar(l[2]))
    || BracketFenixFrom(l, 0)
  }

  /** A trimmed line `limpiarBloques` drops. */
  predicate Dropped(l: string) {
    || l == []
    || Decorative(l)
    || ContainsNoCase(l, "fenixcoins")
    || ContainsNoCase(l, "web oficial")
    || ContainsNoCase(l, "canal oficial")
  }

  function TrimAll(lines: seq<string>): (r: seq<string>)
    ensures |r| == |lines|
    ensures forall i :: 0 <= i < |lines| ==> r[i] == Strip(JavaScript, lines[i])
  {
    if |lines| == 0 then [] else [Strip(JavaScript, lines[0])] + TrimAll(lines[1..])
  }

  /** The lines that are not dropped, in order. */
  function Keep(lines: seq<string>): (r: seq<string>)
    ensures |r| <= |lines|
    ensures forall x :: x in r <==> x in lines && !Dropped(x)
  {
    if |lines| == 0 then []
    else
      var rest := Keep(lines[1..]);
      assert forall x :: x in lines <==> x == lines[0] || x in lines[1..];
      if Dropped(lines[0]) then rest else [lines[0]] + rest
  }

  /** Trimming keeps lines free of line feeds, and leaves them stripped. */
  lemma TrimAllLines(lines: seq<string>)
    requires forall i :: 0 <= i < |lines| ==> '\n' !in lines[i]
    ensures forall i :: 0 <= i < |lines| ==> '\n' !in TrimAll(lines)[i] && IsStripped(JavaScript, TrimAll(lines)[i])
  {
    forall i | 0 <= i < |lines|
      ensures '\n' !in TrimAll(lines)[i] && IsStripped(JavaScript, TrimAll(lines)[i])
    {
      var x := Strip(JavaScript, lines[i]);
      var a := LeadingSpace(JavaScript, lines[i]);
      NoNewlineSlice(lines[i], a, a + |x|);
    }
  }

  /** The lines kept from `texto`: trimmed, and not dropped. */
  function KeptLines(t: string): (r: seq<string>)
    ensures forall i :: 0 <= i < |r| ==> !Dropped(r[i]) && '\n' !in r[i]
  {
    var trimmed := TrimAll(SplitLines(t));
    TrimAllLines(SplitLines(t));
    var r := Keep(trimmed);
    forall i | 0 <= i < |r| ensures !Dropped(r[i]) && '\n' !in r[i] {
      assert r[i] in trimmed;
      var j :| 0 <= j < |trimmed| && trimmed[j] == r[i];
    }
    r
  }

  /** Every kept line is trimmed and non-empty. */
  lemma KeptLinesShape(t: string)
    ensures forall i :: 0 <= i < |KeptLines(t)| ==> KeptLines(t)[i] != [] && IsStripped(JavaScript, KeptLines(t)[i])
  {
    var trimmed := TrimAll(SplitLines(t));
    TrimAllLines(SplitLines(t));
    var r := KeptLines(t);
    forall i | 0 <= i < |r| ensures r[i] != [] && IsStripped(JavaScript, r[i]) {
      assert r[i] in trimmed;
      assert !Dropped(r[i]);
    }
  }

  /** `limpiarBloques(texto)`. */
  function LimpiarBloques(t: string): (r: string)
    ensures r == [] <==> KeptLines(t) == []
  {
    KeptLinesShape(t);
    assert t == [] ==> KeptLines(t) == [] by {
      if t == [] {
        EmptyKeepsNothing();
      }
    }
    if t == [] then [] else Join(KeptLines(t), "\n")
  }

  /** Empty text keeps no line: its one line is empty. */
  lemma EmptyKeepsNothing()
    ensures KeptLines([]) == []
  {
    var lines := SplitLines([]);
    assert |lines| == 1 && lines[0] == [];
    assert Dropped(Strip(JavaScript, []));
    assert TrimAll(lines) == [[]];
  }

  /** The output's lines are exactly the kept lines: trimmed, non-empty,
      not decorative, in their original order; and an empty result holds
      no line at all. */
  lemma LimpiarBloquesLines(t: string)
    ensures KeptLines(t) == [] ==> LimpiarBloques(t) == []
    ensures KeptLines(t) != [] ==> Split(LimpiarBloques(t), '\n') == KeptLines(t)
    ensures forall l :: l in Split(LimpiarBloques(t), '\n') && LimpiarBloques(t) != [] ==>
              l != [] && IsStripped(JavaScript, l) && !Dropped(l)
  {
    var k := KeptLines(t);
    KeptLinesShape(t);
    if t != [] && k != [] {
      SplitJoin(k, '\n');
    }
  }

  /** Lines none of which is dropped are all kept. */
  lemma {:induction false} KeepAll(lines: seq<string>)
    requires forall i :: 0 <= i < |lines| ==> !Dropped(lines[i])
    ensures Keep(lines) == lines
  {
    if |lines| > 0 {
      KeepAll(lines[1..]);
      assert [lines[0]] + lines[1..] == lines;
    }
  }

  /** Trimmed lines stay as they are. */
  lemma {:induction false} TrimAllStripped(lines: seq<string>)
    requires forall i :: 0 <= i < |lines| ==> IsStripped(JavaScript, lines[i])
    ensures TrimAll(lines) == lines
  {
    forall i | 0 <= i < |lines| ensures Strip(JavaScript, lines[i]) == lines[i] {
      StrippedFixpoint(JavaScript, lines[i]);
    }
  }

  /** Cleaning twice is cleaning once. */
  lemma {:induction false} LimpiarBloquesIdempotent(t: string)
    ensures LimpiarBloques(LimpiarBloques(t)) == LimpiarBloques(t)
  {
    var k := KeptLines(t);
    KeptLinesShape(t);
    if t != [] && k != [] {
      SplitLinesJoin(k);
      TrimAllStripped(k);
      KeepAll(k);
      assert KeptLines(LimpiarBloques(t)) == k;
    }
  }

  /** Trimmed, non-empty lines without line feeds come back from
      `SplitLines` after being joined. */
  lemma SplitLinesJoin(k: seq<string>)
    requires k != []
    requires forall i :: 0 <= i < |k| ==> k[i] != [] && IsStripped(JavaScript, k[i]) && '\n' !in k[i]
    ensures SplitLines(Join(k, "\n")) == k
  {
    SplitJoin(k, '\n');
    forall i | 0 <= i < |k| ensures DropCR(k[i]) == k[i] {
      assert !IsJsSpace(k[i][|k[i]| - 1]);
    }
  }

  // ---------------------------------------------------------------------
  // `parsearPares`

  /** A label/value row. */
  datatype Row = Row(key: string, value: string)

  /** The two row patterns: `m` wants a colon after the closing `**`
      (`/^\s*\*\*(.+?)\*\*\s*:\s*(.+)\s*$/`), `m2` accepts anything
      (`/^\s*\*\*(.+?)\*\*\s*(.+)$/`). */
  datatype Pattern = Colon | Loose

  predicate NoTerminator(s: string) {
    forall i :: 0 <= i < |s| ==> !IsLineTerminator(s[i])
  }

  predicate HasNonTerminator(s: string) {
    exists i :: 0 <= i < |s| && !IsLineTerminator(s[i])
  }

  /** `\s*(.+)\s*$` matches all of `x`: some non-empty run without line
      terminators has only white space around it. */
  predicate SpacedRun(x: string) {
    var s := LeadingSpace(JavaScript, x);
    if s == |x| then HasNonTerminator(x)
    else
      var e := |TrimRight(JavaScript, x)|;
      s <= e && NoTerminator(x[s..e])
  }

  /** What follows the closing `**` matches the rest of the pattern. */
  predicate TailOk(pat: Pattern, w: string) {
    match pat
    case Colon =>
      var i := LeadingSpace(JavaScript, w);
      i < |w| && w[i] == ':' && SpacedRun(w[i + 1..])
    case Loose =>
      var k := LeadingSpace(JavaScript, w);
      |w| > 0 && (if k < |w| then NoTerminator(w[k..]) else !IsLineTerminator(w[|w| - 1]))
  }

  /** A `**` at `q` followed by a tail the pattern accepts. */
  predicate CloseAt(pat: Pattern, l: string, q: nat) {
    q + 2 <= |l| && l[q] == '*' && l[q + 1] == '*' && TailOk(pat, l[q + 2..])
  }

  /** The trimmed second group of a match closing at `q`. */
  function TailValue(pat: Pattern, l: string, q: nat): string
    requires CloseAt(pat, l, q)
  {
    var w := l[q + 2..];
    match pat
    case Colon => Strip(JavaScript, w[LeadingSpace(JavaScript, w) + 1..])
    case Loose => Strip(JavaScript, w)
  }

  /** Where the lazy label group ends: the first `**` at or after `q`
      whose tail matches, with no line terminator in the label. */
  function LabelEnd(pat: Pattern, l: string, q: nat): (r: Option<nat>)
    ensures r.Some? ==> q <= r.value && r.value + 2 <= |l|
    ensures r.Some? ==> CloseAt(pat, l, r.value)
    ensures r.Some? ==> NoTerminator(l[q..r.value])
    decreases |l| - q
  {
    if q + 2 > |l| then None
    else if CloseAt(pat, l, q) then Some(q)
    else if IsLineTerminator(l[q]) then None
    else
      var r := LabelEnd(pat, l, q + 1);
      assert r.Some? ==> l[q..r.value] == [l[q]] + l[q + 1..r.value];
      r
  }

  /** The row a pattern extracts from a line, labels and values trimmed. */
  function Match(pat: Pattern, l: string): (r: Option<Row>)
    ensures r.Some? ==> IsStripped(JavaScript, r.value.key) && IsStripped(JavaScript, r.value.value)
  {
    var p0 := LeadingSpace(JavaScript, l);
    if p0 + 3 <= |l| && l[p0] == '*' && l[p0 + 1] == '*' && !IsLineTerminator(l[p0 + 2]) then
      match LabelEnd(pat, l, p0 + 3)
      case Some(q) => Some(Row(Strip(JavaScript, l[p0 + 2..q]), TailValue(pat, l, q)))
      case None => None
    else None
  }

  /** `m`, and failing that `m2`. */
  function Classify(l: string): Option<Row> {
    match Match(Colon, l)
    case Some(row) => Some(row)
    case None => Match(Loose, l)
  }

  /** `{ rows, others }`. */
  datatype Pares = Pares(rows: seq<Row>, others: seq<string>)

  /** Every kept line is one of `lines` the classifier rejects, and every
      row is what it gives for one of `lines`. */
  predicate FromLines(r: Pares, lines: seq<string>, cls: string -> Option<Row>) {
    && (forall x :: x in r.others ==> x in lines && cls(x).None?)
    && (forall k :: 0 <= k < |r.rows| ==> exists x :: x in lines && cls(x) == Some(r.rows[k]))
  }

  /** The partition of `lines` by a classifier: a line it gives a row for
      adds that row, any other line is kept as it is. */
  function ParesOf(lines: seq<string>, cls: string -> Option<Row>): (r: Pares)
    ensures |r.rows| + |r.others| == |lines|
    ensures FromLines(r, lines, cls)
  {
    if |lines| == 0 then Pares([], [])
    else
      var rest := ParesOf(lines[1..], cls);
      assert forall x :: x in lines[1..] ==> x in lines;
      match cls(lines[0])
      case Some(row) =>
        var r := Pares([row] + rest.rows, rest.others);
        assert forall k :: 1 <= k < |r.rows| ==> r.rows[k] == rest.rows[k - 1];
        r
      case None =>
        Pares(rest.rows, [lines[0]] + rest.others)
  }

  /** `parsearPares(texto)`. */
  function ParsearPares(t: string): (r: Pares)
    ensures |r.rows| + |r.others| == Count(t, '\n') + 1
    ensures forall x :: x in r.others ==> '\n' !in x
  {
    ParesOf(SplitLines(t), Classify)
  }

  /** Every row holds a trimmed label and a trimmed value; every other line
      matches neither pattern; nothing is lost. */
  lemma ParsearParesSpec(t: string)
    ensures |ParsearPares(t).rows| + |ParsearPares(t).others| == Count(t, '\n') + 1
    ensures forall k :: 0 <= k < |ParsearPares(t).rows| ==>
              IsStripped(JavaScript, ParsearPares(t).rows[k].key) && IsStripped(JavaScript, ParsearPares(t).rows[k].value)
    ensures forall x :: x in ParsearPares(t).others ==> Match(Colon, x).None? && Match(Loose, x).None?
  {
    var r := ParsearPares(t);
    forall k | 0 <= k < |r.rows|
      ensures IsStripped(JavaScript, r.rows[k].key) && IsStripped(JavaScript, r.rows[k].value)
    {
      var x :| x in SplitLines(t) && Classify(x) == Some(r.rows[k]);
      assert Match(Colon, x).Some? || Match(Loose, x).Some?;
    }
  }

  /** The partition respects order: the rows and the other lines of a
      concatenation are those of the first part followed by those of the
      second. */
  lemma {:induction false} ParesAppend(a: seq<string>, b: seq<string>, cls: string -> Option<Row>)
    ensures ParesOf(a + b, cls) ==
            Pares(ParesOf(a, cls).rows + ParesOf(b, cls).rows, ParesOf(a, cls).others + ParesOf(b, cls).others)
  {
    if |a| == 0 {
      assert a + b == b;
    } else {
      assert (a + b)[0] == a[0];
      assert (a + b)[1..] == a[1..] + b;
      ParesAppend(a[1..], b, cls);
      var ra, rb := ParesOf(a[1..], cls), ParesOf(b, cls);
      match cls(a[0])
      case Some(row) =>
        assert [row] + (ra.rows + rb.rows) == ([row] + ra.rows) + rb.rows;
      case None =>
        assert [a[0]] + (ra.others + rb.others) == ([a[0]] + ra.others) + rb.others;
    }
  }

  /** A line the classifier rejects is kept as it is; one it accepts gives
      its row. */
  lemma ParesOne(l: string, cls: string -> Option<Row>)
    ensures cls(l).None? ==> ParesOf([l], cls) == Pares([], [l])
    ensures cls(l).Some? ==> ParesOf([l], cls) == Pares([cls(l).value], [])
  {
    assert [l][1..] == [];
  }

  /** Scenario: in the usual `**LABEL:** value` line the colon sits inside
      the stars, so `m` fails and `m2` makes the row, colon included in
      the label. */
  lemma TypicalRow()
    ensures Classify("**A:** 1") == Some(Row("A:", "1"))
  {
    TypicalColon();
    TypicalLoose();
  }

  lemma TypicalColon()
    ensures Match(Colon, "**A:** 1").None?
  {
    NoColonRow("**A:** 1");
  }

  lemma NoColonRow(l: string)
    requires l == "**A:** 1"
    ensures Match(Colon, l).None?
  {
    LeadingSpaceNonSpace(l);
    NoColonLabel(l);
  }

  lemma NoColonLabel(l: string)
    requires l == "**A:** 1"
    ensures LabelEnd(Colon, l, 3).None?
  {
    NoColonClose(l);
    assert LabelEnd(Colon, l, 7).None?;
    assert LabelEnd(Colon, l, 6).None?;
    assert LabelEnd(Colon, l, 5).None?;
    assert LabelEnd(Colon, l, 4).None?;
  }

  lemma NoColonClose(l: string)
    requires l == "**A:** 1"
    ensures !CloseAt(Colon, l, 4)
  {
    var w := l[6..];
    assert w == " 1";
    LeadingSpaceOne(w);
  }

  lemma TypicalLoose()
    ensures Match(Loose, "**A:** 1") == Some(Row("A:", "1"))
  {
    TypicalLooseFields("**A:** 1");
    var m := Match(Loose, "**A:** 1");
    assert m.value == Row("A:", "1");
  }

  lemma TypicalLooseFields(l: string)
    requires l == "**A:** 1"
    ensures Match(Loose, l).Some?
    ensures Match(Loose, l).value.key == "A:"
    ensures Match(Loose, l).value.value == "1"
  {
    LeadingSpaceNonSpace(l);
    TypicalLooseEnd();
    MatchAfterStars(l, 4);
    TypicalLabel(l);
    TypicalValue();
  }

  lemma TypicalLabel(l: string)
    requires l == "**A:** 1"
    ensures Strip(JavaScript, l[2..4]) == "A:"
  {
    assert l[2..4] == "A:";
    StrippedFixpoint(JavaScript, "A:");
  }

  /** A line that opens with `**` right away gives the row its label end
      delimits under the loose pattern. */
  lemma MatchAfterStars(l: string, q: nat)
    requires 3 <= |l| && LeadingSpace(JavaScript, l) == 0
    requires l[0] == '*' && l[1] == '*' && !IsLineTerminator(l[2])
    requires LabelEnd(Loose, l, 3) == Some(q)
    ensures Match(Loose, l).Some?
    ensures Match(Loose, l).value.key == Strip(JavaScript, l[2..q])
    ensures Match(Loose, l).value.value == TailValue(Loose, l, q)
  {
  }

  lemma TypicalLooseEnd()
    ensures LabelEnd(Loose, "**A:** 1", 3) == Some(4)
  {
    var l := "**A:** 1";
    var w := l[6..];
    assert w == " 1";
    LeadingSpaceOne(w);
    assert w[1..] == "1";
    assert CloseAt(Loose, l, 4);
    assert LabelEnd(Loose, l, 4) == Some(4);
  }

  lemma TypicalValue()
    ensures TailValue(Loose, "**A:** 1", 4) == "1"
  {
    var l := "**A:** 1";
    var w := l[6..];
    assert w == " 1";
    TypicalLooseEnd();
    LeadingSpaceOne(w);
    assert TrimRight(JavaScript, w) == w;
  }

  lemma LeadingSpaceNonSpace(s: string)
    requires |s| > 0 && !IsJsSpace(s[0])
    ensures LeadingSpace(JavaScript, s) == 0
  {
  }

  lemma LeadingSpaceOne(w: string)
    requires |w| == 2 && w[0] == ' ' && !IsJsSpace(w[1])
    ensures LeadingSpace(JavaScript, w) == 1
  {
    assert LeadingSpace(JavaScript, w[1..]) == 0;
  }
}

=== FILE: frontend_markup.dfy ===
/** The text fragments `renderResultado` (Frontend/static/app.js) builds
    from an answer: the title, a row's label and value cells, and the block
    of remaining lines, each asked which `<` it can contain; and the one-pass
    formatter the value cells and the block evidently intend. */
module FrontendMarkup {
  import opened Wrappers
  import opened Strings
  import opened FrontendText

  // ---------------------------------------------------------------------
  // Which markup a fragment can carry

  /** Position `i` of `r` begins one of the four tags the formatters emit. */
  predicate TagAt(r: string, i: nat)
    requires i <= |r|
  {
    StartsWith(r[i..], "<strong>") || StartsWith(r[i..], "</strong>")
    || StartsWith(r[i..], "<code>") || StartsWith(r[i..], "</code>")
  }

  /** Every `<` in `r` begins a `strong` or `code` tag: no other element
      can come out of the text. */
  predicate TagsOnly(r: string) {
    forall i :: 0 <= i < |r| && r[i] == '<' ==> TagAt(r, i)
  }

  lemma {:induction false} TagsOnlyConcat(a: string, b: string)
    requires TagsOnly(a) && TagsOnly(b)
    ensures TagsOnly(a + b)
  {
    var r := a + b;
    forall i | 0 <= i < |r| && r[i] == '<' ensures TagAt(r, i) {
      if i < |a| {
        assert a[i] == '<' && TagAt(a, i);
        assert r[i..] == a[i..] + b;
      } else {
        assert b[i - |a|] == '<' && TagAt(b, i - |a|);
        assert r[i..] == b[i - |a|..];
      }
    }
  }

  /** Escaped text holds no `<` and no backtick at all. */
  lemma EscapedPlain(s: string)
    ensures '<' !in EscapeHtml(s) && '`' !in EscapeHtml(s)
    ensures TagsOnly(EscapeHtml(s))
  {
    var e := EscapeHtml(s);
    EscapeHtmlChars(s);
    forall i | 0 <= i < |e| ensures e[i] != '<' && e[i] != '`' {
      assert e[i] == '&' || !IsHtmlSpecial(e[i]);
    }
  }

  lemma OpenStrongTag()
    ensures TagsOnly("<strong>")
  {
    assert "<strong>"[0..] == "<strong>";
  }

  lemma CloseStrongTag()
    ensures TagsOnly("</strong>")
  {
    assert "</strong>"[0..] == "</strong>";
  }

  lemma OpenCodeTag()
    ensures TagsOnly("<code>")
  {
    assert "<code>"[0..] == "<code>";
  }

  lemma CloseCodeTag()
    ensures TagsOnly("</code>")
  {
    assert "</code>"[0..] == "</code>";
  }

  /** Text put between two safe pieces keeps the whole safe. */
  lemma Wrapped(o: string, g: string, c: string)
    requires TagsOnly(o) && TagsOnly(c)
    ensures TagsOnly(o + EscapeHtml(g) + c)
  {
    EscapedPlain(g);
    TagsOnlyConcat(o, EscapeHtml(g));
    TagsOnlyConcat(o + EscapeHtml(g), c);
  }

  lemma StrongSafe(g: string)
    ensures TagsOnly(Strong(g))
  {
    OpenStrongTag();
    CloseStrongTag();
    Wrapped("<strong>", g, "</strong>");
  }

  lemma StrongNoTick(g: string)
    ensures '`' !in Strong(g)
  {
    EscapedPlain(g);
    var e := EscapeHtml(g);
    assert '`' !in "<strong>" && '`' !in "</strong>";
    assert Strong(g) == "<strong>" + e + "</strong>";
  }

  lemma CodeElemSafe(g: string)
    ensures TagsOnly(CodeElem(g))
  {
    OpenCodeTag();
    CloseCodeTag();
    Wrapped("<code>", g, "</code>");
  }

  /** The bold rewrite of text with no `<` adds only `strong` tags. */
  lemma {:induction false} BoldOfPlain(t: string, p: nat)
    requires '<' !in t
    ensures TagsOnly(Bold(t, p))
    decreases |t| - p
  {
    if p < |t| {
      var b := BoldAt(t, p);
      if b.Some? {
        BoldOfPlain(t, b.value + 2);
        BoldOfPlainMatch(t, p, b.value);
      } else {
        BoldOfPlain(t, p + 1);
        BoldOfPlainCopy(t, p);
      }
    }
  }

  lemma BoldOfPlainMatch(t: string, p: nat, q: nat)
    requires p < |t| && BoldAt(t, p) == Some(q)
    requires TagsOnly(Bold(t, q + 2))
    ensures TagsOnly(Bold(t, p))
  {
    BoldMatchStep(t, p, q);
    StrongSafe(t[p + 2..q]);
    TagsOnlyConcat(Strong(t[p + 2..q]), Bold(t, q + 2));
  }

  lemma BoldOfPlainCopy(t: string, p: nat)
    requires '<' !in t
    requires p < |t| && BoldAt(t, p).None?
    requires TagsOnly(Bold(t, p + 1))
    ensures TagsOnly(Bold(t, p))
  {
    BoldStep(t, p);
    assert t[p] in t;
    assert TagsOnly([t[p]]);
    TagsOnlyConcat([t[p]], Bold(t, p + 1));
  }

  /** The bold rewrite adds no backtick. */
  lemma {:induction false} BoldNoTick(t: string, p: nat)
    requires '`' !in t
    ensures '`' !in Bold(t, p)
    decreases |t| - p
  {
    if p < |t| {
      BoldNoTick(t, BoldNext(t, p));
      BoldNoTickStep(t, p);
    }
  }

  /** Where the bold rewrite resumes after position `p`. */
  function BoldNext(t: string, p: nat): (r: nat)
    requires p < |t|
    ensures p < r
  {
    var b := BoldAt(t, p);
    if b.Some? then b.value + 2 else p + 1
  }

  lemma BoldNoTickStep(t: string, p: nat)
    requires '`' !in t
    requires p < |t| && '`' !in Bold(t, BoldNext(t, p))
    ensures '`' !in Bold(t, p)
  {
    var b, n := BoldAt(t, p), BoldNext(t, p);
    if b.Some? {
      assert n == b.value + 2;
      BoldNoTickMatch(t, p, b.value);
    } else {
      assert n == p + 1;
      BoldNoTickCopy(t, p);
    }
  }

  lemma BoldNoTickCopy(t: string, p: nat)
    requires '`' !in t
    requires p < |t| && BoldAt(t, p).None? && '`' !in Bold(t, p + 1)
    ensures '`' !in Bold(t, p)
  {
    BoldStep(t, p);
    assert t[p] in t;
  }

  lemma BoldNoTickMatch(t: string, p: nat, q: nat)
    requires p < |t| && BoldAt(t, p) == Some(q)
    requires '`' !in Bold(t, q + 2)
    ensures '`' !in Bold(t, p)
  {
    BoldMatchStep(t, p, q);
    StrongNoTick(t[p + 2..q]);
    var x := Strong(t[p + 2..q]);
    var y := Bold(t, q + 2);
    assert '`' !in x + y;
  }

  /** Escaping distributes over concatenation. */
  lemma {:induction false} EscapeAppend(a: string, b: string)
    ensures EscapeHtml(a + b) == EscapeHtml(a) + EscapeHtml(b)
  {
    if |a| > 0 {
      var x, t := Escape(a[0]), EscapeHtml(a[1..]);
      assert (a + b)[0] == a[0] && (a + b)[1..] == a[1..] + b;
      EscapeAppend(a[1..], b);
      assert EscapeHtml(a + b) == x + (t + EscapeHtml(b));
      assert EscapeHtml(a) == x + t;
    } else {
      assert a + b == b;
    }
  }

  /** Text without a backtick has no inline-code match. */
  lemma NoTickNoCode(t: string)
    requires '`' !in t
    ensures InlineCodeToCode(t) == t
  {
    forall p | 0 <= p < |t| ensures CodeAt(t, p).None? {
    }
    CodeUnchanged(t);
  }

  /** Text without `*` has no bold match. */
  lemma NoStarNoBold(t: string)
    requires '*' !in t
    ensures MdBoldToStrong(t) == t
  {
    forall p | 0 <= p < |t| ensures BoldAt(t, p).None? {
    }
    BoldUnchanged(t);
  }

  // ---------------------------------------------------------------------
  // The fragments as written

  /** The title: `escapeHtml(titulo)`. */
  function Title(titulo: string): (r: string)
    ensures TagsOnly(r) && '<' !in r
  {
    EscapedPlain(titulo);
    EscapeHtml(titulo)
  }

  /** A row's label cell: the escaped label inside `<strong>`. */
  function LabelCell(key: string): (r: string)
    ensures TagsOnly(r)
  {
    StrongSafe(key);
    Strong(key)
  }

  /** A row's value cell: `inlineCodeToCode(mdBoldToStrong(value))`, with
      no escaping outside the matched groups. */
  function ValueCell(value: string): (r: string)
    ensures '*' !in value && '`' !in value ==> r == value
  {
    InlineCodeToCode(MdBoldToStrong(value))
  }

  /** The block of remaining lines: joined, trimmed, escaped, then both
      rewrites. */
  function OthersBlock(others: seq<string>): (r: string)
    ensures TagsOnly(r)
  {
    var e := EscapeHtml(Strip(JavaScript, Join(others, "\n")));
    EscapedPlain(Strip(JavaScript, Join(others, "\n")));
    BoldOfPlain(e, 0);
    BoldNoTick(e, 0);
    NoTickNoCode(MdBoldToStrong(e));
    InlineCodeToCode(MdBoldToStrong(e))
  }

  /** The block of other lines never holds a `code` element: `escapeHtml`
      has already turned every backtick into `&#96;`, so `inlineCodeToCode`
      finds nothing to rewrite and the block is the bold rewrite alone. */
  lemma OthersBlockNoCode(others: seq<string>)
    ensures var e := EscapeHtml(Strip(JavaScript, Join(others, "\n")));
            OthersBlock(others) == MdBoldToStrong(e) && '`' !in OthersBlock(others)
  {
    var e := EscapeHtml(Strip(JavaScript, Join(others, "\n")));
    EscapedPlain(Strip(JavaScript, Join(others, "\n")));
    BoldNoTick(e, 0);
    NoTickNoCode(MdBoldToStrong(e));
  }

  /** A value with no `*` and no backtick is put into the page as it is:
      any markup it holds becomes markup. */
  lemma ValueCellRaw(value: string)
    requires '*' !in value && '`' !in value
    ensures ValueCell(value) == value
  {
    NoStarNoBold(value);
    NoTickNoCode(value);
  }

  /** Scenario: a value `<i>` yields an `<i>` element. */
  lemma ValueCellInjects()
    ensures ValueCell("<i>") == "<i>"
    ensures !TagsOnly(ValueCell("<i>"))
  {
    ValueCellRaw("<i>");
    var r := "<i>";
    assert r[0] == '<' && r[1] == 'i';
    assert !TagAt(r, 0);
  }

  /** The bold groups of the remaining lines are escaped twice: the group
      `<strong>` receives is already escaped, so an `&` inside `**…**` shows
      as the text `&amp;`. */
  lemma OthersDoubleEscape()
    ensures MdBoldToStrong(EscapeHtml("**a&b**")) == Strong("a&amp;b")
  {
    EscapeStars();
    EscapedStarsBold("**a&amp;b**");
  }

  lemma EscapedStarsBold(e: string)
    requires e == "**a&amp;b**"
    ensures MdBoldToStrong(e) == Strong("a&amp;b")
  {
    EscapedStarsMatch();
    BoldMatchStep(e, 0, 9);
    EscapedStarsParts(e);
  }

  lemma EscapedStarsParts(e: string)
    requires e == "**a&amp;b**"
    ensures e[2..9] == "a&amp;b" && Bold(e, 11) == []
  {
    assert |e| == 11;
  }

  lemma EscapedStarsMatch()
    ensures BoldAt("**a&amp;b**", 0) == Some(9)
  {
    var e := "**a&amp;b**";
    assert BoldClose(e, 9) == Some(9);
    assert BoldClose(e, 8) == BoldClose(e, 9);
    assert BoldClose(e, 7) == BoldClose(e, 8);
    assert BoldClose(e, 6) == BoldClose(e, 7);
    assert BoldClose(e, 5) == BoldClose(e, 6);
    assert BoldClose(e, 4) == BoldClose(e, 5);
    assert BoldClose(e, 3) == BoldClose(e, 4);
  }

  lemma EscapeStars()
    ensures EscapeHtml("**a&b**") == "**a&amp;b**"
  {
    assert "**a&b**" == "**a" + ['&'] + "b**";
    EscapeAround("**a", '&', "b**");
    assert "**a" + "&amp;" + "b**" == "**a&amp;b**";
  }

  /** One special character between two plain runs is the only thing
      escaped. */
  lemma EscapeAround(a: string, c: char, b: string)
    requires forall i :: 0 <= i < |a| ==> !IsHtmlSpecial(a[i])
    requires forall i :: 0 <= i < |b| ==> !IsHtmlSpecial(b[i])
    ensures EscapeHtml(a + [c] + b) == a + Escape(c) + b
  {
    var e, f := EscapeHtml(a + [c]), EscapeHtml(b);
    EscapeAppend(a + [c], b);
    EscapeAppend(a, [c]);
    EscapePlain(a);
    EscapePlain(b);
    EscapeOne(c);
    assert e == a + Escape(c) && f == b;
  }

  lemma EscapeOne(c: char)
    ensures EscapeHtml([c]) == Escape(c)
  {
    assert [c][1..] == [];
  }

  // ---------------------------------------------------------------------
  // One pass that escapes the plain text and renders both kinds of group

  /** The scan from position `p`: a `**…**` match becomes `<strong>`, else a
      backtick match becomes `<code>`, else the character is escaped. */
  function Safe(t: string, p: nat): string
    decreases |t| - p
  {
    if p >= |t| then []
    else
      var b := BoldAt(t, p);
      var c := CodeAt(t, p);
      if b.Some? then Strong(t[p + 2..b.value]) + Safe(t, b.value + 2)
      else if c.Some? then CodeElem(t[p + 1..c.value]) + Safe(t, c.value + 1)
      else Escape(t[p]) + Safe(t, p + 1)
  }

  /** The formatting the value cell and the remaining lines evidently
      intend: the text escaped once, groups rendered once. */
  function SafeMarkup(t: string): string {
    Safe(t, 0)
  }

  lemma SafeBoldStep(t: string, p: nat, q: nat)
    requires p < |t| && BoldAt(t, p) == Some(q)
    ensures Safe(t, p) == Strong(t[p + 2..q]) + Safe(t, q + 2)
  {
    assert BoldAt(t, p).value == q;
    SafeAtBold(t, p);
  }

  /** Where a bold group starts, the scan emits it and resumes after it. */
  lemma SafeAtBold(t: string, p: nat)
    requires p < |t| && BoldAt(t, p).Some?
    ensures Safe(t, p) == Strong(t[p + 2..BoldAt(t, p).value]) + Safe(t, BoldAt(t, p).value + 2)
  {
  }

  lemma SafeCodeStep(t: string, p: nat, q: nat)
    requires p < |t| && BoldAt(t, p).None? && CodeAt(t, p) == Some(q)
    ensures Safe(t, p) == CodeElem(t[p + 1..q]) + Safe(t, q + 1)
  {
    assert CodeAt(t, p).value == q;
    SafeNoBold(t, p);
  }

  /** Where no bold group starts, the scan tries a code group. */
  lemma SafeNoBold(t: string, p: nat)
    requires p < |t| && BoldAt(t, p).None?
    ensures CodeAt(t, p).Some? ==> Safe(t, p) == CodeElem(t[p + 1..CodeAt(t, p).value]) + Safe(t, CodeAt(t, p).value + 1)
    ensures CodeAt(t, p).None? ==> Safe(t, p) == Escape(t[p]) + Safe(t, p + 1)
  {
  }

  lemma SafePlainStep(t: string, p: nat)
    requires p < |t| && BoldAt(t, p).None? && CodeAt(t, p).None?
    ensures Safe(t, p) == Escape(t[p]) + Safe(t, p + 1)
  {
  }

  /** One escaped character holds no `<`. */
  lemma EscapeSafe(c: char)
    ensures TagsOnly(Escape(c))
  {
    EscapedPlain([c]);
    assert EscapeHtml([c]) == Escape(c) + EscapeHtml([]);
  }

  lemma {:induction false} SafeTagsOnly(t: string, p: nat)
    ensures TagsOnly(Safe(t, p))
    decreases |t| - p
  {
    if p < |t| {
      var n := SafeNext(t, p);
      SafeTagsOnly(t, n);
      SafeStepSafe(t, p, n);
    }
  }

  /** Where the scan resumes after position `p`. */
  function SafeNext(t: string, p: nat): (r: nat)
    requires p < |t|
    ensures p < r
  {
    var b := BoldAt(t, p);
    var c := CodeAt(t, p);
    if b.Some? then b.value + 2
    else if c.Some? then c.value + 1
    else p + 1
  }

  /** One step of the scan adds only the two tags. */
  lemma SafeStepSafe(t: string, p: nat, n: nat)
    requires p < |t| && n == SafeNext(t, p) && TagsOnly(Safe(t, n))
    ensures TagsOnly(Safe(t, p))
  {
    if BoldAt(t, p).Some? {
      SafeBoldBranch(t, p, n);
    } else if CodeAt(t, p).Some? {
      SafeCodeBranch(t, p, n);
    } else {
      assert n == p + 1;
      SafePlainSafe(t, p);
    }
  }

  lemma SafeBoldBranch(t: string, p: nat, n: nat)
    requires p < |t| && BoldAt(t, p).Some? && n == SafeNext(t, p) && TagsOnly(Safe(t, n))
    ensures TagsOnly(Safe(t, p))
  {
    var q := BoldAt(t, p).value;
    SafeNextBold(t, p, q);
    SafeBoldSafe(t, p, q, n);
  }

  lemma SafeNextBold(t: string, p: nat, q: nat)
    requires p < |t| && BoldAt(t, p) == Some(q)
    ensures SafeNext(t, p) == q + 2
  {
  }

  lemma SafeCodeBranch(t: string, p: nat, n: nat)
    requires p < |t| && BoldAt(t, p).None? && CodeAt(t, p).Some?
    requires n == SafeNext(t, p) && TagsOnly(Safe(t, n))
    ensures TagsOnly(Safe(t, p))
  {
    var q := CodeAt(t, p).value;
    SafeNextCode(t, p, q);
    SafeCodeSafe(t, p, q, n);
  }

  lemma SafeNextCode(t: string, p: nat, q: nat)
    requires p < |t| && BoldAt(t, p).None? && CodeAt(t, p) == Some(q)
    ensures SafeNext(t, p) == q + 1
  {
  }

  lemma SafeBoldSafe(t: string, p: nat, q: nat, n: nat)
    requires p < |t| && BoldAt(t, p) == Some(q)
    requires n == q + 2 && TagsOnly(Safe(t, n))
    ensures TagsOnly(Safe(t, p))
  {
    SafeBoldStep(t, p, q);
    StrongSafe(t[p + 2..q]);
    TagsOnlyConcat(Strong(t[p + 2..q]), Safe(t, q + 2));
  }

  lemma SafeCodeSafe(t: string, p: nat, q: nat, n: nat)
    requires p < |t| && BoldAt(t, p).None? && CodeAt(t, p) == Some(q)
    requires n == q + 1 && TagsOnly(Safe(t, n))
    ensures TagsOnly(Safe(t, p))
  {
    SafeCodeStep(t, p, q);
    CodeElemSafe(t[p + 1..q]);
    TagsOnlyConcat(CodeElem(t[p + 1..q]), Safe(t, q + 1));
  }

  lemma SafePlainSafe(t: string, p: nat)
    requires p < |t| && BoldAt(t, p).None? && CodeAt(t, p).None?
    requires TagsOnly(Safe(t, p + 1))
    ensures TagsOnly(Safe(t, p))
  {
    SafePlainStep(t, p);
    EscapeSafe(t[p]);
    TagsOnlyConcat(Escape(t[p]), Safe(t, p + 1));
  }

  /** Whatever the text, the only elements in the output are `strong` and
      `code`. */
  lemma SafeMarkupTagsOnly(t: string)
    ensures TagsOnly(SafeMarkup(t))
  {
    SafeTagsOnly(t, 0);
  }

  lemma {:induction false} SafePlainFrom(t: string, p: nat)
    requires p <= |t|
    requires '*' !in t && '`' !in t
    ensures Safe(t, p) == EscapeHtml(t[p..])
    decreases |t| - p
  {
    if p < |t| {
      SafePlainFrom(t, p + 1);
      assert BoldAt(t, p).None? && CodeAt(t, p).None?;
      assert t[p..][1..] == t[p + 1..];
    }
  }

  /** Text with no group is just escaped, so decoding the output gives the
      text back. */
  lemma SafeMarkupPlain(t: string)
    requires '*' !in t && '`' !in t
    ensures SafeMarkup(t) == EscapeHtml(t)
    ensures Unescape(SafeMarkup(t)) == Some(t)
  {
    SafePlainFrom(t, 0);
    assert t[0..] == t;
    EscapeRoundTrip(t);
  }

  /** Scenario: a bold group's `&` is escaped once. */
  lemma SafeBoldOnce()
    ensures SafeMarkup("**a&b**") == "<strong>a&amp;b</strong>"
  {
    var t := "**a&b**";
    assert BoldClose(t, 3) == Some(5);
    assert BoldAt(t, 0) == Some(5);
    assert t[2..5] == "a&b";
    assert EscapeHtml("a&b") == "a&amp;b";
  }

  /** Scenario: a value `<i>` is shown as text. */
  lemma SafeMarkupEscapes()
    ensures SafeMarkup("<i>") == "&lt;i&gt;"
  {
    SafeMarkupPlain("<i>");
    EscapeLtI("<i>");
  }

  lemma EscapeLtI(s: string)
    requires s == "<i>"
    ensures EscapeHtml(s) == "&lt;i&gt;"
  {
    assert s == "<" + "i>" && "i>" == "i" + ">";
    EscapeAppend("<", "i>");
    EscapeAppend("i", ">");
    EscapeOne('<');
    EscapeOne('i');
    EscapeOne('>');
  }
}

=== FILE: frontend_query.dfy ===
/** `ejecutarConsulta` and `esperarYMostrarResultado` (Frontend/static/app.js):
    the command text is built from the form, and checked for empty fields
    before any request; `/consulta` is called once; then the static file
    `/temp_files/respuestas.json` is read up to 90 times, and the first
    document holding a text or a file list whose rendering does not throw
    is shown (a throw is swallowed and the polling goes on). The answers
    the browser gets are inputs; timers, toasts and the DOM are not
    modelled. */
module FrontendQuery {
  import opened Wrappers
  import opened Strings
  import opened Decimal
  import opened CommandFormat
  import opened Catalog
  import opened Aggregation

  const MissingNames: string := "\U{26A0}\U{FE0F} Completa nombre y ambos apellidos."
  const MissingDato: string := "\U{26A0}\U{FE0F} Ingresa un dato v\U{E1}lido."
  const QueryErrorPrefix: string := "\U{274C} Error en la consulta: "
  const StillProcessingText: string := "\U{231B} El bot sigue procesando... revisa en unos segundos."

  /** `intentos`: how many times `respuestas.json` is read. */
  const Intentos: nat := 90

  // ---------------------------------------------------------------------
  // Building the command

  /** The four inputs of the form: the name, both surnames, and the generic
      datum. */
  datatype Form = Form(nombre: string, ap1: string, ap2: string, dato: string)

  /** `nombre.toLowerCase().startsWith("/nm")`. A character lower-cases to
      text starting with `/`, `n` or `m` only when it is that character or
      its upper-case ASCII letter, so ASCII lower-casing decides the test. */
  predicate IsNmCommand(nombre: string) {
    StartsWith(AsciiLowerString(nombre), NmPrefix)
  }

  /** `a + b` starts with `a`. */
  lemma StartsWithAppend(a: string, b: string)
    ensures StartsWith(a + b, a)
  {
    assert (a + b)[..|a|] == a;
  }

  /** The name command: the three trimmed name fields joined by `|`. */
  function NmCommand(nombre: string, n: string, a1: string, a2: string): (r: Result<string, string>)
    ensures r.Failure? <==> n == [] || a1 == [] || a2 == []
    ensures r.Failure? ==> r.error == MissingNames
    ensures r.Success? ==> StartsWith(r.value, nombre + " ")
    ensures r.Success? ==> r.value[|nombre| + 1..] == n + "|" + a1 + "|" + a2
  {
    if n == [] || a1 == [] || a2 == [] then Failure(MissingNames)
    else
      var r := nombre + " " + n + "|" + a1 + "|" + a2;
      assert r == (nombre + " ") + (n + "|" + a1 + "|" + a2);
      StartsWithAppend(nombre + " ", n + "|" + a1 + "|" + a2);
      Success(r)
  }

  /** Any other command: the trimmed generic datum. */
  function GenericCommand(nombre: string, d: string): (r: Result<string, string>)
    ensures r.Failure? <==> d == []
    ensures r.Failure? ==> r.error == MissingDato
    ensures r.Success? ==> StartsWith(r.value, nombre + " ")
    ensures r.Success? ==> |r.value| == |nombre| + 1 + |d| && r.value[|nombre| + 1..] == d
  {
    if d == [] then Failure(MissingDato)
    else
      StartsWithAppend(nombre + " ", d);
      Success(nombre + " " + d)
  }

  /** The command text sent to `/consulta`, or the warning shown instead. */
  function BuildCommand(nombre: string, f: Form): (r: Result<string, string>)
    ensures IsNmCommand(nombre) ==>
              (r.Failure? <==> Strip(JavaScript, f.nombre) == [] || Strip(JavaScript, f.ap1) == []
                               || Strip(JavaScript, f.ap2) == [])
    ensures !IsNmCommand(nombre) ==> (r.Failure? <==> Strip(JavaScript, f.dato) == [])
    ensures r.Failure? ==> r.error == (if IsNmCommand(nombre) then MissingNames else MissingDato)
    ensures r.Success? ==> StartsWith(r.value, nombre + " ")
    ensures r.Success? && IsNmCommand(nombre) ==>
              r.value[|nombre| + 1..] == Strip(JavaScript, f.nombre) + "|" + Strip(JavaScript, f.ap1) + "|" + Strip(JavaScript, f.ap2)
    ensures r.Success? && !IsNmCommand(nombre) ==> r.value[|nombre| + 1..] == Strip(JavaScript, f.dato)
  {
    if IsNmCommand(nombre) then
      NmCommand(nombre, Strip(JavaScript, f.nombre), Strip(JavaScript, f.ap1), Strip(JavaScript, f.ap2))
    else GenericCommand(nombre, Strip(JavaScript, f.dato))
  }

  /** The text of a built name command. */
  lemma NmBuilt(nombre: string, f: Form)
    requires IsNmCommand(nombre) && BuildCommand(nombre, f).Success?
    ensures BuildCommand(nombre, f).value
              == nombre + " " + Strip(JavaScript, f.nombre) + "|" + Strip(JavaScript, f.ap1) + "|" + Strip(JavaScript, f.ap2)
  {
  }

  /** The text of a built generic command: the command, a space, and the
      trimmed datum. */
  lemma GenericBuilt(nombre: string, f: Form)
    requires !IsNmCommand(nombre) && BuildCommand(nombre, f).Success?
    ensures BuildCommand(nombre, f).value == nombre + " " + Strip(JavaScript, f.dato)
  {
    var c := BuildCommand(nombre, f).value;
    assert c[..|nombre| + 1] == nombre + " ";
    assert c == c[..|nombre| + 1] + c[|nombre| + 1..];
  }

  lemma JoinThree(h: string, a1: string, a2: string)
    ensures Join([h, a1, a2], "|") == h + "|" + a1 + "|" + a2
  {
    var parts := [h, a1, a2];
    assert parts[1..] == [a1, a2];
    assert parts[1..][1..] == [a2];
    assert Join([a1, a2], "|") == a1 + "|" + a2;
  }

  /** Trimming keeps a character out if it was out. */
  lemma StripNoChar(s: string, c: char)
    requires c !in s
    ensures c !in Strip(JavaScript, s)
  {
    var r := Strip(JavaScript, s);
    var k := LeadingSpace(JavaScript, s);
    forall i | 0 <= i < |r| ensures r[i] != c {
      assert r[i] == s[k + i];
    }
  }

  lemma {:induction false} CountPositive(s: string, c: char)
    requires c in s
    ensures Count(s, c) >= 1
  {
    if s[0] != c {
      assert c in s[1..] by {
        var i :| 0 <= i < |s| && s[i] == c;
        assert s[1..][i - 1] == c;
      }
      CountPositive(s[1..], c);
    }
  }

  /** The pieces the backend cuts a built name command into are the command
      word with the trimmed name, and the two trimmed surnames, whenever no
      input holds a `|`; the backend's check passes it. */
  lemma NmCommandPieces(nombre: string, f: Form)
    requires IsNmCommand(nombre) && BuildCommand(nombre, f).Success?
    requires '|' !in nombre && '|' !in f.nombre && '|' !in f.ap1 && '|' !in f.ap2
    ensures Split(BuildCommand(nombre, f).value, '|')
              == [nombre + " " + Strip(JavaScript, f.nombre), Strip(JavaScript, f.ap1), Strip(JavaScript, f.ap2)]
    ensures NmFormatOk(BuildCommand(nombre, f).value)
  {
    var n := Strip(JavaScript, f.nombre);
    var a1 := Strip(JavaScript, f.ap1);
    var a2 := Strip(JavaScript, f.ap2);
    NmBuilt(nombre, f);
    StripNoChar(f.nombre, '|');
    StripNoChar(f.ap1, '|');
    StripNoChar(f.ap2, '|');
    var h := nombre + " " + n;
    assert '|' !in h;
    JoinThree(h, a1, a2);
    SplitJoin([h, a1, a2], '|');
    ThreeFieldsPass(h, a1, a2);
  }

  /** A command starting exactly with `/nm` passes the test. */
  lemma ExactPrefixIsNm(nombre: string)
    ensures StartsWith(nombre, NmPrefix) ==> IsNmCommand(nombre)
  {
    if StartsWith(nombre, NmPrefix) {
      var l := AsciiLowerString(nombre);
      assert l[..3] == nombre[..3] by {
        forall i | 0 <= i < 3 ensures l[i] == nombre[i] {
          assert nombre[i] == NmPrefix[i];
        }
      }
    }
  }

  /** The built text starts with `/nm` only if the command itself does:
      the space after the command stops a shorter one from reaching it. */
  lemma BuiltPrefix(nombre: string, d: string)
    ensures StartsWith(nombre + " " + d, NmPrefix) ==> StartsWith(nombre, NmPrefix)
  {
    var s := nombre + " " + d;
    if |nombre| >= 3 {
      assert s[..3] == nombre[..3];
    } else {
      assert s[|nombre|] == ' ' && NmPrefix[|nombre|] != ' ';
    }
  }

  /** A generic command always passes the backend's check. */
  lemma GenericPasses(nombre: string, f: Form)
    requires !IsNmCommand(nombre) && BuildCommand(nombre, f).Success?
    ensures NmFormatOk(BuildCommand(nombre, f).value)
  {
    BuiltPrefix(nombre, Strip(JavaScript, f.dato));
    ExactPrefixIsNm(nombre);
  }

  /** The backend accepts a built name command exactly when the command does
      not start with `/nm` as written (the frontend's test ignores case, the
      backend's does not) or no input holds a `|`. */
  lemma NmAcceptedIff(nombre: string, f: Form)
    requires IsNmCommand(nombre) && BuildCommand(nombre, f).Success?
    ensures var n := Strip(JavaScript, f.nombre);
            var a1 := Strip(JavaScript, f.ap1);
            var a2 := Strip(JavaScript, f.ap2);
            var ok := NmFormatOk(BuildCommand(nombre, f).value);
            ok <==> !StartsWith(nombre, NmPrefix) || ('|' !in nombre && '|' !in n && '|' !in a1 && '|' !in a2)
  {
    var n := Strip(JavaScript, f.nombre);
    var a1 := Strip(JavaScript, f.ap1);
    var a2 := Strip(JavaScript, f.ap2);
    var r := BuildCommand(nombre, f).value;
    NmBuilt(nombre, f);
    assert |nombre| >= 3;
    assert StartsWith(r, NmPrefix) <==> StartsWith(nombre, NmPrefix) by {
      assert r[..3] == nombre[..3];
    }
    BarsOfNmCommand(nombre, n, a1, a2);
    NmCheckIsBarCount(r);
    if '|' in nombre { CountPositive(nombre, '|'); } else { CountZero(nombre, '|'); }
    if '|' in n { CountPositive(n, '|'); } else { CountZero(n, '|'); }
    if '|' in a1 { CountPositive(a1, '|'); } else { CountZero(a1, '|'); }
    if '|' in a2 { CountPositive(a2, '|'); } else { CountZero(a2, '|'); }
  }

  /** The bars of a built name command: two separators plus those of the
      parts. */
  lemma BarsOfNmCommand(nombre: string, n: string, a1: string, a2: string)
    ensures Count(nombre + " " + n + "|" + a1 + "|" + a2, '|')
         == Count(nombre, '|') + Count(n, '|') + Count(a1, '|') + Count(a2, '|') + 2
  {
    CountAppend(nombre, " ", '|');
    CountAppend(nombre + " ", n, '|');
    CountAppend(nombre + " " + n, "|", '|');
    CountAppend(nombre + " " + n + "|", a1, '|');
    CountAppend(nombre + " " + n + "|" + a1, "|", '|');
    CountAppend(nombre + " " + n + "|" + a1 + "|", a2, '|');
    assert Count(" ", '|') == 0 && Count("|", '|') == 1;
  }

  // ---------------------------------------------------------------------
  // Polling `respuestas.json`

  /** JavaScript truthiness of a parsed JSON value. */
  predicate Truthy(v: Value) {
    match v
    case Null => false
    case Bool(b) => b
    case Num(n) => n != 0
    case Str(s) => s != []
    case Arr(_) => true
    case Obj(_) => true
  }

  /** `v.k` is truthy: only an object has named fields. */
  predicate FieldTruthy(v: Value, k: string) {
    v.Obj? && k in v.fields && Truthy(v.fields[k])
  }

  /** `v.length` is truthy. */
  predicate LengthTruthy(v: Value) {
    match v
    case Arr(items) => |items| > 0
    case Str(s) => |s| > 0
    case Obj(fields) => "length" in fields && Truthy(fields["length"])
    case _ => false
  }

  /** `data && (data.texto || (data.archivos && data.archivos.length))`. */
  predicate Renders(data: Value) {
    && Truthy(data)
    && (FieldTruthy(data, "texto")
        || (FieldTruthy(data, "archivos") && LengthTruthy(data.fields["archivos"])))
  }

  /** What `for (const a of archivos)` can walk with `a.split` on every
      item: a list of strings, or a string (its characters). */
  predicate SplittableItems(v: Value) {
    v.Str? || (v.Arr? && forall i :: 0 <= i < |v.items| ==> v.items[i].Str?)
  }

  /** `renderResultado(data)` returns without throwing: a truthy `texto`
      is a string (it is trimmed), the `archivos` it walks holds strings,
      and otherwise a truthy `archivo` is a string (it is split). */
  predicate RenderCompletes(data: Value) {
    && (FieldTruthy(data, "texto") ==> data.fields["texto"].Str?)
    && if FieldTruthy(data, "archivos") && LengthTruthy(data.fields["archivos"])
       then SplittableItems(data.fields["archivos"])
       else FieldTruthy(data, "archivo") ==> data.fields["archivo"].Str?
  }

  /** `escapeHtml(titulo)` returns: a falsy title gives the empty text and
      a string is escaped, but any other value has no `replace` and
      throws. */
  predicate TitleRenders(t: Value) {
    !Truthy(t) || t.Str?
  }

  /** `cmd.titulo || cmd.nombre`, the title handed to the poller;
      `titulo` is None when the command has no such key. */
  function TitleArg(titulo: Option<Value>, nombre: string): (t: Value)
    ensures TitleRenders(t) <==> titulo.None? || !Truthy(titulo.value) || titulo.value.Str?
    ensures titulo.Some? && Truthy(titulo.value) ==> t == titulo.value
  {
    if titulo.Some? && Truthy(titulo.value) then titulo.value else Str(nombre)
  }

  /** One read of `respuestas.json`: a status outside 200..299, a network
      or JSON error (both swallowed), or a parsed document. */
  datatype Poll = NotOk | Failed | Doc(data: Value)

  /** A read that ends the polling under title `t`: a document that passes
      the test and renders. When `renderResultado` throws inside the `try`,
      on the document or on the title, the `catch` swallows it and the loop
      goes on to the next read. */
  predicate Accepted(p: Poll, t: Value) {
    p.Doc? && Renders(p.data) && RenderCompletes(p.data) && TitleRenders(t)
  }

  /** A document whose `texto` is a number passes the test, but rendering
      it throws, so the poller reads again. */
  lemma NumericTextSkipped()
    ensures Renders(Obj(map["texto" := Num(5)]))
    ensures forall t :: !Accepted(Doc(Obj(map["texto" := Num(5)])), t)
  {
    var v := Obj(map["texto" := Num(5)]);
    assert FieldTruthy(v, "texto") && !v.fields["texto"].Str?;
  }

  /** What the polling ends in: the document shown and the attempt that
      read it, or the still-processing notice. */
  datatype Shown = Rendered(attempt: nat, data: Value) | StillProcessing

  /** The loop from attempt `i` on; `polls(i)` is the `i`-th read. */
  function WaitFrom(t: Value, polls: nat -> Poll, i: nat): (r: Shown)
    ensures r.Rendered? ==> i <= r.attempt < Intentos
    decreases Intentos - i
  {
    if i >= Intentos then StillProcessing
    else if Accepted(polls(i), t) then Rendered(i, polls(i).data)
    else WaitFrom(t, polls, i + 1)
  }

  /** `esperarYMostrarResultado(t)`. */
  function Esperar(t: Value, polls: nat -> Poll): (r: Shown)
    ensures r.Rendered? ==> r.attempt < Intentos && Accepted(polls(r.attempt), t) && polls(r.attempt).data == r.data
  {
    WaitFromSpec(t, polls, 0);
    WaitFrom(t, polls, 0)
  }

  lemma {:induction false} WaitFromSpec(t: Value, polls: nat -> Poll, i: nat)
    ensures var r := WaitFrom(t, polls, i);
            r.Rendered? ==> && Accepted(polls(r.attempt), t) && polls(r.attempt).data == r.data
                            && forall j :: i <= j < r.attempt ==> !Accepted(polls(j), t)
    ensures WaitFrom(t, polls, i).StillProcessing? <==> forall j :: i <= j < Intentos ==> !Accepted(polls(j), t)
    decreases Intentos - i
  {
    if i < Intentos && !Accepted(polls(i), t) {
      WaitFromSpec(t, polls, i + 1);
    }
  }

  /** The document shown is the first acceptable one among the 90 reads;
      the notice is shown exactly when none of them is acceptable. */
  lemma EsperarSpec(t: Value, polls: nat -> Poll)
    ensures var r := Esperar(t, polls);
            r.Rendered? ==> && r.attempt < Intentos && Accepted(polls(r.attempt), t)
                            && polls(r.attempt).data == r.data
                            && forall j :: 0 <= j < r.attempt ==> !Accepted(polls(j), t)
    ensures Esperar(t, polls).StillProcessing? <==> forall j :: 0 <= j < Intentos ==> !Accepted(polls(j), t)
  {
    WaitFromSpec(t, polls, 0);
  }

  /** A title that `escapeHtml` cannot take makes every rendering throw:
      nothing is shown, whatever the server publishes. */
  lemma {:induction false} BadTitleNeverShown(t: Value, polls: nat -> Poll, i: nat)
    requires !TitleRenders(t)
    ensures WaitFrom(t, polls, i) == StillProcessing
    decreases Intentos - i
  {
    if i < Intentos {
      BadTitleNeverShown(t, polls, i + 1);
    }
  }

  /** A command whose `titulo` is the number 7 never shows a response. */
  lemma NumericTitleTimesOut(nombre: string, polls: nat -> Poll)
    ensures Esperar(TitleArg(Some(Num(7)), nombre), polls) == StillProcessing
  {
    BadTitleNeverShown(Num(7), polls, 0);
  }

  /** Two sequences of reads that agree up to the first acceptable one end
      the same way: later reads are never looked at. */
  lemma {:induction false} WaitIgnoresLater(t: Value, p1: nat -> Poll, p2: nat -> Poll, i: nat, k: nat)
    requires i <= k < Intentos && Accepted(p1(k), t)
    requires forall j :: i <= j <= k ==> p1(j) == p2(j)
    ensures WaitFrom(t, p1, i) == WaitFrom(t, p2, i)
    decreases k - i
  {
    if i < k && !Accepted(p1(i), t) {
      WaitIgnoresLater(t, p1, p2, i + 1, k);
    }
  }

  /** A document is shown exactly when its text is non-empty or it lists
      a saved file. */
  lemma DocumentRenders(r: Reply)
    ensures Renders(Document(r)) <==> r.texto != [] || (r.OkReply? && |r.archivos| > 0)
    ensures RenderCompletes(Document(r))
  {
    var v := Document(r);
    if r.OkReply? {
      assert v.fields["archivos"] == Arr(StrList(r.archivos));
    } else {
      assert "archivos" !in v.fields;
    }
  }

  // ---------------------------------------------------------------------
  // The whole query

  /** The answer of the `/consulta` request: a status, or the message of
      a failed fetch. */
  datatype Sent = Responded(status: nat) | NetworkError(message: string)

  /** What the result zone ends up holding. */
  datatype Screen =
    | Warning(text: string)
    | QueryError(text: string)
    | Polled(shown: Shown)

  /** The command sent to `/consulta`, if any, and the final screen. */
  datatype Outcome = Outcome(sent: Option<string>, screen: Screen)

  /** `ejecutarConsulta(cmd)`, for a command with `nombre` and, when it has
      one, `titulo`. A failed fetch, or a status outside 200..299 turned
      into `Error("HTTP " + status)`, ends on the error screen with the
      error's message. */
  function EjecutarConsulta(nombre: string, titulo: Option<Value>, f: Form, answer: Sent, polls: nat -> Poll): (o: Outcome)
    ensures o.sent.Some? <==> BuildCommand(nombre, f).Success?
    ensures o.sent.Some? ==> StartsWith(o.sent.value, nombre + " ") && o.sent.value == BuildCommand(nombre, f).value
    ensures o.sent.Some? && answer.NetworkError? ==> o.screen == QueryError(QueryErrorPrefix + answer.message)
    ensures o.sent.Some? && answer.Responded? && !(200 <= answer.status <= 299) ==>
              o.screen == QueryError(QueryErrorPrefix + "HTTP " + NatToString(answer.status))
    ensures o.sent.Some? && answer.Responded? && 200 <= answer.status <= 299 ==>
              o.screen == Polled(Esperar(TitleArg(titulo, nombre), polls))
  {
    match BuildCommand(nombre, f)
    case Failure(e) => Outcome(None, Warning(e))
    case Success(cmd) =>
      var screen :=
        if answer.NetworkError? then QueryError(QueryErrorPrefix + answer.message)
        else if !(200 <= answer.status <= 299) then QueryError(QueryErrorPrefix + "HTTP " + NatToString(answer.status))
        else Polled(Esperar(TitleArg(titulo, nombre), polls));
      Outcome(Some(cmd), screen)
  }

  /** An incomplete form sends nothing and shows its warning, whatever the
      server would have answered. */
  lemma FormErrorSendsNothing(nombre: string, titulo: Option<Value>, f: Form, a1: Sent, a2: Sent, p1: nat -> Poll, p2: nat -> Poll)
    requires BuildCommand(nombre, f).Failure?
    ensures EjecutarConsulta(nombre, titulo, f, a1, p1) == EjecutarConsulta(nombre, titulo, f, a2, p2)
    ensures EjecutarConsulta(nombre, titulo, f, a1, p1) == Outcome(None, Warning(BuildCommand(nombre, f).error))
  {
  }

  /** Polling starts only after a 2xx answer to `/consulta`. */
  lemma PollsOnlyAfterOk(nombre: string, titulo: Option<Value>, f: Form, answer: Sent, polls: nat -> Poll)
    ensures (EjecutarConsulta(nombre, titulo, f, answer, polls).screen.Polled?
             <==> BuildCommand(nombre, f).Success? && answer.Responded? && 200 <= answer.status <= 299)
  {
  }

  lemma PaddedAna()
    ensures Strip(JavaScript, " Ana ") == "Ana"
  {
    var s := " Ana ";
    assert IsSpace(JavaScript, s[0]) && !IsSpace(JavaScript, s[1]);
    assert LeadingSpace(JavaScript, s[1..]) == 0;
    assert LeadingSpace(JavaScript, s) == 1;
    var r := Strip(JavaScript, s);
    StripEndsAfter(JavaScript, s, 3);
    assert |r| == 3;
    assert r == s[1..4];
  }

  lemma PlainStripped(s: string)
    requires s == "Paz" || s == "Soto"
    ensures Strip(JavaScript, s) == s
  {
    assert IsStripped(JavaScript, s);
    StrippedFixpoint(JavaScript, s);
  }

  /** Scenario: a `/nm` query with padded fields sends the trimmed fields. */
  lemma ScenarioNmQuery()
    ensures BuildCommand("/nm", Form(" Ana ", "Paz", "Soto", "")) == Success("/nm Ana|Paz|Soto")
  {
    ExactPrefixIsNm("/nm");
    NmQueryFields();
    BuildFromFields("/nm", Form(" Ana ", "Paz", "Soto", ""), "Ana", "Paz", "Soto");
    NmAnaPazSoto();
  }

  lemma NmQueryFields()
    ensures Strip(JavaScript, " Ana ") == "Ana" && Strip(JavaScript, "Paz") == "Paz" && Strip(JavaScript, "Soto") == "Soto"
  {
    PaddedAna();
    PlainStripped("Paz");
    PlainStripped("Soto");
  }

  /** A name command is built from the trimmed fields. */
  lemma BuildFromFields(nombre: string, f: Form, n: string, a1: string, a2: string)
    requires IsNmCommand(nombre)
    requires Strip(JavaScript, f.nombre) == n && Strip(JavaScript, f.ap1) == a1 && Strip(JavaScript, f.ap2) == a2
    ensures BuildCommand(nombre, f) == NmCommand(nombre, n, a1, a2)
  {
  }

  lemma NmAnaPazSoto()
    ensures NmCommand("/nm", "Ana", "Paz", "Soto") == Success("/nm Ana|Paz|Soto")
  {
    assert "/nm" + " " + "Ana" + "|" + "Paz" + "|" + "Soto" == "/nm Ana|Paz|Soto";
  }
}

=== FILE: frontend_render.dfy ===
/** `renderResultado` (Frontend/static/app.js): the answer text is trimmed,
    cleaned by `limpiarBloques` and split by `parsearPares`; the title, each
    row's label and value, the remaining lines, and the download buttons
    become HTML fragments. The model keeps the fragments, not the styling
    around them. */
module FrontendRender {
  import opened Wrappers
  import opened Strings
  import opened FrontendLines
  import opened FrontendMarkup

  // ---------------------------------------------------------------------
  // The whole answer

  /** The name a download button shows: what follows the last `/`. */
  function LastComponent(s: string): (r: string)
    ensures '/' !in r
  {
    var parts := Split(s, '/');
    parts[|parts| - 1]
  }

  /** A name with no `/` is its own last component. */
  lemma LastComponentPlain(s: string)
    requires '/' !in s
    ensures LastComponent(s) == s
  {
    SplitJoin([s], '/');
  }

  /** The last component is a suffix of the stored path. */
  lemma LastComponentSuffix(s: string)
    ensures SuffixOf(LastComponent(s), s)
  {
    JoinLastSuffix(Split(s, '/'), "/");
  }

  /** `x` is what is left of `j` after some prefix. */
  predicate SuffixOf(x: string, j: string) {
    exists k :: 0 <= k <= |j| && x == j[k..]
  }

  lemma {:induction false} JoinLastSuffix(parts: seq<string>, sep: string)
    requires |parts| >= 1
    ensures SuffixOf(parts[|parts| - 1], Join(parts, sep))
  {
    var j := Join(parts, sep);
    if |parts| == 1 {
      assert parts[0] == j[0..];
    } else {
      JoinLastSuffix(parts[1..], sep);
      var rest := Join(parts[1..], sep);
      var k :| 0 <= k <= |rest| && parts[1..][|parts| - 2] == rest[k..];
      assert parts[1..][|parts| - 2] == parts[|parts| - 1];
      var h := parts[0] + sep;
      assert j == h + rest;
      assert j[|h| + k..] == rest[k..];
      assert 0 <= |h| + k <= |j| && parts[|parts| - 1] == j[|h| + k..];
    }
  }

  function LastComponents(ps: seq<string>): (r: seq<string>)
    ensures |r| == |ps|
    ensures forall i :: 0 <= i < |ps| ==> r[i] == LastComponent(ps[i])
  {
    if |ps| == 0 then [] else [LastComponent(ps[0])] + LastComponents(ps[1..])
  }

  /** The buttons: one per entry of `archivos` when it is non-empty, else
      one for a non-empty `archivo`, else none. */
  function ButtonNames(archivos: seq<string>, archivo: Option<string>): (r: seq<string>)
    ensures |archivos| > 0 ==> |r| == |archivos|
    ensures forall i :: 0 <= i < |r| ==> '/' !in r[i]
  {
    if |archivos| > 0 then LastComponents(archivos)
    else if archivo.Some? && archivo.value != [] then [LastComponent(archivo.value)]
    else []
  }

  /** Saved file names, which hold no `/`, are shown unchanged, one button
      per file in order. */
  lemma ButtonNamesPlain(archivos: seq<string>, archivo: Option<string>)
    requires |archivos| > 0
    requires forall i :: 0 <= i < |archivos| ==> '/' !in archivos[i]
    ensures ButtonNames(archivos, archivo) == archivos
  {
    forall i | 0 <= i < |archivos| ensures ButtonNames(archivos, archivo)[i] == archivos[i] {
      LastComponentPlain(archivos[i]);
    }
  }

  /** One table row: the label cell and the value cell. */
  datatype Cell = Cell(key: string, value: string)

  /** The fragments of a rendered answer: the title, the table rows, the
      block of remaining lines when there are any, the button names. */
  datatype View = View(title: string, cells: seq<Cell>, others: Option<string>, buttons: seq<string>)

  function Cells(rows: seq<Row>, format: string -> string): (r: seq<Cell>)
    ensures |r| == |rows|
    ensures forall i :: 0 <= i < |rows| ==> r[i] == Cell(LabelCell(rows[i].key), format(rows[i].value))
  {
    if |rows| == 0 then [] else [Cell(LabelCell(rows[0].key), format(rows[0].value))] + Cells(rows[1..], format)
  }

  /** The rows and remaining lines the answer text splits into. */
  function Parse(texto: string): Pares {
    ParsearPares(LimpiarBloques(Strip(JavaScript, texto)))
  }

  /** The view, with `format` applied to each value and `block` to the
      remaining lines. */
  function Build(texto: string, titulo: string, archivos: seq<string>, archivo: Option<string>,
                 format: string -> string, block: seq<string> -> string): (v: View)
    ensures var p := Parse(texto);
            && v.title == Title(titulo)
            && |v.cells| == |p.rows|
            && (forall i :: 0 <= i < |p.rows| ==>
                  v.cells[i] == Cell(LabelCell(p.rows[i].key), format(p.rows[i].value)))
            && (v.others.Some? <==> |p.others| > 0)
            && (v.others.Some? ==> v.others.value == block(p.others))
            && v.buttons == ButtonNames(archivos, archivo)
  {
    var p := Parse(texto);
    View(Title(titulo),
         Cells(p.rows, format),
         if |p.others| > 0 then Some(block(p.others)) else None,
         ButtonNames(archivos, archivo))
  }

  /** `renderResultado` as written. */
  function RenderResultado(texto: string, titulo: string, archivos: seq<string>, archivo: Option<string>): (v: View)
    ensures var p := Parse(texto);
            && v.title == Title(titulo)
            && |v.cells| == |p.rows|
            && (forall i :: 0 <= i < |p.rows| ==> v.cells[i].value == ValueCell(p.rows[i].value))
            && (v.others.Some? <==> |p.others| > 0)
            && v.buttons == ButtonNames(archivos, archivo)
  {
    Build(texto, titulo, archivos, archivo, ValueCell, OthersBlock)
  }

  /** The remaining lines through the one-pass formatter. */
  function SafeBlock(others: seq<string>): string {
    SafeMarkup(Strip(JavaScript, Join(others, "\n")))
  }

  /** `renderResultado` with values and remaining lines formatted in one
      pass. */
  function RenderSafe(texto: string, titulo: string, archivos: seq<string>, archivo: Option<string>): View {
    Build(texto, titulo, archivos, archivo, SafeMarkup, SafeBlock)
  }

  /** Every fragment whose HTML is built from answer text. */
  predicate ViewSafe(v: View) {
    && TagsOnly(v.title)
    && (forall i :: 0 <= i < |v.cells| ==> TagsOnly(v.cells[i].key) && TagsOnly(v.cells[i].value))
    && (v.others.Some? ==> TagsOnly(v.others.value))
  }

  /** As written, the title, the labels and the remaining lines can only
      carry `strong` and `code`; each value cell is the row's value through
      the two rewrites, unescaped. */
  lemma RenderResultadoSafeExceptValues(texto: string, titulo: string, archivos: seq<string>, archivo: Option<string>)
    ensures var v := RenderResultado(texto, titulo, archivos, archivo);
            var p := Parse(texto);
            && TagsOnly(v.title)
            && (forall i :: 0 <= i < |v.cells| ==> TagsOnly(v.cells[i].key))
            && (forall i :: 0 <= i < |v.cells| ==> v.cells[i].value == ValueCell(p.rows[i].value))
            && (v.others.Some? ==> TagsOnly(v.others.value))
  {
  }

  /** With the one-pass formatter every fragment is safe, whatever the
      answer text. */
  lemma RenderSafeIsSafe(texto: string, titulo: string, archivos: seq<string>, archivo: Option<string>)
    ensures ViewSafe(RenderSafe(texto, titulo, archivos, archivo))
  {
    var v := RenderSafe(texto, titulo, archivos, archivo);
    var p := Parse(texto);
    assert v.cells == Cells(p.rows, SafeMarkup);
    SafeCells(p.rows);
    if v.others.Some? {
      SafeMarkupTagsOnly(Strip(JavaScript, Join(p.others, "\n")));
    }
  }

  /** Every cell the one-pass formatter fills carries only the two tags. */
  lemma SafeCells(rows: seq<Row>)
    ensures forall i :: 0 <= i < |rows| ==>
              TagsOnly(Cells(rows, SafeMarkup)[i].key) && TagsOnly(Cells(rows, SafeMarkup)[i].value)
  {
    var c := Cells(rows, SafeMarkup);
    forall i | 0 <= i < |rows| ensures TagsOnly(c[i].key) && TagsOnly(c[i].value) {
      SafeMarkupTagsOnly(rows[i].value);
    }
  }
}

=== FILE: frontend_text.dfy ===
/** The text formatters of Frontend/static/app.js: `escapeHtml`, and the two
    markup rewrites `mdBoldToStrong` (`**x**` to `<strong>`) and
    `inlineCodeToCode` (`` `x` `` to `<code>`), which scan left to right as
    a global `String.replace` does, trying a match at each position. */
module FrontendText {
  import opened Wrappers
  import opened Strings

  /** The characters `escapeHtml` replaces. */
  predicate IsHtmlSpecial(c: char) {
    c == '&' || c == '<' || c == '>' || c == '"' || c == '\'' || c == '`'
  }

  /** The six entities, in the order the replacement table lists them. */
  const Entities: seq<string> := ["&amp;", "&lt;", "&gt;", "&quot;", "&#39;", "&#96;"]
  const Specials: seq<char> := ['&', '<', '>', '"', '\'', '`']

  /** The position of `c` in the replacement table, or 6 when `c` is not
      replaced. */
  function SpecialIndex(c: char): (k: nat)
    ensures k <= 6
    ensures k < 6 <==> IsHtmlSpecial(c)
    ensures k < 6 ==> Specials[k] == c
  {
    if c == '&' then 0
    else if c == '<' then 1
    else if c == '>' then 2
    else if c == '"' then 3
    else if c == '\'' then 4
    else if c == '`' then 5
    else 6
  }

  /** The replacement of one character. */
  function Escape(c: char): string {
    if c == '&' then "&amp;"
    else if c == '<' then "&lt;"
    else if c == '>' then "&gt;"
    else if c == '"' then "&quot;"
    else if c == '\'' then "&#39;"
    else if c == '`' then "&#96;"
    else [c]
  }

  /** A special character is replaced by its entry in the table. */
  lemma EscapeIsEntity(c: char)
    ensures SpecialIndex(c) < 6 ==> Escape(c) == Entities[SpecialIndex(c)]
    ensures SpecialIndex(c) == 6 ==> Escape(c) == [c]
  {
  }

  /** `escapeHtml(s)`; the empty string (JavaScript's only falsy string)
      gives the empty string. */
  function EscapeHtml(s: string): (r: string)
    ensures |r| >= |s|
    ensures s == [] ==> r == []
  {
    if |s| == 0 then [] else Escape(s[0]) + EscapeHtml(s[1..])
  }

  /** No special character survives escaping except the `&` of an entity. */
  lemma {:induction false} EscapeHtmlChars(s: string)
    ensures forall i :: 0 <= i < |EscapeHtml(s)| ==> EscapeHtml(s)[i] == '&' || !IsHtmlSpecial(EscapeHtml(s)[i])
  {
    if |s| > 0 {
      var e := Escape(s[0]);
      var rest := EscapeHtml(s[1..]);
      EscapeHtmlChars(s[1..]);
      assert EscapeHtml(s) == e + rest;
      forall i | 0 <= i < |e + rest| ensures (e + rest)[i] == '&' || !IsHtmlSpecial((e + rest)[i]) {
        if i >= |e| {
          assert (e + rest)[i] == rest[i - |e|];
        }
      }
    }
  }

  /** The first of the six entities, from position `k` of the table on,
      that `t` starts with. */
  function FirstEntity(t: string, k: nat): (r: Option<nat>)
    requires k <= 6
    ensures r.Some? ==> k <= r.value < 6 && StartsWith(t, Entities[r.value])
    ensures r.None? ==> forall j :: k <= j < 6 ==> !StartsWith(t, Entities[j])
    decreases 6 - k
  {
    if k == 6 then None
    else if StartsWith(t, Entities[k]) then Some(k)
    else FirstEntity(t, k + 1)
  }

  /** Decodes escaped text: None unless every `&` begins one of the six
      entities and no other special character occurs raw. */
  function Unescape(t: string): Option<string>
    decreases |t|
  {
    if |t| == 0 then Some([])
    else if t[0] == '&' then
      match FirstEntity(t, 0)
      case None => None
      case Some(k) =>
        match Unescape(t[|Entities[k]|..])
        case None => None
        case Some(u) => Some([Specials[k]] + u)
    else if IsHtmlSpecial(t[0]) then None
    else
      match Unescape(t[1..])
      case None => None
      case Some(u) => Some([t[0]] + u)
  }

  /** No entity is a prefix of text starting with another. */
  lemma EntityFirst(k: nat, rest: string)
    requires k < 6
    ensures FirstEntity(Entities[k] + rest, 0) == Some(k)
  {
    var t := Entities[k] + rest;
    assert t[..|Entities[k]|] == Entities[k];
    if k == 0 {
    } else if k == 1 {
      assert t[1] == 'l';
    } else if k == 2 {
      assert t[1] == 'g';
    } else if k == 3 {
      assert t[1] == 'q';
    } else if k == 4 {
      assert t[1] == '#' && t[2] == '3';
    } else {
      assert t[1] == '#' && t[2] == '9';
    }
  }

  lemma UnescapeCons(c: char, rest: string)
    ensures Unescape(Escape(c) + rest) == (if Unescape(rest).Some? then Some([c] + Unescape(rest).value) else None)
  {
    var t := Escape(c) + rest;
    var k := SpecialIndex(c);
    EscapeIsEntity(c);
    if k < 6 {
      EntityFirst(k, rest);
      assert t[|Entities[k]|..] == rest;
    } else {
      assert t[0] == c;
      assert t[1..] == rest;
    }
  }

  /** Escaping loses nothing: unescaping gives back the input. */
  lemma {:induction false} EscapeRoundTrip(s: string)
    ensures Unescape(EscapeHtml(s)) == Some(s)
  {
    if |s| > 0 {
      EscapeRoundTrip(s[1..]);
      UnescapeCons(s[0], EscapeHtml(s[1..]));
      assert [s[0]] + s[1..] == s;
    }
  }

  /** Position `i` of `t` begins one of the six entities. */
  predicate BeginsEntity(t: string, i: nat)
    requires i <= |t|
  {
    exists k :: 0 <= k < 6 && StartsWith(t[i..], Entities[k])
  }

  /** Every `&` in escaped text begins one of the six entities. */
  lemma {:induction false} AmpersandsBeginEntities(s: string)
    ensures forall i :: 0 <= i < |EscapeHtml(s)| && EscapeHtml(s)[i] == '&' ==> BeginsEntity(EscapeHtml(s), i)
  {
    if |s| > 0 {
      var e := Escape(s[0]);
      var rest := EscapeHtml(s[1..]);
      var r := EscapeHtml(s);
      assert r == e + rest;
      AmpersandsBeginEntities(s[1..]);
      assert forall j :: 0 <= j < |rest| && rest[j] == '&' ==> BeginsEntity(rest, j);
      EscapeIsEntity(s[0]);
      forall i | 0 <= i < |r| && r[i] == '&' ensures BeginsEntity(r, i) {
        var k := SpecialIndex(s[0]);
        if i < |e| {
          assert k < 6 && i == 0;
          assert r[0..][..|e|] == e;
        } else {
          assert r[i] == rest[i - |e|] == '&';
          var k :| 0 <= k < 6 && StartsWith(rest[i - |e|..], Entities[k]);
          assert r[i..] == rest[i - |e|..];
        }
      }
    }
  }

  /** Text without special characters is left as it is. */
  lemma {:induction false} EscapePlain(s: string)
    requires forall i :: 0 <= i < |s| ==> !IsHtmlSpecial(s[i])
    ensures EscapeHtml(s) == s
  {
    if |s| > 0 {
      EscapePlain(s[1..]);
      assert [s[0]] + s[1..] == s;
    }
  }

  // ---------------------------------------------------------------------
  // `**bold**`

  /** `t` has `**` at position `j`. */
  predicate StarsAt(t: string, j: nat) {
    j + 2 <= |t| && t[j] == '*' && t[j + 1] == '*'
  }

  /** The end of the lazy `(.+?)` group of a `**` pair whose group already
      covers `t[..q]`: the first `**` at or after `q`, provided no line
      terminator comes before it. */
  function BoldClose(t: string, q: nat): (r: Option<nat>)
    ensures r.Some? ==> q <= r.value && StarsAt(t, r.value)
    decreases |t| - q
  {
    if q + 2 > |t| then None
    else if StarsAt(t, q) then Some(q)
    else if IsLineTerminator(t[q]) then None
    else BoldClose(t, q + 1)
  }

  /** The closing `**` found is the first one, with no line terminator
      before it; when none is found, every later `**` has a line terminator
      before it. */
  lemma {:induction false} BoldCloseFirst(t: string, q: nat)
    ensures var r := BoldClose(t, q);
            r.Some? ==> forall j :: q <= j < r.value ==> !IsLineTerminator(t[j]) && !StarsAt(t, j)
    ensures BoldClose(t, q).None? ==> forall j :: q <= j && StarsAt(t, j) ==>
                                        exists l :: q <= l < j && IsLineTerminator(t[l])
    decreases |t| - q
  {
    if q + 2 <= |t| && !StarsAt(t, q) && !IsLineTerminator(t[q]) {
      BoldCloseFirst(t, q + 1);
    }
  }

  /** The match of `\*\*(.+?)\*\*` starting at `p`: where its closing `**`
      begins. */
  function BoldAt(t: string, p: nat): (r: Option<nat>)
    ensures r.Some? ==> p + 3 <= r.value && r.value + 2 <= |t|
  {
    if p + 3 <= |t| && StarsAt(t, p) && !IsLineTerminator(t[p + 2]) then BoldClose(t, p + 3)
    else None
  }

  function Strong(group: string): string {
    "<strong>" + EscapeHtml(group) + "</strong>"
  }

  /** The replacement scan from position `p`. */
  function Bold(t: string, p: nat): string
    decreases |t| - p
  {
    if p >= |t| then []
    else
      var b := BoldAt(t, p);
      if b.Some? then Strong(t[p + 2..b.value]) + Bold(t, b.value + 2)
      else [t[p]] + Bold(t, p + 1)
  }

  /** `mdBoldToStrong(text)`. */
  function MdBoldToStrong(t: string): (r: string)
    ensures '*' !in t ==> r == t
  {
    BoldNoStar(t);
    Bold(t, 0)
  }

  /** Without a star there is nothing to rewrite. */
  lemma BoldNoStar(t: string)
    ensures '*' !in t ==> Bold(t, 0) == t
  {
    if '*' !in t {
      forall p | 0 <= p < |t| ensures BoldAt(t, p).None? {
      }
      BoldSkip(t, 0, |t|);
    }
  }

  /** Positions without a match are copied as they are. */
  lemma {:induction false} BoldSkip(t: string, k: nat, p: nat)
    requires k <= p <= |t|
    requires forall j :: k <= j < p ==> BoldAt(t, j).None?
    ensures Bold(t, k) == t[k..p] + Bold(t, p)
    decreases p - k
  {
    if k < p {
      BoldSkip(t, k + 1, p);
      BoldStep(t, k);
      ConsSlice(t, k, p, Bold(t, p));
    }
  }

  /** A position without a match copies its character. */
  lemma BoldStep(t: string, k: nat)
    requires k < |t| && BoldAt(t, k).None?
    ensures Bold(t, k) == [t[k]] + Bold(t, k + 1)
  {
  }

  /** A position where a match starts emits the `<strong>` element and
      resumes after the closing `**`. */
  lemma BoldMatchStep(t: string, p: nat, q: nat)
    requires p < |t| && BoldAt(t, p) == Some(q)
    ensures Bold(t, p) == Strong(t[p + 2..q]) + Bold(t, q + 2)
  {
  }

  /** Peeling the first character off a slice followed by a tail. */
  lemma ConsSlice(t: string, k: nat, p: nat, tail: string)
    requires k < p <= |t|
    ensures [t[k]] + (t[k + 1..p] + tail) == t[k..p] + tail
  {
    assert t[k..p] == [t[k]] + t[k + 1..p];
  }

  /** Text with no `**…**` pair is returned unchanged. */
  lemma BoldUnchanged(t: string)
    requires forall p :: 0 <= p < |t| ==> BoldAt(t, p).None?
    ensures MdBoldToStrong(t) == t
  {
    BoldSkip(t, 0, |t|);
  }

  /** The first pair is replaced by a `<strong>` element holding its escaped
      content, and the text before it is kept. */
  lemma BoldFirstPair(t: string, p: nat)
    requires p < |t| && BoldAt(t, p).Some?
    requires forall j :: 0 <= j < p ==> BoldAt(t, j).None?
    ensures var q := BoldAt(t, p).value;
            MdBoldToStrong(t) == t[..p] + Strong(t[p + 2..q]) + Bold(t, q + 2)
  {
    var q := BoldAt(t, p).value;
    var x, y := Strong(t[p + 2..q]), Bold(t, q + 2);
    BoldSkip(t, 0, p);
    BoldMatchStep(t, p, q);
    assert t[0..p] == t[..p];
    assert t[..p] + (x + y) == t[..p] + x + y;
  }

  // ---------------------------------------------------------------------
  // `` `code` ``

  /** The first backtick at or after `q`. */
  function NextTick(t: string, q: nat): (r: Option<nat>)
    ensures r.Some? ==> q <= r.value < |t| && t[r.value] == '`'
    decreases |t| - q
  {
    if q >= |t| then None
    else if t[q] == '`' then Some(q)
    else NextTick(t, q + 1)
  }

  /** The backtick found is the first one; when none is found there is
      none. */
  lemma {:induction false} NextTickFirst(t: string, q: nat)
    ensures NextTick(t, q).Some? ==> forall j :: q <= j < NextTick(t, q).value ==> t[j] != '`'
    ensures NextTick(t, q).None? ==> forall j :: q <= j < |t| ==> t[j] != '`'
    decreases |t| - q
  {
    if q < |t| && t[q] != '`' {
      NextTickFirst(t, q + 1);
    }
  }

  /** The match of `` `([^`]+?)` `` starting at `p`: where its closing
      backtick is. */
  function CodeAt(t: string, p: nat): (r: Option<nat>)
    ensures r.Some? ==> p + 2 <= r.value < |t|
  {
    if p + 2 <= |t| && t[p] == '`' && t[p + 1] != '`' then NextTick(t, p + 2) else None
  }

  function CodeElem(group: string): string {
    "<code>" + EscapeHtml(group) + "</code>"
  }

  function Code(t: string, p: nat): string
    decreases |t| - p
  {
    if p >= |t| then []
    else
      var c := CodeAt(t, p);
      if c.Some? then CodeElem(t[p + 1..c.value]) + Code(t, c.value + 1)
      else [t[p]] + Code(t, p + 1)
  }

  /** `inlineCodeToCode(text)`. */
  function InlineCodeToCode(t: string): (r: string)
    ensures '`' !in t ==> r == t
  {
    CodeNoTick(t);
    Code(t, 0)
  }

  /** Without a backtick there is nothing to rewrite. */
  lemma CodeNoTick(t: string)
    ensures '`' !in t ==> Code(t, 0) == t
  {
    if '`' !in t {
      forall p | 0 <= p < |t| ensures CodeAt(t, p).None? {
      }
      CodeSkip(t, 0, |t|);
    }
  }

  lemma {:induction false} CodeSkip(t: string, k: nat, p: nat)
    requires k <= p <= |t|
    requires forall j :: k <= j < p ==> CodeAt(t, j).None?
    ensures Code(t, k) == t[k..p] + Code(t, p)
    decreases p - k
  {
    if k < p {
      CodeSkip(t, k + 1, p);
      CodeStep(t, k);
      ConsSlice(t, k, p, Code(t, p));
    }
  }

  /** A position without a match copies its character. */
  lemma CodeStep(t: string, k: nat)
    requires k < |t| && CodeAt(t, k).None?
    ensures Code(t, k) == [t[k]] + Code(t, k + 1)
  {
  }

  /** Text with no backtick pair is returned unchanged. */
  lemma CodeUnchanged(t: string)
    requires forall p :: 0 <= p < |t| ==> CodeAt(t, p).None?
    ensures InlineCodeToCode(t) == t
  {
    CodeSkip(t, 0, |t|);
  }

  /** A pair of backticks around a non-empty run is a match: the text has a
      pair exactly when some backtick is followed, after at least one other
      character, by another. */
  lemma CodePairExists(t: string, p: nat)
    requires p + 2 <= |t| && t[p] == '`' && t[p + 1] != '`'
    ensures CodeAt(t, p).Some? <==> exists j :: p + 2 <= j < |t| && t[j] == '`'
  {
    NextTickFirst(t, p + 2);
  }
}

=== FILE: janitor.dfy ===
/** `limpiar_temp_files` (Backend/bot_handler.py), run at the start of every
    dispatch: regular files in the temp directory whose modification time is
    more than a day old are deleted. The first exception is logged and ends
    the sweep, so a file that cannot be removed shields every entry listed
    after it. Times are in seconds on the same clock as `now`. */
module Janitor {

  const DaySeconds: int := 86400

  /** One directory entry as `os.listdir` lists it: whether it is a regular
      file, its modification time, and whether `os.remove` succeeds on it. */
  datatype Entry = Entry(name: string, isFile: bool, mtime: int, removable: bool)

  /** `limite`. */
  function Cutoff(now: int): int {
    now - DaySeconds
  }

  /** The entry is a regular file last modified before the cutoff. */
  predicate Stale(now: int, e: Entry) {
    e.isFile && e.mtime < Cutoff(now)
  }

  /** The entries left after one sweep, in listing order. */
  function Sweep(now: int, es: seq<Entry>): (r: seq<Entry>)
    ensures |r| <= |es|
    ensures forall i :: 0 <= i < |es| && !Stale(now, es[i]) ==> es[i] in r
    ensures forall e :: e in r ==> e in es
  {
    if |es| == 0 then []
    else
      var e := es[0];
      var rest := Sweep(now, es[1..]);
      assert forall i :: 1 <= i < |es| ==> es[i] == es[1..][i - 1];
      if Stale(now, e) then
        if e.removable then rest else es
      else [e] + rest
  }

  /** The reference: the entries that are not stale, in order. */
  function Keep(now: int, es: seq<Entry>): (r: seq<Entry>)
    ensures forall e :: e in r <==> e in es && !Stale(now, e)
  {
    if |es| == 0 then []
    else
      var rest := Keep(now, es[1..]);
      assert forall e :: e in es <==> e == es[0] || e in es[1..];
      if Stale(now, es[0]) then rest else [es[0]] + rest
  }

  /** Every stale entry can be removed. */
  predicate NoFailure(now: int, es: seq<Entry>) {
    forall i :: 0 <= i < |es| && Stale(now, es[i]) ==> es[i].removable
  }

  /** When every removal succeeds, the sweep keeps exactly the entries that
      are not stale: directories and recent files. */
  lemma {:induction false} SweepIsKeep(now: int, es: seq<Entry>)
    requires NoFailure(now, es)
    ensures Sweep(now, es) == Keep(now, es)
  {
    if |es| > 0 {
      assert NoFailure(now, es[1..]) by {
        forall i | 0 <= i < |es[1..]| && Stale(now, es[1..][i]) ensures es[1..][i].removable {
          assert es[1..][i] == es[i + 1];
        }
      }
      SweepIsKeep(now, es[1..]);
    }
  }

  /** The first stale entry that cannot be removed ends the sweep: the
      entries before it are filtered, it and everything after it stay. */
  lemma {:induction false} SweepStopsAtFailure(now: int, es: seq<Entry>, i: nat)
    requires i < |es| && Stale(now, es[i]) && !es[i].removable
    requires NoFailure(now, es[..i])
    ensures Sweep(now, es) == Keep(now, es[..i]) + es[i..]
  {
    if i > 0 {
      var before := es[1..][..i - 1];
      assert before == es[..i][1..];
      assert es[1..][i - 1..] == es[i..];
      assert NoFailure(now, before) by {
        forall t | 0 <= t < i - 1 && Stale(now, before[t]) ensures before[t].removable {
          assert before[t] == es[..i][t + 1];
        }
      }
      SweepStopsAtFailure(now, es[1..], i - 1);
      assert es[..i][0] == es[0];
    }
  }

  /** Sweeping twice at the same moment removes nothing more. */
  lemma {:induction false} SweepIdempotent(now: int, es: seq<Entry>)
    ensures Sweep(now, Sweep(now, es)) == Sweep(now, es)
  {
    if |es| > 0 {
      var e := es[0];
      if Stale(now, e) {
        if e.removable {
          SweepIdempotent(now, es[1..]);
        }
      } else {
        SweepIdempotent(now, es[1..]);
        var rest := Sweep(now, es[1..]);
        assert ([e] + rest)[0] == e && ([e] + rest)[1..] == rest;
      }
    }
  }

  /** Sweeping later never keeps a file an earlier sweep deleted, provided
      removals succeed: the set of kept entries only shrinks as time passes. */
  lemma {:induction false} SweepMonotone(now1: int, now2: int, es: seq<Entry>)
    requires now1 <= now2
    requires NoFailure(now2, es)
    ensures forall e :: e in Sweep(now2, es) ==> e in Sweep(now1, es)
  {
    assert NoFailure(now1, es) by {
      forall i | 0 <= i < |es| && Stale(now1, es[i]) ensures es[i].removable {
        assert Stale(now2, es[i]);
      }
    }
    SweepIsKeep(now1, es);
    SweepIsKeep(now2, es);
  }
}

=== FILE: messages.dfy ===
/** The chat messages the bot peer sends back, as the correlation engine in
    Backend/bot_handler.py reads them from Telethon. */
module Messages {
  import opened Wrappers

  /** An attachment. `ext` is the extension Telethon reports for it
      (`msg.file.ext`), and is empty when there is no `file` or it has no
      extension. */
  datatype Media = Media(ext: string)

  /** One message of the conversation with the bot. `id` grows with every
      message of the peer; `text` is empty when the message carries no text. */
  datatype Message = Message(id: int, text: string, media: Option<Media>)

  /** The set of ids of a list of messages. */
  function Ids(ms: seq<Message>): set<int> {
    set m | m in ms :: m.id
  }

  /** A list has no ids exactly when it is empty. */
  lemma IdsEmpty(ms: seq<Message>)
    ensures Ids(ms) == {} <==> |ms| == 0
  {
    if |ms| > 0 {
      assert ms[0].id in Ids(ms);
    }
  }

  /** No two positions carry the same id. */
  predicate DistinctIds(ms: seq<Message>) {
    forall i, j :: 0 <= i < j < |ms| ==> ms[i].id != ms[j].id
  }

  /** Ids strictly increase along the list. */
  predicate StrictlyAscending(ms: seq<Message>) {
    forall i, j :: 0 <= i < j < |ms| ==> ms[i].id < ms[j].id
  }
}

=== FILE: ordering.dfy ===
/** `sorted(mensajes_capturados, key=lambda m: m.id)` in
    Backend/bot_handler.py: the captured messages in chronological order. */
module Ordering {
  import opened Messages

  /** Ids never decrease along the list. */
  predicate SortedById(ms: seq<Message>) {
    forall i, j :: 0 <= i < j < |ms| ==> ms[i].id <= ms[j].id
  }

  /** Inserts `m` into an id-sorted list, after every message whose id is not
      larger (so equal ids keep their order, as Python's stable sort does). */
  function Insert(m: Message, s: seq<Message>): (r: seq<Message>)
    requires SortedById(s)
    ensures SortedById(r)
    ensures multiset(r) == multiset(s) + multiset{m}
    decreases |s|
  {
    if |s| == 0 then [m]
    else if m.id < s[0].id then [m] + s
    else
      var tail := Insert(m, s[1..]);
      assert s == [s[0]] + s[1..];
      assert forall x :: x in tail ==> x.id >= s[0].id by {
        forall x | x in tail ensures x.id >= s[0].id {
          assert x in multiset(tail);
          if x != m {
            assert x in multiset(s[1..]);
          }
        }
      }
      [s[0]] + tail
  }

  /** The captured messages ordered by id: a permutation of the input with
      ids in non-decreasing order. */
  function SortById(ms: seq<Message>): (r: seq<Message>)
    ensures SortedById(r)
    ensures multiset(r) == multiset(ms)
    decreases |ms|
  {
    if |ms| == 0 then []
    else
      assert ms == ms[..|ms| - 1] + [ms[|ms| - 1]];
      Insert(ms[|ms| - 1], SortById(ms[..|ms| - 1]))
  }

  /** A permutation of messages with pairwise distinct ids has pairwise
      distinct ids. */
  lemma DistinctIdsPermutation(a: seq<Message>, b: seq<Message>)
    requires multiset(a) == multiset(b)
    requires DistinctIds(a)
    ensures DistinctIds(b)
  {
    forall i, j | 0 <= i < j < |b| ensures b[i].id != b[j].id {
      if b[i].id == b[j].id {
        assert b[i] in multiset(a) && b[j] in multiset(a);
        var p :| 0 <= p < |a| && a[p] == b[i];
        var q :| 0 <= q < |a| && a[q] == b[j];
        if p == q {
          assert b[i] == b[j];
          assert multiset(b)[b[i]] >= 2 by {
            assert b == b[..i] + [b[i]] + b[i + 1..j] + [b[j]] + b[j + 1..];
          }
          assert multiset(a)[a[p]] >= 2;
          CountTwice(a, p);
        }
      }
    }
  }

  /** In a list with distinct ids every message occurs once. */
  lemma CountTwice(a: seq<Message>, p: nat)
    requires DistinctIds(a) && p < |a|
    ensures multiset(a)[a[p]] == 1
  {
    assert a == a[..p] + [a[p]] + a[p + 1..];
    assert a[p] !in a[..p] by {
      forall x | x in a[..p] ensures x != a[p] {
        var k :| 0 <= k < p && a[..p][k] == x;
        assert x == a[k];
      }
    }
    var tail := a[p + 1..];
    assert a[p] !in tail by {
      forall x | x in tail ensures x != a[p] {
        var k :| 0 <= k < |tail| && tail[k] == x;
        assert x == a[p + 1 + k];
      }
    }
  }

  /** Captured messages have distinct ids, so the sorted list is in strictly
      ascending id order, whatever order the fetches returned them in. */
  lemma SortStrict(ms: seq<Message>)
    requires DistinctIds(ms)
    ensures StrictlyAscending(SortById(ms))
  {
    var r := SortById(ms);
    DistinctIdsPermutation(ms, r);
  }
}

=== FILE: polling.dfy ===
/** The capture half of `enviar_comando` (Backend/bot_handler.py): the
    watermark taken before the command is sent, and the poll loop that
    collects the bot's new messages until five are captured or 90 seconds
    have passed. Every `get_messages` call is an input: `fetch(k)` is what the
    k-th poll round received and how long that round took beyond its sleep. */
module Polling {
  import opened Wrappers
  import opened Messages

  /** The loop runs while fewer than 90 s have elapsed (milliseconds here). */
  const TimeoutMs: nat := 90000
  /** Every round starts with a 5 s sleep. */
  const IntervalMs: nat := 5000
  /** Capture cap, checked after each round. */
  const MaxMessages: nat := 5
  /** `get_messages(BOT_USERNAME, limit=20)` returns at most 20 messages. */
  const FetchLimit: nat := 20
  /** TimeoutMs / IntervalMs: the most rounds that can start in time. */
  const MaxRounds: nat := 18

  /** The watermark: the id of the newest message before sending, or 0 when
      the peer has no history or the fetch raised (`latest` is None). */
  function Watermark(latest: Option<seq<Message>>): (lastId: int)
    ensures latest.Some? && |latest.value| > 0 ==> lastId == latest.value[0].id
    ensures latest.None? || |latest.value| == 0 ==> lastId == 0
  {
    match latest
    case Some(ms) => if |ms| > 0 then ms[0].id else 0
    case None => 0
  }

  /** One poll round: `latencyMs` is the time the round took beyond its 5 s
      sleep; `result` is None when `get_messages` raised. */
  datatype Fetch = Fetch(latencyMs: nat, result: Option<seq<Message>>)

  /** A failed fetch counts as an empty batch. */
  function Received(f: Fetch): seq<Message> {
    f.result.GetOr([])
  }

  /** `mensajes_capturados` and `seen_ids`. */
  datatype PollState = PollState(captured: seq<Message>, seen: set<int>)

  const Empty: PollState := PollState([], {})

  /** The acceptance test applied to every fetched message. */
  predicate Eligible(m: Message, lastId: int, seen: set<int>) {
    m.id != 0 && m.id > lastId && m.id !in seen
  }

  /** Captured ids are pairwise distinct, all above the watermark, and
      `seen_ids` is exactly the set of captured ids. */
  predicate Inv(lastId: int, st: PollState) {
    && DistinctIds(st.captured)
    && (forall i :: 0 <= i < |st.captured| ==> st.captured[i].id > lastId)
    && st.seen == Ids(st.captured)
  }

  /** The ids of a batch that pass the id test, ignoring what was seen. */
  function NewIds(batch: seq<Message>, lastId: int): set<int> {
    set m | m in batch && m.id != 0 && m.id > lastId :: m.id
  }

  /** The body of the inner `for msg in recientes` loop for one message. */
  function Accept(lastId: int, st: PollState, m: Message): (r: PollState)
    ensures r.captured == st.captured || r.captured == st.captured + [m]
  {
    if Eligible(m, lastId, st.seen) then PollState(st.captured + [m], st.seen + {m.id})
    else st
  }

  /** Accepting a message keeps the invariant and adds its id exactly when
      it passes the id test. */
  lemma AcceptInv(lastId: int, st: PollState, m: Message)
    requires Inv(lastId, st)
    ensures Inv(lastId, Accept(lastId, st, m))
    ensures Ids(Accept(lastId, st, m).captured) == Ids(st.captured) + NewIds([m], lastId)
  {
    if Eligible(m, lastId, st.seen) {
      assert Ids(st.captured + [m]) == Ids(st.captured) + {m.id};
    }
  }

  lemma NewIdsCons(batch: seq<Message>, lastId: int)
    requires |batch| > 0
    ensures NewIds(batch, lastId) == NewIds([batch[0]], lastId) + NewIds(batch[1..], lastId)
  {
    assert forall x :: x in batch <==> x == batch[0] || x in batch[1..];
  }

  /** Processing one fetched batch in fetch order. */
  function Step(lastId: int, st: PollState, batch: seq<Message>): (r: PollState)
    ensures st.captured <= r.captured
    ensures forall i :: |st.captured| <= i < |r.captured| ==> r.captured[i] in batch
    ensures |r.captured| <= |st.captured| + |batch|
    decreases |batch|
  {
    if |batch| == 0 then st
    else
      var next := Accept(lastId, st, batch[0]);
      var r := Step(lastId, next, batch[1..]);
      assert forall i :: |st.captured| <= i < |r.captured| ==> r.captured[i] in batch by {
        forall i | |st.captured| <= i < |r.captured| ensures r.captured[i] in batch {
          if i < |next.captured| {
            assert next.captured[i] == batch[0];
          } else {
            assert r.captured[i] in batch[1..];
          }
        }
      }
      r
  }

  /** A batch keeps the invariant, and the captured ids grow by exactly the
      batch's ids above the watermark. */
  lemma {:induction false} StepInv(lastId: int, st: PollState, batch: seq<Message>)
    requires Inv(lastId, st)
    ensures Inv(lastId, Step(lastId, st, batch))
    ensures Ids(Step(lastId, st, batch).captured) == Ids(st.captured) + NewIds(batch, lastId)
    decreases |batch|
  {
    if |batch| > 0 {
      AcceptInv(lastId, st, batch[0]);
      NewIdsCons(batch, lastId);
      StepInv(lastId, Accept(lastId, st, batch[0]), batch[1..]);
    }
  }

  /** Every message in `ms` was fetched by one of the first `n` rounds. */
  predicate FetchedBy(fetch: nat -> Fetch, n: nat, ms: seq<Message>) {
    forall i :: 0 <= i < |ms| ==> exists k :: 0 <= k < n && ms[i] in Received(fetch(k))
  }

  /** The state after the first `n` rounds, cap ignored. */
  function Collect(lastId: int, fetch: nat -> Fetch, n: nat): (st: PollState)
    ensures FetchedBy(fetch, n, st.captured)
  {
    if n == 0 then Empty
    else
      var prev := Collect(lastId, fetch, n - 1);
      var st := Step(lastId, prev, Received(fetch(n - 1)));
      assert forall i :: 0 <= i < |prev.captured| ==> st.captured[i] == prev.captured[i];
      st
  }

  /** A round only appends: what the earlier rounds captured stays, in order. */
  lemma CollectExtends(lastId: int, fetch: nat -> Fetch, n: nat)
    requires n > 0
    ensures Collect(lastId, fetch, n - 1).captured <= Collect(lastId, fetch, n).captured
  {
    var prev := Collect(lastId, fetch, n - 1);
    var st := Collect(lastId, fetch, n);
    assert forall i :: 0 <= i < |prev.captured| ==> st.captured[i] == prev.captured[i];
  }

  /** However the fetch windows overlap, after `n` rounds the captured ids are
      pairwise distinct, all above the watermark, tracked exactly by
      `seen_ids`, and are exactly the ids above the watermark fetched so far. */
  lemma {:induction false} CollectInv(lastId: int, fetch: nat -> Fetch, n: nat)
    ensures Inv(lastId, Collect(lastId, fetch, n))
    ensures Ids(Collect(lastId, fetch, n).captured) == NewIdsUpTo(lastId, fetch, n)
  {
    if n > 0 {
      CollectInv(lastId, fetch, n - 1);
      StepInv(lastId, Collect(lastId, fetch, n - 1), Received(fetch(n - 1)));
    }
  }

  /** A round adds at most the messages it fetched. */
  lemma CollectGrowth(lastId: int, fetch: nat -> Fetch, n: nat)
    requires n > 0
    ensures |Collect(lastId, fetch, n).captured| <= |Collect(lastId, fetch, n - 1).captured| + |Received(fetch(n - 1))|
  {
  }

  /** Every id above the watermark that the first `n` rounds fetched. */
  function NewIdsUpTo(lastId: int, fetch: nat -> Fetch, n: nat): set<int> {
    if n == 0 then {}
    else NewIdsUpTo(lastId, fetch, n - 1) + NewIds(Received(fetch(n - 1)), lastId)
  }

  /** Milliseconds elapsed when round `n` checks the clock. */
  function Elapsed(fetch: nat -> Fetch, n: nat): (ms: nat)
    ensures ms >= 5000 * n
  {
    if n == 0 then 0 else Elapsed(fetch, n - 1) + IntervalMs + fetch(n - 1).latencyMs
  }

  /** The number of rounds the loop has run when it stops, if it reaches
      round `k`: a round starts while fewer than 90 s have elapsed, and the
      loop breaks after the first round that brings the total to five. */
  function RoundsFrom(lastId: int, fetch: nat -> Fetch, k: nat): (r: nat)
    requires k <= MaxRounds
    ensures k <= r <= MaxRounds
    decreases MaxRounds - k
  {
    if Elapsed(fetch, k) >= TimeoutMs then k
    else
      assert k < MaxRounds by {
        assert 5000 * k < TimeoutMs;
      }
      if |Collect(lastId, fetch, k + 1).captured| >= MaxMessages then k + 1
      else RoundsFrom(lastId, fetch, k + 1)
  }

  /** Every round the loop runs starts before the 90 s deadline. */
  lemma {:induction false} RoundsStartInTime(lastId: int, fetch: nat -> Fetch, k: nat, j: nat)
    requires k <= j && k <= MaxRounds && j < RoundsFrom(lastId, fetch, k)
    ensures Elapsed(fetch, j) < TimeoutMs
    decreases MaxRounds - k
  {
    if j > k {
      RoundsStartInTime(lastId, fetch, k + 1, j);
    }
  }

  /** The cap is only checked after a whole batch: no round before the last
      one had reached five captured messages. */
  lemma {:induction false} RoundsBelowCap(lastId: int, fetch: nat -> Fetch, k: nat, j: nat)
    requires k < j && k <= MaxRounds && j < RoundsFrom(lastId, fetch, k)
    ensures |Collect(lastId, fetch, j).captured| < MaxMessages
    decreases MaxRounds - k
  {
    RoundsContinue(lastId, fetch, k);
    if j > k + 1 {
      RoundsBelowCap(lastId, fetch, k + 1, j);
    }
  }

  /** A loop that runs past round `k + 1` found fewer than five messages
      after it, and goes on from there. */
  lemma RoundsContinue(lastId: int, fetch: nat -> Fetch, k: nat)
    requires k <= MaxRounds && k + 1 < RoundsFrom(lastId, fetch, k)
    ensures k + 1 <= MaxRounds
    ensures |Collect(lastId, fetch, k + 1).captured| < MaxMessages
    ensures RoundsFrom(lastId, fetch, k) == RoundsFrom(lastId, fetch, k + 1)
  {
  }

  /** The loop stops only at the deadline or once five messages are held. */
  lemma {:induction false} RoundsStop(lastId: int, fetch: nat -> Fetch, k: nat)
    requires k <= MaxRounds
    ensures var r := RoundsFrom(lastId, fetch, k);
            Elapsed(fetch, r) >= TimeoutMs || (r > k && |Collect(lastId, fetch, r).captured| >= MaxMessages)
    decreases MaxRounds - k
  {
    if Elapsed(fetch, k) < TimeoutMs && |Collect(lastId, fetch, k + 1).captured| < MaxMessages {
      RoundsStop(lastId, fetch, k + 1);
    }
  }

  function Rounds(lastId: int, fetch: nat -> Fetch): nat {
    RoundsFrom(lastId, fetch, 0)
  }

  /** The messages the loop captures, in capture order. */
  function Poll(lastId: int, fetch: nat -> Fetch): (r: seq<Message>)
    ensures DistinctIds(r)
    ensures forall i :: 0 <= i < |r| ==> r[i].id > lastId
    ensures FetchedBy(fetch, Rounds(lastId, fetch), r)
  {
    CollectInv(lastId, fetch, Rounds(lastId, fetch));
    Collect(lastId, fetch, Rounds(lastId, fetch)).captured
  }

  /** The loop's result: captured ids are pairwise distinct, all above the
      watermark, and are exactly the ids above the watermark among the
      batches of the rounds that ran. */
  lemma PollCaptures(lastId: int, fetch: nat -> Fetch)
    ensures DistinctIds(Poll(lastId, fetch))
    ensures forall i :: 0 <= i < |Poll(lastId, fetch)| ==> Poll(lastId, fetch)[i].id > lastId
    ensures Ids(Poll(lastId, fetch)) == NewIdsUpTo(lastId, fetch, Rounds(lastId, fetch))
  {
    CollectInv(lastId, fetch, Rounds(lastId, fetch));
  }

  /** Nothing truncates the last batch: with every fetch holding at most 20
      messages, fewer than 5 + 20 messages are ever captured, and never more
      than the rounds fetched. */
  lemma PollBound(lastId: int, fetch: nat -> Fetch)
    requires forall k :: |Received(fetch(k))| <= FetchLimit
    ensures |Poll(lastId, fetch)| < MaxMessages + FetchLimit
  {
    var r := Rounds(lastId, fetch);
    if r > 0 {
      CollectGrowth(lastId, fetch, r);
      assert |Received(fetch(r - 1))| <= FetchLimit;
      if r > 1 {
        RoundsBelowCap(lastId, fetch, 0, r - 1);
      }
    }
  }

  /** A batch of distinct messages that are all new is captured whole, in
      fetch order. */
  lemma {:induction false} StepAllNew(lastId: int, st: PollState, batch: seq<Message>)
    requires DistinctIds(batch)
    requires forall i :: 0 <= i < |batch| ==> batch[i].id != 0 && batch[i].id > lastId && batch[i].id !in st.seen
    ensures Step(lastId, st, batch).captured == st.captured + batch
    decreases |batch|
  {
    if |batch| > 0 {
      var next := Accept(lastId, st, batch[0]);
      assert next == PollState(st.captured + [batch[0]], st.seen + {batch[0].id});
      AllNewTail(lastId, st, batch);
      StepCons(lastId, st, batch);
      StepAllNew(lastId, next, batch[1..]);
      assert st.captured + [batch[0]] + batch[1..] == st.captured + batch;
    }
  }

  /** One message processed, the rest still to go. */
  lemma StepCons(lastId: int, st: PollState, batch: seq<Message>)
    requires |batch| > 0
    ensures Step(lastId, st, batch) == Step(lastId, Accept(lastId, st, batch[0]), batch[1..])
  {
  }

  /** After the first of a batch of distinct new messages is taken, the rest
      are still distinct and unseen. */
  lemma AllNewTail(lastId: int, st: PollState, batch: seq<Message>)
    requires |batch| > 0 && DistinctIds(batch)
    requires forall i :: 0 <= i < |batch| ==> batch[i].id != 0 && batch[i].id > lastId && batch[i].id !in st.seen
    ensures DistinctIds(batch[1..])
    ensures forall i :: 0 <= i < |batch[1..]| ==>
              batch[1..][i].id != 0 && batch[1..][i].id > lastId && batch[1..][i].id !in st.seen + {batch[0].id}
  {
    forall i | 0 <= i < |batch[1..]|
      ensures batch[1..][i].id != 0 && batch[1..][i].id > lastId && batch[1..][i].id !in st.seen + {batch[0].id}
    {
      assert batch[1..][i] == batch[i + 1];
    }
    forall i, j | 0 <= i < j < |batch[1..]| ensures batch[1..][i].id != batch[1..][j].id {
      assert batch[1..][i] == batch[i + 1] && batch[1..][j] == batch[j + 1];
    }
  }

  /** A single batch of six new messages is captured whole: the cap of five
      does not cut it. */
  lemma CapDoesNotTruncate()
    ensures var six := [Message(6, "f", None), Message(5, "e", None), Message(4, "d", None),
                        Message(3, "c", None), Message(2, "b", None), Message(1, "a", None)];
            |Poll(0, (k: nat) => Fetch(0, Some(six)))| == 6
  {
    var six := [Message(6, "f", None), Message(5, "e", None), Message(4, "d", None),
                Message(3, "c", None), Message(2, "b", None), Message(1, "a", None)];
    var fetch := (k: nat) => Fetch(0, Some(six));
    SixCollected(six, fetch);
    assert Rounds(0, fetch) == 1;
  }

  lemma SixCollected(six: seq<Message>, fetch: nat -> Fetch)
    requires six == [Message(6, "f", None), Message(5, "e", None), Message(4, "d", None),
                     Message(3, "c", None), Message(2, "b", None), Message(1, "a", None)]
    requires forall k :: fetch(k) == Fetch(0, Some(six))
    ensures |Collect(0, fetch, 1).captured| == 6
  {
    SixAllNew(six);
    StepAllNew(0, Empty, six);
    assert Collect(0, fetch, 1) == Step(0, Empty, six);
  }

  lemma SixAllNew(six: seq<Message>)
    requires six == [Message(6, "f", None), Message(5, "e", None), Message(4, "d", None),
                     Message(3, "c", None), Message(2, "b", None), Message(1, "a", None)]
    ensures DistinctIds(six)
    ensures forall i :: 0 <= i < |six| ==> six[i].id != 0 && six[i].id > 0 && six[i].id !in Empty.seen
  {
    assert forall i :: 0 <= i < |six| ==> six[i].id == 6 - i;
  }
}

=== FILE: strings.dfy ===
/** Character classes and string operations of the two host languages the
    system is written in: Python (`str.strip`, `str.split`, `str.join`,
    `str.lower`, `str.upper`) on the backend and JavaScript (`String.trim`,
    `/i` regular-expression matching) on the frontend. */
module Strings {

  /** Which language's notion of white space a trimming operation uses. */
  datatype Flavor = Python | JavaScript

  /** Python's `str.isspace()`: the Unicode White_Space characters plus the
      ASCII information separators U+001C..U+001F and U+0085. */
  predicate IsPySpace(c: char) {
    ('\t' <= c <= '\r') || ('\U{1C}' <= c <= ' ') || c == '\U{85}' || c == '\U{A0}'
    || c == '\U{1680}' || ('\U{2000}' <= c <= '\U{200A}') || c == '\U{2028}'
    || c == '\U{2029}' || c == '\U{202F}' || c == '\U{205F}' || c == '\U{3000}'
  }

  /** JavaScript's WhiteSpace and LineTerminator productions, the set used by
      `String.prototype.trim` and by `\s` in a regular expression. */
  predicate IsJsSpace(c: char) {
    ('\t' <= c <= '\r') || c == ' ' || c == '\U{A0}' || c == '\U{1680}'
    || ('\U{2000}' <= c <= '\U{200A}') || c == '\U{2028}' || c == '\U{2029}'
    || c == '\U{202F}' || c == '\U{205F}' || c == '\U{3000}' || c == '\U{FEFF}'
  }

  /** JavaScript line terminators: the characters `.` does not match. */
  predicate IsLineTerminator(c: char) {
    c == '\n' || c == '\r' || c == '\U{2028}' || c == '\U{2029}'
  }

  predicate IsSpace(f: Flavor, c: char) {
    match f
    case Python => IsPySpace(c)
    case JavaScript => IsJsSpace(c)
  }

  /** No white space at either end. */
  predicate IsStripped(f: Flavor, s: string) {
    s == [] || (!IsSpace(f, s[0]) && !IsSpace(f, s[|s| - 1]))
  }

  predicate AllSpace(f: Flavor, s: string) {
    forall i :: 0 <= i < |s| ==> IsSpace(f, s[i])
  }

  /** Drops trailing white space. */
  function TrimRight(f: Flavor, s: string): (r: string)
    ensures |r| <= |s| && r == s[..|r|]
    ensures AllSpace(f, s[|r|..])
    ensures r == [] || !IsSpace(f, r[|r| - 1])
    decreases |s|
  {
    if |s| > 0 && IsSpace(f, s[|s| - 1]) then
      var r := TrimRight(f, s[..|s| - 1]);
      assert s[|r|..] == s[..|s| - 1][|r|..] + [s[|s| - 1]];
      r
    else s
  }

  /** Number of white-space characters at the start of `s`. */
  function LeadingSpace(f: Flavor, s: string): (k: nat)
    ensures k <= |s| && AllSpace(f, s[..k])
    ensures k == |s| || !IsSpace(f, s[k])
    decreases |s|
  {
    if |s| > 0 && IsSpace(f, s[0]) then
      var k := 1 + LeadingSpace(f, s[1..]);
      assert s[..k] == [s[0]] + s[1..][..k - 1];
      k
    else 0
  }

  /** Python's `s.strip()` / JavaScript's `s.trim()`: the infix of `s` left
      once the white space at both ends is removed. */
  function Strip(f: Flavor, s: string): (r: string)
    ensures IsStripped(f, r)
    ensures LeadingSpace(f, s) + |r| <= |s|
    ensures r == s[LeadingSpace(f, s)..LeadingSpace(f, s) + |r|]
    ensures AllSpace(f, s[LeadingSpace(f, s) + |r|..])
  {
    var k := LeadingSpace(f, s);
    var t := s[k..];
    var r := TrimRight(f, t);
    assert r == [] || r[0] == s[k];
    assert s[k + |r|..] == t[|r|..];
    r
  }

  lemma {:induction false} StrippedFixpoint(f: Flavor, s: string)
    requires IsStripped(f, s)
    ensures Strip(f, s) == s
  {
    assert LeadingSpace(f, s) == 0;
    assert TrimRight(f, s) == s;
  }

  lemma StripIdempotent(f: Flavor, s: string)
    ensures Strip(f, Strip(f, s)) == Strip(f, s)
  {
    StrippedFixpoint(f, Strip(f, s));
  }

  /** A string made of white space only strips to the empty string. */
  lemma {:induction false} StripAllSpace(f: Flavor, s: string)
    requires AllSpace(f, s)
    ensures Strip(f, s) == []
  {
  }

  /** Number of occurrences of `c` in `s`. */
  function Count(s: string, c: char): nat {
    if |s| == 0 then 0 else (if s[0] == c then 1 else 0) + Count(s[1..], c)
  }

  lemma {:induction false} CountZero(s: string, c: char)
    requires c !in s
    ensures Count(s, c) == 0
  {
    if |s| > 0 {
      assert s[1..] == s[1..] && c !in s[1..] by {
        forall i | 0 <= i < |s[1..]| ensures s[1..][i] != c {
          assert s[1..][i] == s[i + 1];
        }
      }
      CountZero(s[1..], c);
    }
  }

  lemma {:induction false} CountAppend(a: string, b: string, c: char)
    ensures Count(a + b, c) == Count(a, c) + Count(b, c)
  {
    if |a| == 0 {
      assert a + b == b;
    } else {
      assert (a + b)[1..] == a[1..] + b;
      CountAppend(a[1..], b, c);
    }
  }

  /** Python's `sep.join(parts)`. */
  function Join(parts: seq<string>, sep: string): string {
    if |parts| == 0 then []
    else if |parts| == 1 then parts[0]
    else parts[0] + sep + Join(parts[1..], sep)
  }

  /** Python's `s.split(sep)` for a one-character separator: the pieces
      between consecutive occurrences of `sep`. */
  function Split(s: string, sep: char): (r: seq<string>)
    ensures |r| == Count(s, sep) + 1
    ensures forall i :: 0 <= i < |r| ==> sep !in r[i]
    ensures Join(r, [sep]) == s
    decreases |s|
  {
    if |s| == 0 then [[]]
    else
      var rest := Split(s[1..], sep);
      if s[0] == sep then
        assert s == [sep] + s[1..];
        [[]] + rest
      else
        assert s == [s[0]] + s[1..];
        JoinExtendHead([s[0]], rest, [sep]);
        [[s[0]] + rest[0]] + rest[1..]
  }

  lemma JoinExtendHead(x: string, parts: seq<string>, sep: string)
    requires |parts| >= 1
    ensures Join([x + parts[0]] + parts[1..], sep) == x + Join(parts, sep)
  {
    var q := [x + parts[0]] + parts[1..];
    assert q[1..] == parts[1..];
  }

  /** Splitting undoes joining when no part holds the separator. */
  lemma {:induction false} SplitJoin(parts: seq<string>, sep: char)
    requires |parts| >= 1
    requires forall i :: 0 <= i < |parts| ==> sep !in parts[i]
    ensures Split(Join(parts, [sep]), sep) == parts
    decreases |Join(parts, [sep])|
  {
    var p := parts[0];
    if |p| == 0 {
      if |parts| == 1 {
        assert Join(parts, [sep]) == [];
      } else {
        var j := Join(parts, [sep]);
        assert j == [sep] + Join(parts[1..], [sep]);
        assert j[1..] == Join(parts[1..], [sep]);
        SplitJoin(parts[1..], sep);
        assert parts == [[]] + parts[1..];
      }
    } else {
      var q := [p[1..]] + parts[1..];
      assert q[1..] == parts[1..];
      assert sep !in p[1..] by {
        forall i | 0 <= i < |p[1..]| ensures p[1..][i] != sep {
          assert p[1..][i] == p[i + 1];
        }
      }
      SplitJoin(q, sep);
      var j := Join(parts, [sep]);
      assert j[0] == p[0];
      JoinExtendHead([p[0]], q, [sep]);
      assert [p[0]] + q[0] == p;
      assert [[p[0]] + q[0]] + q[1..] == parts;
      assert j == [p[0]] + Join(q, [sep]);
      assert j[1..] == Join(q, [sep]);
    }
  }

  predicate StartsWith(s: string, prefix: string) {
    |prefix| <= |s| && s[..|prefix|] == prefix
  }

  predicate EndsWith(s: string, suffix: string) {
    |suffix| <= |s| && s[|s| - |suffix|..] == suffix
  }

  /** `needle` occurs somewhere in `s`. */
  predicate Contains(s: string, needle: string)
    decreases |s|
  {
    StartsWith(s, needle) || (|s| > 0 && Contains(s[1..], needle))
  }

  /** ASCII lower-casing, the case folding a JavaScript `/i` pattern made of
      ASCII letters applies to its subject (non-ASCII characters never fold
      onto ASCII ones there). */
  function AsciiLower(c: char): char {
    if 'A' <= c <= 'Z' then (c as int + 32) as char else c
  }

  function AsciiLowerString(s: string): (r: string)
    ensures |r| == |s|
    ensures forall i :: 0 <= i < |s| ==> r[i] == AsciiLower(s[i])
  {
    if |s| == 0 then [] else [AsciiLower(s[0])] + AsciiLowerString(s[1..])
  }

  /** `s` contains `needle` ignoring ASCII case; `needle` is lower-case. */
  predicate ContainsNoCase(s: string, needle: string) {
    Contains(AsciiLowerString(s), needle)
  }

  /** Python's `str.lower()` on the Basic Latin and Latin-1 letters. */
  function PyLower(c: char): char {
    if 'A' <= c <= 'Z' || ('\U{C0}' <= c <= '\U{DE}' && c != '\U{D7}') then (c as int + 32) as char
    else c
  }

  /** Python's `str.upper()` on one Basic Latin or Latin-1 character that
      upper-cases to one character: every one but `\U{DF}` (sharp s).
      The micro sign and y with diaeresis leave Latin-1. */
  function PyUpper(c: char): char {
    if 'a' <= c <= 'z' || ('\U{E0}' <= c <= '\U{FE}' && c != '\U{F7}') then (c as int - 32) as char
    else if c == '\U{B5}' then '\U{39C}'
    else if c == '\U{FF}' then '\U{178}'
    else c
  }

  /** Python's `str.upper()` on one character: sharp s becomes `SS`. */
  function PyUpperText(c: char): (r: string)
    ensures |r| == if c == '\U{DF}' then 2 else 1
  {
    if c == '\U{DF}' then "SS" else [PyUpper(c)]
  }

  function Lower(s: string): (r: string)
    ensures |r| == |s|
    ensures forall i :: 0 <= i < |s| ==> r[i] == PyLower(s[i])
  {
    if |s| == 0 then [] else [PyLower(s[0])] + Lower(s[1..])
  }

  /** Python's `str.upper()`: each character's upper-case text, in order. */
  function Upper(s: string): (r: string)
    ensures |r| >= |s|
    ensures '\U{DF}' !in s ==> |r| == |s| && forall i :: 0 <= i < |s| ==> r[i] == PyUpper(s[i])
  {
    if |s| == 0 then []
    else
      assert '\U{DF}' !in s ==> '\U{DF}' !in s[1..];
      PyUpperText(s[0]) + Upper(s[1..])
  }

  /** Upper-casing distributes over concatenation. */
  lemma {:induction false} UpperAppend(a: string, b: string)
    ensures Upper(a + b) == Upper(a) + Upper(b)
  {
    if |a| > 0 {
      assert (a + b)[0] == a[0] && (a + b)[1..] == a[1..] + b;
      UpperAppend(a[1..], b);
    } else {
      assert a + b == b;
    }
  }

  /** Upper-casing a sharp s lengthens the text: `stra\U{DF}e` becomes
      `STRASSE`. */
  lemma UpperSharpS()
    ensures Upper("stra\U{DF}e") == "STRASSE"
  {
    UpperSharpSAt("stra", "\U{DF}e");
    assert "stra" + "\U{DF}e" == "stra\U{DF}e";
  }

  lemma UpperSharpSAt(a: string, b: string)
    requires a == "stra" && b == "\U{DF}e"
    ensures Upper(a + b) == "STRASSE"
  {
    UpperAppend(a, b);
    UpperStra(a);
    UpperSharpE(b);
  }

  lemma UpperStra(a: string)
    requires a == "stra"
    ensures Upper(a) == "STRA"
  {
    var r := Upper(a);
    assert r[0] == 'S' && r[1] == 'T' && r[2] == 'R' && r[3] == 'A';
  }

  lemma UpperSharpE(b: string)
    requires b == "\U{DF}e"
    ensures Upper(b) == "SSE"
  {
    assert b[1..] == "e";
    assert Upper(b[1..]) == "E";
  }

  /** An occurrence of `needle` at a known offset is an occurrence. */
  lemma {:induction false} ContainsAt(s: string, needle: string, i: nat)
    requires i + |needle| <= |s| && s[i..i + |needle|] == needle
    ensures Contains(s, needle)
    decreases i
  {
    if i > 0 {
      assert s[1..][i - 1..i - 1 + |needle|] == needle;
      ContainsAt(s[1..], needle, i - 1);
    }
  }

  /** Where the `i`-th part starts inside `Join(parts, sep)`. */
  function JoinOffset(parts: seq<string>, sep: string, i: nat): nat
    requires i < |parts|
  {
    if i == 0 then 0 else |parts[0]| + |sep| + JoinOffset(parts[1..], sep, i - 1)
  }

  /** Every part of a join occurs in it, at its offset. */
  lemma {:induction false} JoinHasPart(parts: seq<string>, sep: string, i: nat)
    requires i < |parts|
    ensures JoinOffset(parts, sep, i) + |parts[i]| <= |Join(parts, sep)|
    ensures Join(parts, sep)[JoinOffset(parts, sep, i)..JoinOffset(parts, sep, i) + |parts[i]|] == parts[i]
  {
    var j := Join(parts, sep);
    if i == 0 {
      if |parts| > 1 {
        assert j == parts[0] + (sep + Join(parts[1..], sep));
      }
    } else {
      JoinHasPart(parts[1..], sep, i - 1);
      var o := JoinOffset(parts[1..], sep, i - 1);
      var p := |parts[0]| + |sep|;
      assert j == (parts[0] + sep) + Join(parts[1..], sep);
      assert j[p + o..p + o + |parts[i]|] == Join(parts[1..], sep)[o..o + |parts[i]|];
    }
  }

  /** Leading white space ends at or before the first non-space character. */
  lemma LeadingSpaceBefore(f: Flavor, j: string, o: nat)
    requires o < |j| && !IsSpace(f, j[o])
    ensures LeadingSpace(f, j) <= o
  {
    var k := LeadingSpace(f, j);
    assert forall t :: 0 <= t < k ==> j[..k][t] == j[t];
  }

  /** Trailing white space starts after the last non-space character. */
  lemma StripEndsAfter(f: Flavor, j: string, e: nat)
    requires e < |j| && !IsSpace(f, j[e])
    ensures e < LeadingSpace(f, j) + |Strip(f, j)|
  {
    var m := LeadingSpace(f, j) + |Strip(f, j)|;
    assert forall u :: 0 <= u < |j| - m ==> j[m..][u] == j[m + u];
  }

  /** A non-empty stripped part of a join survives stripping the join. */
  lemma StripKeepsPart(parts: seq<string>, sep: string, i: nat, f: Flavor)
    requires i < |parts|
    requires parts[i] != [] && IsStripped(f, parts[i])
    ensures Contains(Strip(f, Join(parts, sep)), parts[i])
  {
    JoinHasPart(parts, sep, i);
    StripKeepsOccurrence(f, Join(parts, sep), JoinOffset(parts, sep, i), parts[i]);
  }

  /** A non-empty stripped occurrence survives stripping. */
  lemma StripKeepsOccurrence(f: Flavor, j: string, o: nat, p: string)
    requires p != [] && IsStripped(f, p)
    requires o + |p| <= |j| && j[o..o + |p|] == p
    ensures Contains(Strip(f, j), p)
  {
    StripAround(f, j, o, p);
    OccurrenceInside(j, LeadingSpace(f, j), Strip(f, j), o, p);
  }

  /** The stripped window covers a stripped occurrence. */
  lemma StripAround(f: Flavor, j: string, o: nat, p: string)
    requires p != [] && IsStripped(f, p)
    requires o + |p| <= |j| && j[o..o + |p|] == p
    ensures LeadingSpace(f, j) <= o && o + |p| <= LeadingSpace(f, j) + |Strip(f, j)|
  {
    RunEnds(j, o, p);
    StripBounds(f, j, o, |p|);
  }

  /** Stripping never cuts into a run that starts and ends with non-space
      characters. */
  lemma StripBounds(f: Flavor, j: string, o: nat, n: nat)
    requires 0 < n && o + n <= |j|
    requires !IsSpace(f, j[o]) && !IsSpace(f, j[o + n - 1])
    ensures LeadingSpace(f, j) <= o && o + n <= LeadingSpace(f, j) + |Strip(f, j)|
  {
    LeadingSpaceBefore(f, j, o);
    StripEndsAfter(f, j, o + n - 1);
  }

  /** An occurrence inside the window a slice was taken from is an
      occurrence in the slice. */
  lemma OccurrenceInside(j: string, k: nat, r: string, o: nat, p: string)
    requires k + |r| <= |j| && r == j[k..k + |r|]
    requires k <= o && o + |p| <= k + |r| && j[o..o + |p|] == p
    ensures Contains(r, p)
  {
    var q := o - k;
    var w := r[q..q + |p|];
    forall t | 0 <= t < |p| ensures w[t] == p[t] {
      assert w[t] == r[q + t] == j[o + t];
      assert p[t] == j[o..o + |p|][t];
    }
    assert w == p;
    ContainsAt(r, p, q);
  }

  /** The ends of an occurrence are the ends of the needle. */
  lemma RunEnds(j: string, o: nat, p: string)
    requires |p| > 0 && o + |p| <= |j| && j[o..o + |p|] == p
    ensures j[o] == p[0] && j[o + |p| - 1] == p[|p| - 1]
  {
    assert j[o..o + |p|][0] == j[o];
    assert j[o..o + |p|][|p| - 1] == j[o + |p| - 1];
  }
}

=== FILE: wrappers.dfy ===
/** Failure-compatible wrappers shared by every module of the model: `Option`
    stands for Python's `None`/value and JavaScript's `null`/value, `Result`
    for a value or a raised exception. */
module Wrappers {

  datatype Option<+T> = None | Some(value: T) {

    /** Returns the value held in Some, or `default` for None. */
    function GetOr(default: T): T {
      match this
      case Some(v) => v
      case None => default
    }
  }

  datatype Result<+T, +E> = Success(value: T) | Failure(error: E) {

    predicate IsFailure() {
      Failure?
    }

    function PropagateFailure<U>(): Result<U, E>
      requires Failure?
    {
      Failure(error)
    }

    function Extract(): T
      requires Success?
    {
      value
    }
  }
}
